=== FILE: README.md ===
# NOX OpenFlow 1.3 controller core, modelled in Dafny

This project models the core of the NOX controller for OpenFlow 1.3
(CPqD nox13oflib) and proves properties of the model. The modules are:

- `openflow.dfy` (`OpenFlow`): the OpenFlow 1.3 wire constants the core uses (message, multipart, action, instruction and port codes), errno codes, the decoded-message record, and the `Realloc` step that the growable arrays use.
- `msg_event.dfy` (`MsgEvent`): how a received message becomes an `Ofp_msg_event`, and how message and multipart types map to event names.
- `dispatcher.dfy` (`EventDispatcher`): the event dispatcher component. It covers:
  - the filter chains built from the configuration;
  - the set of registered events;
  - handler registration with the order of the filter.
- `classifier.dfy` (`PacketClassifier`): the packet-in classifier. It invokes the top-priority band of a rule result.
- `nox.cc`, split over two modules:
  - `nox.dfy` (`Nox`): the connection registry, the poll/close life cycle of a connection, the posted-event queue, sending, and the transaction id counter.
  - `handshake.dfy` (`Handshake`): the handshake state machine a new switch connection runs before it is registered.
- `lldp.dfy` (`Lldp`): the discovery `Port`/`Link` order, and the LLDP frame that discovery builds and parses.
- `discovery.dfy` (`Discovery`): the discovery component. It keeps datapaths, ports, LLDP frames and links; it posts link events, sends frames round robin and ages links out.
- `switch.dfy` (`LearningSwitch`): the learning switch application.
- `actions.dfy` (`ActionList`), `instructions.dfy` (`InstructionList`) and `flowmod.dfy` (`FlowMods`): the builders for action lists, instruction lists and flow_mod messages.

State that the source updates in place is modelled as classes. Each method names the fields it may change in its `modifies` clause, and its `ensures` clauses give their new values in terms of the old ones. These classes cover:
- the registry;
- the dispatcher;
- the handshake;
- the discovery tables;
- the switch table;
- the builders' arrays.

Pure code is modelled as functions and lemmas:
- event names;
- LLDP frames;
- the port and link orders;
- the switch's decision rule.

Clocks, sockets, the OpenFlow codec and the switch authenticator are not modelled. They become parameters:
- the current time;
- the `Received` result of a read;
- the `Packed` result of packing;
- the authoriser's answer.

Posted events and sent messages are recorded as sequences in the order they are issued.

## Model

| member | source | states |
|---|---|---|
| OpenFlow.Realloc | src/lib/actions.cc:18-19 | a fresh array of exactly `n` slots that keeps every old slot below `n`; new slots are unset |
| MsgEvent.GetName | src/lib/ofp-msg-event.cc:22-62 | the name is non-empty exactly for the fifteen named message types |
| MsgEvent.GetStatsName | src/lib/ofp-msg-event.cc:64-88 | the name is non-empty exactly for the fifteen named multipart types |
| MsgEvent.GetNameInverse | src/lib/ofp-msg-event.cc:26-40 | every message-type name reads back to its own type, so no two types share a name |
| MsgEvent.GetStatsNameInverse | src/lib/ofp-msg-event.cc:68-82 | every multipart name reads back to its own multipart type |
| MsgEvent.NamesDistinct | src/lib/ofp-msg-event.cc:22-88 | the message names are pairwise distinct, the multipart names are too, and no message name is a multipart name |
| MsgEvent.RequestsHaveNoName | src/lib/ofp-msg-event.cc:42-60 | the controller-to-switch requests and the multipart reply type itself get the empty name |
| MsgEvent.CreateEvent | src/lib/ofp-msg-event.cc:7-20 | the event carries exactly its datapath, xid and message; its name is empty exactly when the type (the multipart subtype for a multipart reply) is unnamed |
| MsgEvent.CreateEventChannel | src/lib/ofp-msg-event.cc:7-20 | a multipart reply is named after its subtype and any other message after its type |
| EventDispatcher.ChainOfLastPosition | src/builtin/event-dispatcher-component.cc:57-62 | in a chain, a filter has an order exactly when it is listed, and its order is its last position in the list |
| EventDispatcher.ChainsOfLastEntry | src/builtin/event-dispatcher-component.cc:51-64 | an event configured more than once gets the chain of its last entry |
| EventDispatcher.ChainsOfUnconfigured | src/builtin/event-dispatcher-component.cc:51-64 | an event that is never configured has no chain |
| EventDispatcher.EffectiveOrderFromConfig | src/builtin/event-dispatcher-component.cc:148-157 | a handler's order is the filter's last position in its event's chain, and 0 when the chain does not list the filter |
| EventDispatcher.EffectiveOrderUnconfigured | src/builtin/event-dispatcher-component.cc:148-149 | a handler for an event without a chain gets order 0 |
| EventDispatcher.SystemEventsAreNotChannels | src/builtin/event-dispatcher-component.cc:67-70 | no system event's name collides with a message or multipart event name |
| EventDispatcher.StartupEventsDistinct | src/builtin/event-dispatcher-component.cc:67-96 | the constructor registers 29 pairwise distinct event names |
| EventDispatcher.StartupChannels | src/builtin/event-dispatcher-component.cc:72-96 | a named message type is registered at start-up unless it is FLOW_MOD, ROLE_REPLY or GET_ASYNC_REPLY; a named multipart type is registered unless it is METER_FEATURES or EXPERIMENTER |
| EventDispatcher.StartupMsgAt | src/builtin/event-dispatcher-component.cc:72-81 | a message-type name that appears among the start-up events belongs to one of the registered types |
| EventDispatcher.StartupStatsAt | src/builtin/event-dispatcher-component.cc:82-94 | a multipart name that appears among the start-up events belongs to one of the registered multipart types |
| EventDispatcher.MsgTypeRegistered | src/builtin/event-dispatcher-component.cc:72-96 | every named message type except the three left out is registered at start-up |
| EventDispatcher.StatsTypeRegistered | src/builtin/event-dispatcher-component.cc:82-94 | every named multipart type except the two left out is registered at start-up |
| EventDispatcher.HandlerTable.Register | src/builtin/nox.cc:262-266 | a registration appends one binding of event, order and handler |
| EventDispatcher.EventDispatcherComponent.constructor | src/builtin/event-dispatcher-component.cc:39-98 | the filter chains come from the configuration, and the registered events are exactly the start-up events |
| EventDispatcher.EventDispatcherComponent.Post | src/builtin/event-dispatcher-component.cc:125-128 | posting through the component changes nothing |
| EventDispatcher.EventDispatcherComponent.RegisterEvent | src/builtin/event-dispatcher-component.cc:131-138 | it succeeds exactly when the name was not registered, and afterwards the name is registered |
| EventDispatcher.EventDispatcherComponent.RegisterHandler | src/builtin/event-dispatcher-component.cc:141-160 | it fails and binds nothing for an unregistered event; otherwise it binds the handler at the filter's effective order |
| EventDispatcher.RegisterTwice | src/builtin/event-dispatcher-component.cc:131-138 | a second registration of the same name always fails |
| PacketClassifier.PrefixWithShape | src/builtin/packet-classifier.cc:53-57 | the band is a prefix of the result, all at the given priority, and the rule after it (if any) has another priority |
| PacketClassifier.TopBandShape | src/builtin/packet-classifier.cc:48-57 | the band is empty exactly for an empty result, and otherwise it is the longest prefix at the first rule's priority |
| PacketClassifier.TopBandOfSorted | src/builtin/packet-classifier.cc:53-57 | on a result ordered best first, the band is exactly the rules of the highest priority |
| PacketClassifier.PacketClassifier.RegisterPacketIn | src/builtin/packet-classifier.cc:29-35 | the handler is bound to the packet-in event at order 100 |
| PacketClassifier.PacketClassifier.Next | src/builtin/packet-classifier.cc:48 | it yields the rule at the cursor and advances, or yields nothing at the end |
| PacketClassifier.PacketClassifier.HandlePacketIn | src/builtin/packet-classifier.cc:37-62 | the invoked actions are exactly those of the top band, in order; the result is cleared; the disposition is CONTINUE |
| Nox.XidIssued | src/builtin/nox.cc:272-280 | a transaction id handed out is never 0 |
| Nox.XidSuccession | src/builtin/nox.cc:272-280 | successive ids are consecutive, and the id after 0xffffffff is 1 |
| Nox.Nox.constructor | src/builtin/nox.cc:85 | an empty registry that keeps the registry invariant |
| Nox.Nox.PostEvent | src/builtin/nox.cc:475-479 | the event is appended to the posted queue |
| Nox.Nox.Close | src/builtin/nox.cc:127-142 | the first close marks the connection closing, removes it from the map and the poll set, posts one datapath-leave and frees it when no poll is running; later closes change nothing |
| Nox.Nox.DoPoll | src/builtin/nox.cc:144-182 | the result says whether progress was made: exactly a decoded message or a closing read; a decoded message is dispatched as its event; EOF, an error other than EAGAIN, or a handler asking to close marks the connection closing, unmaps it, stops polling it and posts its datapath-leave; in every other case the arena, the map, the poll set and the posted queue are unchanged apart from the handlers' own effects, which are not composed in; the registry invariant holds |
| Nox.Nox.Poll | src/builtin/nox.cc:115-125 | as for DoPoll, including which event is dispatched; a connection closed during its own poll is freed only when its poll count returns to 0, and otherwise the arena, map, poll set and queue are unchanged apart from the handlers' own effects |
| Nox.Nox.StartPoll | src/builtin/nox.cc:115-117 | the connection's poll count goes up by one and nothing else in the arena changes |
| Nox.Nox.EndPoll | src/builtin/nox.cc:121-124 | the poll count goes down by one and the connection is freed exactly when it is closing and this was the last poll |
| Nox.Nox.DpidToConn | src/builtin/nox.cc:102-112 | a connection is found exactly for a registered datapath; it has that datapath id and is not closing |
| Nox.Nox.RegisterConn | src/builtin/nox.cc:879-895 | the new connection gets the next arena slot, live and unpolled, with its addresses and semaphore; the datapath maps to it and it is polled; a connection already registered for the datapath is marked closing (freed when no poll is running), unmapped, no longer polled and its leave event posted; every other connection is unchanged |
| Nox.Nox.AddConn | src/builtin/nox.cc:879-895 | the new live connection is appended to the arena, mapped from its datapath and polled, and the registry invariant still holds |
| Nox.Nox.RegisterAndPost | src/builtin/nox.cc:726-763 | the arena, map and poll set change exactly as by RegisterConn, and the posted queue gains any leave event of the displaced connection followed by the join event |
| Nox.Nox.SendOpenflowCommand | src/builtin/nox.cc:287-300 | an unknown datapath gives ESRCH and sends nothing; otherwise the bytes are sent and the transport's code returned |
| Nox.Nox.SendOpenflowMsg | src/builtin/nox.cc:302-314 | a packing error is returned as is; otherwise as for SendOpenflowCommand |
| Nox.Nox.CloseOpenflowConnection | src/builtin/nox.cc:357-367 | an unknown datapath gives ESRCH and changes nothing; otherwise 0 is returned and the connection is closed exactly as Close states: it is marked closing (freed when no poll is running), unmapped and no longer polled, its leave event is posted, and every other connection is unchanged |
| Nox.Nox.GetSwitchControllerIp | src/builtin/nox.cc:371-377 | the local address of the datapath's connection, or 0 for an unknown datapath |
| Nox.Nox.GetSwitchIp | src/builtin/nox.cc:379-385 | the remote address of the datapath's connection, or 0 for an unknown datapath |
| Nox.Nox.AllocateOpenflowXid | src/builtin/nox.cc:272-280 | it returns the issued id and advances the counter modulo 2^32 |
| Nox.Nox.RegisterSwitchAuth | src/builtin/nox.cc:513-519 | the first authoriser registered is kept and later ones are ignored |
| Nox.CloseTwice | src/builtin/nox.cc:127-142 | closing a connection twice posts exactly one datapath-leave event |
| Handshake.Step | src/builtin/nox.cc:595-800 | a passed deadline exits with ETIMEDOUT; every exit code is non-zero; a step moves forward by at most one state; it waits for authorisation exactly in CHECK_SWITCH_AUTH with an authoriser; admission needs a saved features reply with a non-zero datapath id and approval (or no authoriser) |
| Handshake.SendErrorExitsWithIt | src/builtin/nox.cc:595-622 | in a send state, EAGAIN blocks without changing the session, any other error exits with that error, and success moves to the next state |
| Handshake.RecvErrorExitsWithIt | src/builtin/nox.cc:625-639 | while waiting for the reply, EAGAIN blocks without changing the session and any other read error exits with it |
| Handshake.OnlyFeaturesReplyAdvances | src/builtin/nox.cc:640-685 | while waiting for the reply, the state changes exactly on a decoded features reply, which is saved, and the state becomes CHECK_SWITCH_AUTH; any successful read other than a features reply or an error message (an echo request, a packet-in, any other type, or a buffer that does not decode) yields with the session unchanged |
| Handshake.EchoAnswered | src/builtin/nox.cc:661-663 | an echo request received while waiting for the reply is answered and the session is kept |
| Handshake.ErrorMsgExitsEinval | src/builtin/nox.cc:664-670 | an OpenFlow error message received while waiting for the reply exits with EINVAL |
| Handshake.DpidZeroExitsEinval | src/builtin/nox.cc:712-724 | an approved registration (or one without an authoriser) of a features reply with datapath id 0 exits with EINVAL |
| Handshake.AuthDecided | src/builtin/nox.cc:704-708 | the authoriser's answer moves the handshake to REGISTER_SWITCH |
| Handshake.DriveWaits | src/builtin/nox.cc:625-633 | any number of EAGAIN reads while waiting for the features reply leave the handshake where it was |
| Handshake.HandshakeAdmits | src/builtin/nox.cc:595-800 | with no authoriser, two sends, waits, a features reply and one more step admit the switch under the reply's datapath id |
| Handshake.RejectedNeverAdmitted | src/builtin/nox.cc:712-718 | a switch the authoriser rejected exits with EPERM (or ETIMEDOUT after the deadline) and is never registered |
| Handshake.HandshakeFsm.constructor | src/builtin/nox.cc:579-593 | the handshake starts in SEND_FEATURES_REQ, unapproved, with the deadline set `timeout` seconds ahead |
| Handshake.HandshakeFsm.DoExit | src/builtin/nox.cc:802-812 | the code is reported through the error slot when there is one, and the disconnection semaphore is raised when there is one |
| Handshake.HandshakeFsm.Run | src/builtin/nox.cc:770-800 | the step's outcome is applied: a continuing, blocked or waiting step stores the next session and records any echo answered and leaves the registry, the error slot and the disconnection semaphore (whether there is one and how often it was raised) alone; an exit keeps the session, reports its code and raises the semaphore when there is one; admission registers the connection exactly as RegisterAndPost does, approves the session and moves it to REGISTER_SWITCH, hands the semaphore over and exits with 0 |
| Handshake.HandshakeFsm.Register | src/builtin/nox.cc:726-766 | an approved switch is registered with its addresses and disconnect semaphore (arena, map and poll set as by RegisterConn), any leave event and then the join event are posted, the saved reply, the timeout, the answered echoes and the semaphore's raise count are kept, and the handshake exits with code 0 without signalling the semaphore it handed over |
| Handshake.HandshakeFsm.SwitchAuthCb | src/builtin/nox.cc:704-708 | the session becomes the one AuthDecided gives |
| Lldp.PortOrder | src/nox/netapps/discovery/discovery.hh:42-57 | port equality is identity and `!=` its negation; `<` is a strict total order; two ports are equal exactly when neither is below the other |
| Lldp.LinkOrder | src/nox/netapps/discovery/discovery.hh:70-85 | the same facts for links, ordered by source port and then destination port |
| Lldp.BigEndianRoundTrip | src/nox/netapps/discovery/discovery.cc:340-350 | reading back `n` network-order bytes gives the value modulo 256^n |
| Lldp.LittleEndianRoundTrip | src/nox/netapps/discovery/discovery.cc:355-359 | reading back `n` host-order bytes gives the value modulo 256^n |
| Lldp.CreateLldpLayout | src/nox/netapps/discovery/discovery.cc:337-365 | the frame is 36 bytes: the LLDP multicast destination, ethertype 0x88cc at 12, chassis TLV at 14, port TLV at 23, TTL TLV at 30, end TLV at 34 |
| Lldp.ParseCreate | src/nox/netapps/discovery/discovery.cc:366-386 | parsing a created frame gives the port, with the datapath id cut to its low 48 bits |
| Lldp.ParseCreateExact | src/nox/netapps/discovery/discovery.cc:366-386 | for a datapath id that fits in 48 bits, parsing a created frame gives back exactly the port |
| Lldp.CreateLldpInjective | src/nox/netapps/discovery/discovery.cc:337-365 | distinct ports with 48-bit datapath ids get distinct frames |
| Lldp.ParseRejects | src/nox/netapps/discovery/discovery.cc:366-386 | a frame is rejected when it is shorter than 36 bytes, has another ethertype, has another chassis TLV header or chassis subtype, or has another port TLV header or port subtype |
| Lldp.ParseAccepts | src/nox/netapps/discovery/discovery.cc:366-386 | a frame of at least 36 bytes with the LLDP ethertype and the expected chassis and port TLV headers is accepted; the datapath id is read from the 6 network-order bytes at 17 and the port number from the 4 host-order bytes at 26 |
| Lldp.CreateLldp | src/nox/netapps/discovery/discovery.cc:337-365 | the frame is always 36 bytes long |
| Lldp.ParseLldp | src/nox/netapps/discovery/discovery.cc:366-386 | a frame is accepted only when it is at least 36 bytes long, and the datapath id read from it fits in 48 bits |
| Lldp.CreateLldpFields | src/nox/netapps/discovery/discovery.cc:340-359 | in a created frame, the chassis bytes read back as the datapath id modulo 2^48 and the port bytes read back as the port number |
| Discovery.LinkOf | src/nox/netapps/discovery/discovery.cc:248-250 | a link event names exactly one link |
| Discovery.ToTimeval | src/nox/netapps/discovery/discovery.cc:289-290 | splitting milliseconds into seconds and microseconds loses nothing |
| Discovery.PerPortIntervalSpreads | src/nox/netapps/discovery/discovery.cc:285-293 | the delay between frames is never below the packet-out period; unless it is held there, a round over all ports fits the per-port period as closely as whole milliseconds allow |
| Discovery.LastTime | src/nox/netapps/discovery/discovery.cc:299 | the time-out cut-off is `now - link_timeout`, wrapping modulo 2^64 when `now` is smaller |
| Discovery.Arg | src/nox/netapps/discovery/discovery.cc:44-59 | a period given as an argument replaces the current one, converted to 64 bits: an argument in range is kept, a negative one wraps to 2^64 plus it, and the result always agrees with the argument modulo 2^64; an absent argument keeps the current period |
| Discovery.LinksAt | src/nox/netapps/discovery/discovery.cc:217-223 | the links touching a set of ports are among the known links and include every such link |
| Discovery.LeastExists | src/nox/netapps/discovery/discovery.hh:80-85 | every non-empty set of links has a least link under `Link::operator<` |
| Discovery.SortedLinksMembers | src/nox/netapps/discovery/discovery.cc:215-223 | the link table's visiting order lists exactly the links of the table |
| Discovery.SortedLinksIncreasing | src/nox/netapps/discovery/discovery.cc:215-223 | the visiting order is strictly ascending, so each link is visited once |
| Discovery.SortedLinksHead | src/nox/netapps/discovery/discovery.cc:215-223 | the least link is visited first |
| Discovery.KeepMembers | src/nox/netapps/discovery/discovery.cc:166-175 | the ports left after removing a datapath are exactly the ports of other datapaths |
| Discovery.KeepErase | src/nox/netapps/discovery/discovery.cc:169-171 | erasing a port of the datapath does not change which ports remain |
| Discovery.IndexOf | src/nox/netapps/discovery/discovery.cc:201-210 | the first position of a listed port |
| Discovery.SortedPosted | src/nox/netapps/discovery/discovery.cc:270-282 | the REMOVE events of a set of links in table order name each link of the set exactly once |
| Discovery.PostedAppend | src/nox/netapps/discovery/discovery.cc:166-175 | events for two disjoint link sets, posted one after the other, are the events for their union |
| Discovery.EraseDistinct | src/nox/netapps/discovery/discovery.cc:228 | erasing one entry of a port list without repeats leaves every other port, once each |
| Discovery.EraseKeepsDistinct | src/nox/netapps/discovery/discovery.cc:228 | erasing one entry keeps a list free of repeats |
| Discovery.EraseMembers | src/nox/netapps/discovery/discovery.cc:228 | after erasing one entry of a list without repeats, a port is listed exactly when it was listed before and is not the erased one |
| Discovery.DpRemoveStep | src/nox/netapps/discovery/discovery.cc:166-175 | deleting one more port of the datapath deletes its links too, and posts one event per link |
| Discovery.RoundRobin | src/nox/netapps/discovery/discovery.cc:320-324 | the next frame comes from `next_port`, or from the first port once `next_port` has run past the end |
| Discovery.DiscoveryComponent.constructor | src/nox/netapps/discovery/discovery.cc:38-42 | no datapaths, ports or links; the default periods; `next_port` at 2^64-1 |
| Discovery.DiscoveryComponent.Configure | src/nox/netapps/discovery/discovery.cc:44-67 | each period is taken from its argument when given; the link event is registered; both intervals are set from the periods |
| Discovery.DiscoveryComponent.UpdateTimeval | src/nox/netapps/discovery/discovery.cc:285-293 | the per-port interval is the per-port period spread over the ports, but no shorter than the packet-out period |
| Discovery.DiscoveryComponent.PortAdd | src/nox/netapps/discovery/discovery.cc:182-198 | a known port changes nothing; a new port is appended with its LLDP frame; ports stay distinct and exactly the listed ports have frames |
| Discovery.DiscoveryComponent.DeleteLinks | src/nox/netapps/discovery/discovery.cc:215-223 | walking the link table removes exactly the doomed links and posts their REMOVE events in table order |
| Discovery.DiscoveryComponent.DeleteLinkEntry | src/nox/netapps/discovery/discovery.cc:270-282 | one link leaves the table and its REMOVE event is appended |
| Discovery.DiscoveryComponent.LinkDelete | src/nox/netapps/discovery/discovery.cc:256-282 | a known link is removed with one REMOVE event; an unknown link changes nothing |
| Discovery.DiscoveryComponent.PortDeleteAt | src/nox/netapps/discovery/discovery.cc:213-233 | the port, its frame and every link from or to it are removed, with one REMOVE event per link in table order; the interval is recomputed |
| Discovery.DiscoveryComponent.PortDelete | src/nox/netapps/discovery/discovery.cc:200-211 | an unknown port changes nothing; a known one is deleted as by PortDeleteAt; afterwards the port is gone and no link touches it |
| Discovery.DiscoveryComponent.DpRemove | src/nox/netapps/discovery/discovery.cc:165-180 | exactly the ports of other datapaths remain, in order; exactly the links at the removed ports are gone, and one REMOVE/DP event per such link is appended; the interval is recomputed when ports were removed and kept otherwise; the datapath is forgotten |
| Discovery.DiscoveryComponent.DpRemoveAt | src/nox/netapps/discovery/discovery.cc:169-171 | deleting one port of the datapath keeps the loop invariant: the ports left are the original ones minus the deleted ports of the datapath, and the events posted are those for the links of the deleted ports |
| Discovery.DiscoveryComponent.DpRemovedAtEnd | src/nox/netapps/discovery/discovery.cc:166-175 | once the loop has passed every port, the ports removed are exactly those of the datapath, so the state is the one DpRemove promises |
| Discovery.DiscoveryComponent.DpAdd | src/nox/netapps/discovery/discovery.cc:141-163 | the datapath is recorded; a datapath already known is first removed with everything DpRemove states (ports, links, REMOVE/DP events, interval); a new one changes nothing else |
| Discovery.DiscoveryComponent.LinkAdd | src/nox/netapps/discovery/discovery.cc:235-254 | the link's time is set to now; exactly one ADD/LINK event is posted, and only for a new link |
| Discovery.DiscoveryComponent.TimeoutLinks | src/nox/netapps/discovery/discovery.cc:295-312 | exactly the links last seen before the cut-off are removed, with REMOVE/LINK events in table order; the others keep their times |
| Discovery.DiscoveryComponent.SendLldp | src/nox/netapps/discovery/discovery.cc:314-334 | with ports, the frame of the port in turn is sent from the controller port to that port and `next_port` advances; with no ports nothing happens |
| Discovery.DiscoveryComponent.DpJoinHandler | src/nox/netapps/discovery/discovery.cc:80-90 | the datapath of the features reply is recorded; when it was known its ports, links and interval change and its REMOVE/DP events are posted as by DpRemove, and otherwise nothing else changes; the disposition is CONTINUE |
| Discovery.DiscoveryComponent.DpLeaveHandler | src/nox/netapps/discovery/discovery.cc:92-98 | the leaving datapath is forgotten and its ports, links, REMOVE/DP events and interval are handled as by DpRemove; the disposition is CONTINUE |
| Discovery.DiscoveryComponent.PortStatusHandler | src/nox/netapps/discovery/discovery.cc:100-116 | for a port number up to OFPP_MAX, ADD appends a new port (links and events unchanged, interval recomputed); DELETE of a known port removes it, its frame and exactly its links, posting one REMOVE/PORT event per link in table order, as PortDeleteAt states; every other case (a known port added, an unknown one deleted, another reason, a larger number) changes nothing |
| Discovery.DiscoveryComponent.PacketInHandler | src/nox/netapps/discovery/discovery.cc:118-139 | an LLDP frame records the link from the port it announces to port 1 of the receiving datapath, unless the two are the same port; any other packet changes nothing |
| LearningSwitch.PortRoundTrip | src/nox/coreapps/switch/switch.cc:180-181 | a port number stored in the `int` port field reads back unchanged |
| LearningSwitch.Int32Unique | src/nox/coreapps/switch/switch.cc:56 | each stored `int` stands for exactly one port number |
| LearningSwitch.NoPortOnlyForAny | src/nox/coreapps/switch/switch.cc:191-199 | the only port whose stored form reads as "not learned" (-1) is OFPP_ANY |
| LearningSwitch.LearnThenLookup | src/nox/coreapps/switch/switch.cc:176-201 | after learning a unicast source, looking it up gives the port it was seen on |
| LearningSwitch.LearnOnlyTouchesSource | src/nox/coreapps/switch/switch.cc:49-67 | learning changes only the entry keyed by the packet's (datapath, source) |
| LearningSwitch.LearnKeepsStoredPorts | src/nox/coreapps/switch/switch.cc:176-185 | every stored port stays in the 32-bit `int` range |
| LearningSwitch.ForwardToLearned | src/nox/coreapps/switch/switch.cc:190-233 | a packet for an address learned on port `p` goes out on `p` (and floods when `p` is OFPP_ANY) |
| LearningSwitch.ReactionFlow | src/nox/coreapps/switch/switch.cc:203-220 | a flow_mod is sent exactly when flows are on and the port is known, and it is sent first |
| LearningSwitch.BufferReleasedOnce | src/nox/coreapps/switch/switch.cc:203-235 | a buffered packet causes exactly one message: the flow naming its buffer, or else a packet-out of the buffer |
| LearningSwitch.UnbufferedSentWhenWhole | src/nox/coreapps/switch/switch.cc:222-231 | an unbuffered packet is sent out with its data exactly when all of it arrived, and never as a buffer |
| LearningSwitch.Switch.constructor | src/nox/coreapps/switch/switch.cc:90-92 | an empty source table, nothing sent, flows on |
| LearningSwitch.Switch.Configure | src/nox/coreapps/switch/switch.cc:109-118 | flows are on exactly when no argument is "noflow" |
| LearningSwitch.Switch.LearnSource | src/nox/coreapps/switch/switch.cc:177-185 | the entry for the key holds the packet's port afterwards, whether it was new, different or already equal |
| LearningSwitch.Switch.BuildPairFlow | src/nox/coreapps/switch/switch.cc:207-218 | the three builders produce the pair's flow: add, idle timeout 1, default priority, the packet's buffer, a match on in-port and both addresses, one output to the learned port |
| LearningSwitch.Switch.Handle | src/nox/coreapps/switch/switch.cc:153-237 | an LLDP packet changes nothing; otherwise the source is learned and exactly the messages of the decision rule are sent, for the port looked up after learning |
| LearningSwitch.Switch.HandleDpJoin | src/nox/coreapps/switch/switch.cc:130-151 | exactly one flow_mod is sent: permanent, priority 0, table 0, empty match, output to the controller, xid 0 |
| ActionList.Actions.constructor | src/lib/actions.cc:10-13 | a list with one unset slot that takes the shared count and resets it to 0 |
| ActionList.Actions.Private | src/lib/actions.cc:10-13 | an empty list with its own count |
| ActionList.Actions.Append | src/lib/actions.cc:18-25 | the array grows to count+1 slots unless the count is 0, the action goes into slot `count` and the count moves on by one; an owned list's contents gain exactly that action |
| ActionList.Actions.CreateOutput | src/lib/actions.cc:15-26 | one OUTPUT action with the port and maximum length is appended |
| ActionList.Actions.CreateOutputPort | src/lib/actions.cc:28-39 | one OUTPUT action with the port and maximum length 0 is appended |
| ActionList.Actions.CreateCopyTTL | src/lib/actions.cc:41-55 | a copy-TTL-in or copy-TTL-out action is appended; any other type leaves the list unchanged |
| ActionList.Actions.CreateDecTTL | src/lib/actions.cc:57-71 | a decrement-MPLS-TTL or decrement-IP-TTL action is appended; any other type leaves the list unchanged |
| ActionList.Actions.CreatePushAction | src/lib/actions.cc:73-88 | a push-MPLS, push-VLAN or push-PBB action with the ethertype is appended; any other type leaves the list unchanged |
| ActionList.Actions.CreatePopVlan | src/lib/actions.cc:90-99 | one pop-VLAN action is appended |
| ActionList.Actions.CreatePopMpls | src/lib/actions.cc:101-111 | one pop-MPLS action with the ethertype is appended |
| ActionList.Actions.CreateSetNwTTL | src/lib/actions.cc:113-123 | one set-IP-TTL action with the TTL is appended |
| ActionList.Actions.CreateSetMplsTTL | src/lib/actions.cc:125-133 | one set-MPLS-TTL action with the TTL is appended, in bounds |
| ActionList.Actions.CreateSetQueue | src/lib/actions.cc:135-145 | one set-queue action with the queue id is appended |
| ActionList.Actions.CreateGroupAction | src/lib/actions.cc:147-157 | one group action with the group id is appended |
| ActionList.Actions.CreateSetField | src/include/actions.hh:26-36 | one set-field action with the field's header and the value is appended, in bounds |
| ActionList.Actions.SetMplsTtlAsWritten | src/lib/actions.cc:127-130 | after the resize to `act_num` slots, slot `act_num` never exists |
| ActionList.Actions.SetFieldAsWritten | src/include/actions.hh:28-33 | after the resize to `act_num` slots, slot `act_num` never exists |
| ActionList.Actions.CopyTtlAsWritten | src/lib/actions.cc:48-50 | on an owned list, the slot whose type is stored holds no action yet |
| ActionList.FieldHeader | src/include/actions.hh:31 | the header of a known field comes from the field table, and 0 for an unknown name |
| ActionList.SharedCountClobbers | src/lib/actions.cc:8-13 | with the shared count, creating a second list makes the first list's next action overwrite its first one |
| ActionList.PrivateCountKeeps | src/lib/actions.cc:15-39 | with a count of its own, the same calls keep all three actions in order |
| InstructionList.Instruction.constructor | src/lib/instructions.cc:12-15 | a list with one unset slot that takes the shared count and resets it to 0 |
| InstructionList.Instruction.Private | src/lib/instructions.cc:12-15 | an empty list with its own count |
| InstructionList.Instruction.Append | src/lib/instructions.cc:26-33 | the count moves on by one, the array is resized to the new count and the instruction goes into the last slot; an owned list's contents gain exactly that instruction |
| InstructionList.Instruction.CreateApply | src/lib/instructions.cc:23-35 | one apply-actions instruction is appended, carrying the action list's slots and count |
| InstructionList.Instruction.CreateGoToTable | src/lib/instructions.cc:37-47 | one goto-table instruction with the table id is appended |
| InstructionList.Instruction.CreateWrite | src/lib/instructions.cc:49-61 | one write-actions instruction is appended, carrying the action list's slots and count |
| InstructionList.Instruction.CreateWriteMetadata | src/lib/instructions.cc:63-72 | one write-metadata instruction with the metadata and an all-ones mask is appended |
| InstructionList.Instruction.CreateWriteMetadataMasked | src/lib/instructions.cc:74-84 | one write-metadata instruction with the metadata and the given mask is appended |
| InstructionList.Instruction.CreateClearActions | src/lib/instructions.cc:86-93 | one clear-actions instruction is appended |
| InstructionList.Instruction.CreateMeterInstruction | src/lib/instructions.cc:95-105 | one meter instruction with the meter id is appended |
| InstructionList.Instruction.AddActions | src/lib/instructions.cc:107-113 | the instruction takes the action list's slots and its count |
| InstructionList.Instruction.Destroy | src/lib/instructions.cc:17-21 | on an owned list, the instructions in slots 0 up to the count are released, in order, and every one is present |
| InstructionList.Instruction.DestroyAsWritten | src/lib/instructions.cc:17-21 | every slot the destructor reads lies inside the array exactly when the shared count is at most the array's size |
| InstructionList.SharedCountOverruns | src/lib/instructions.cc:12-21 | with the shared count, a second list makes the first list's destructor read past its array |
| InstructionList.PrivateCountStaysInside | src/lib/instructions.cc:17-21 | with counts of their own, the first list's destructor stays inside its array and releases its one instruction |
| FlowMods.NewFlowMod | src/lib/flowmod.cc:12-32 | a FLOW_MOD message with no match and no instructions |
| FlowMods.FlowMod.constructor | src/lib/flowmod.cc:8-10 | the default message |
| FlowMods.FlowMod.WithFields | src/lib/flowmod.cc:12-32 | every argument is copied into its field; there is no match and there are no instructions |
| FlowMods.FlowMod.InitFlowMod | src/lib/flowmod.cc:35-53 | the message becomes: add a permanent flow at default priority to all tables, no buffer, any port, any group, no flags, no match, no instructions |
| FlowMods.FlowMod.AddMatch | src/lib/flowmod.cc:56-59 | only the match changes |
| FlowMods.FlowMod.SetInstructionsNum | src/lib/flowmod.cc:61-66 | only the instruction count changes |
| FlowMods.FlowMod.AddInstructions | src/lib/flowmod.cc:68-73 | only the instruction count and the instructions change, taken from the list; for an owned list the message carries exactly its instructions |

## Left out

- Threads, the poll loop, timers and their re-arming, signal handling, log fetching, the connector threads and `init`/`run` in `src/builtin/nox.cc` are not modelled. Time is a parameter (`now`), and a handler runs to completion before the next starts.
- The OpenFlow codec, the `Openflow_connection` transport and the switch authenticator are opaque. Their results are parameters: the error code and decoded message of a read, the result of packing, the transport's return code, and the authoriser's answer.
- `send_openflow_pkt` (`src/builtin/nox.cc:316-354`) is not modelled as a packet-out message. Discovery and the switch record each packet-out as a value in `sent`.
- Handler registration in the discovery and switch components (`install`, and `configure` in the switch) is not modelled. Nor is posting the first `send_lldp` and `timeout_links` calls.
- `src/include/flow.hh` and `src/lib/flow.cc` are not part of this model. A match is the list of its named fields, and the packet-in fields the switch reads are inputs.
- Discovery.DiscoveryComponent.Configure: a configuration argument is given as an integer. The `atoi` parse of the string is not modelled.
- Discovery.DiscoveryComponent.DpRemove: the REMOVE events are stated as one per removed link, with their order within the removal left unstated. DeleteLinks and TimeoutLinks do state table order.
- Lldp.ParseCreate: a failing parse is `None`. The source's partial write of the datapath id into its out-parameter before a port-TLV check fails is not modelled.
- The LLDP port id and TTL are copied in host byte order (`src/nox/netapps/discovery/discovery.cc:355, 359`); the model fixes host order as little-endian. Parsing reads the same order, so the round trip does not depend on it.
- The datapath-id warning in `src/nox/netapps/discovery/discovery.cc:84-86` is logging and is not modelled. The 48-bit cut it warns about is stated by Lldp.ParseCreate.
- InstructionList.Instruction.AddActions: an instruction takes a copy of the action list's slots at that moment. It does not alias the list's array, so later changes to that action list are not seen through the instruction.
- FlowMods.FlowMod.AddInstructions: the message takes a copy of the instruction array, not an alias. `AddMatch` stores the match as a value, not by address.
- LearningSwitch.Switch: the switch builds its lists with `Private` counts. With the shared count, one handler creating and filling one list at a time gives the same contents. Interleaving between threads is not modelled.
- LearningSwitch.Switch.constructor: `setup_flows` is uninitialised in the source until `configure` runs. The model starts it as true, the value `configure` gives without arguments.
- The flags of every flow_mod (`ofd_flow_mod_flags()`) are a constant of the switch, fixed when it is created.
- Freeing memory is not modelled: the builders' `free`/leaks, and the `delete this` of a connection beyond its `freed` flag.
- The table-miss flow of LearningSwitch.Switch.HandleDpJoin is modelled as written: buffer id 0 (not OFP_NO_BUFFER), and an output action with maximum length 0.
- ActionList.Actions.CreateSetField: the action keeps a copy of the value bytes, whereas the source stores the address of the caller's buffer (`src/include/actions.hh:32`), so later changes the caller makes to that buffer are not seen. The lookup `fields[field]` (`src/include/actions.hh:31`) inserts a default entry into the shared field table for an unknown name; the model only uses the header 0 that entry gives and leaves the table unchanged, because the table is a parameter.
- Nox.Nox.DoPoll: the dispatched handlers run inside the poll (`src/builtin/nox.cc:162`), but their effects are reduced to one input, `closeInHandler`, saying whether a handler asked to close this connection. Everything else a handler does is not composed into this contract: posting events (the discovery link ADD of `src/nox/netapps/discovery/discovery.cc:252`, say), sending messages, or closing other connections. The frame "unchanged" in the non-closing case holds for the poll's own steps only.
- Nox.Nox.Poll: the same holds as for Nox.Nox.DoPoll. The handlers' own posts, sends and closes of other connections are not part of its contract.
- Handshake.Step: without an authoriser, registration runs in the same step against the same clock reading. The source re-enters `run()` (`src/builtin/nox.cc:690-694`), which reads the clock again (`src/builtin/nox.cc:772`), so a deadline passing between the two reads is not modelled.
- Nox.Nox.SendOpenflowCommand: the `block` flag of `send_openflow_command` and `send_openflow_msg` (`src/builtin/nox.cc:287-290`) is not modelled; whether a send would block is part of the transport's status. `sent` records every message handed to a transport, whatever that status is.
- The Datapath_leave, Shutdown and Bootstrap_complete event names come from headers that are not part of this model. They are the conventional names.

## Findings

| source | as written | input that shows it | evidently intended | confidence | as-written member | corrected member |
|---|---|---|---|---|---|---|
| src/lib/actions.cc:10-13 | `act_num` is static, so every `Actions` constructor resets the one count all lists share | list A gets outputs 1 and 2, list B is created, A gets output 3: A's slot 0 becomes output 3 and the count reads 1 | each list keeps its own count | not executed | ActionList.SharedCountClobbers | ActionList.PrivateCountKeeps |
| src/lib/actions.cc:127 | `CreateSetMplsTTL` resizes to `act_num` slots and then writes slot `act_num` | any list, e.g. a new list followed by `CreateSetMplsTTL(64)` | resize to `act_num + 1` slots, as the other appenders do | not executed | ActionList.Actions.SetMplsTtlAsWritten | ActionList.Actions.CreateSetMplsTTL |
| src/include/actions.hh:28 | `CreateSetField` resizes to `act_num` slots and then writes slot `act_num` | any list, e.g. a new list followed by a set-field of `eth_dst` | resize to `act_num + 1` slots | not executed | ActionList.Actions.SetFieldAsWritten | ActionList.Actions.CreateSetField |
| src/lib/actions.cc:50 | `CreateCopyTTL` stores the type through `acts[act_num]` before that slot points to anything | a new list followed by `CreateCopyTTL(OFPAT_COPY_TTL_OUT)` | allocate the element, then set its type | not executed | ActionList.Actions.CopyTtlAsWritten | ActionList.Actions.CreateCopyTTL |
| src/lib/instructions.cc:17-21 | the destructor frees slots 0 up to the static `inst_num`, the count of whichever list was built last | list A gets one instruction, list B gets two, A is destroyed: it reads slot 1 of a one-slot array | free the list's own instructions | not executed | InstructionList.SharedCountOverruns | InstructionList.Instruction.Destroy |

=== FILE: actions.dfy ===
/**
 * The action-list builder of the OpenFlow library: an `Actions` object
 * holds a growable array of OpenFlow 1.3 actions, and each `Create…` call
 * appends one action.
 *
 * The count of actions `act_num` is a static member in the source, so all
 * lists share one count; `ActCounter` is that shared count made explicit.
 * The as-written constructor takes the shared count and resets it; the
 * `Private` constructor gives a list a count of its own, which is the
 * evidently intended behaviour and the one the rest of the model uses.
 * Array slots hold `None` where the source leaves an element unset.
 */
module ActionList {
  import opened OpenFlow

  /** The body of one action, by kind. */
  datatype Payload =
    | NoPayload
    | Output(port: uint32, maxLen: uint16)
    | Push(ethertype: uint16)
    | PopMpls(ethertype: uint16)
    | NwTtl(nwTtl: uint8)
    | MplsTtl(mplsTtl: uint8)
    | Queue(queueId: uint32)
    | Group(groupId: uint32)
    | SetField(header: uint32, value: seq<uint8>)

  /** An action: its OFPAT_* type and its body. */
  datatype Action = Action(actionType: int, payload: Payload)

  /** The action types each type-checked constructor accepts. */
  const COPY_TTL_TYPES: set<int> := {OFPAT_COPY_TTL_IN, OFPAT_COPY_TTL_OUT}
  const DEC_TTL_TYPES: set<int> := {OFPAT_DEC_MPLS_TTL, OFPAT_DEC_NW_TTL}
  const PUSH_TYPES: set<int> := {OFPAT_PUSH_MPLS, OFPAT_PUSH_VLAN, OFPAT_PUSH_PBB}

  /** The count of actions; in the source one count serves every list. */
  class ActCounter {
    var actNum: int

    constructor ()
      ensures actNum == 0
    {
      actNum := 0;
    }
  }

  class Actions {
    var acts: array<Option<Action>>
    const counter: ActCounter

    /** The count is not negative and the array has at least its first slot. */
    ghost predicate Valid()
      reads this, counter
    {
      counter.actNum >= 0 && acts.Length >= 1
    }

    /**
     * Only this list has moved its count: the array has exactly as many
     * slots as actions (one while empty) and the filled slots are exactly
     * the counted ones.
     */
    ghost predicate Owned()
      reads this, counter, acts
    {
      Valid()
      && acts.Length == (if counter.actNum == 0 then 1 else counter.actNum)
      && forall i :: 0 <= i < acts.Length ==> (acts[i].Some? <==> i < counter.actNum)
    }

    /** The actions of an owned list, in the order they were created. */
    ghost function Contents(): seq<Option<Action>>
      reads this, counter, acts
      requires Owned()
    {
      acts[..counter.actNum]
    }

    /**
     * The state after one append of `a` to a list whose array held
     * `before` and whose count was `n`: the count moved on by one, the
     * array grew to n + 1 slots unless `n` was 0, slot `n` holds `a` and
     * every other slot kept its value.
     */
    ghost predicate Appended(before: seq<Option<Action>>, n: int, a: Action)
      reads this, counter, acts
    {
      Valid() && n >= 0 && counter.actNum == n + 1
      && acts.Length == (if n == 0 then |before| else n + 1)
      && forall i :: 0 <= i < acts.Length ==>
           acts[i] == (if i == n then Some(a) else if i < |before| then before[i] else None)
    }

    /** As written: a new list takes the shared count and resets it to 0. */
    constructor (shared: ActCounter)
      modifies shared
      ensures counter == shared && shared.actNum == 0
      ensures fresh(acts) && acts.Length == 1 && acts[0] == None
      ensures Owned() && Contents() == []
    {
      counter := shared;
      acts := new Option<Action>[1](_ => None);
      new;
      shared.actNum := 0;
    }

    /** A list with a count of its own. */
    constructor Private()
      ensures fresh(counter) && fresh(acts) && acts.Length == 1
      ensures Owned() && Contents() == []
    {
      counter := new ActCounter();
      acts := new Option<Action>[1](_ => None);
    }

    /**
     * The step every constructor of an action shares: grow the array to
     * count + 1 slots unless the count is 0, store `a` at the slot the
     * count names and move the count on.
     */
    method Append(a: Action)
      requires Valid()
      modifies this, counter, acts
      ensures Appended(old(acts[..]), old(counter.actNum), a)
      ensures old(counter.actNum) == 0 ==> acts == old(acts)
      ensures old(counter.actNum) != 0 ==> fresh(acts)
      ensures old(Owned()) ==> Owned() && Contents() == old(Contents()) + [Some(a)]
    {
      var n := counter.actNum;
      if n != 0 {
        acts := Realloc(acts, n + 1);
      }
      acts[n] := Some(a);
      counter.actNum := n + 1;
      if old(Owned()) {
        assert acts[..n + 1] == old(acts[..n]) + [Some(a)];
      }
    }

    /** Appends an output action to `port` with `maxLen` bytes sent to the controller. */
    method CreateOutput(port: uint32, maxLen: uint16)
      requires Valid()
      modifies this, counter, acts
      ensures Appended(old(acts[..]), old(counter.actNum), Action(OFPAT_OUTPUT, Output(port, maxLen)))
      ensures old(counter.actNum) == 0 ==> acts == old(acts)
      ensures old(counter.actNum) != 0 ==> fresh(acts)
      ensures old(Owned()) ==> Owned() && Contents() == old(Contents()) + [Some(Action(OFPAT_OUTPUT, Output(port, maxLen)))]
    {
      Append(Action(OFPAT_OUTPUT, Output(port, maxLen)));
    }

    /** Appends an output action to `port` with a maximum length of 0. */
    method CreateOutputPort(port: uint32)
      requires Valid()
      modifies this, counter, acts
      ensures Appended(old(acts[..]), old(counter.actNum), Action(OFPAT_OUTPUT, Output(port, 0)))
      ensures old(counter.actNum) == 0 ==> acts == old(acts)
      ensures old(counter.actNum) != 0 ==> fresh(acts)
      ensures old(Owned()) ==> Owned() && Contents() == old(Contents()) + [Some(Action(OFPAT_OUTPUT, Output(port, 0)))]
    {
      Append(Action(OFPAT_OUTPUT, Output(port, 0)));
    }

    /**
     * Appends a copy-TTL action of the given type; any type other than the
     * two copy-TTL types is ignored and the list is left as it was.
     * This is the corrected version: the source stores the type through
     * the new slot before allocating it (see `CopyTtlAsWritten`).
     */
    method CreateCopyTTL(actionType: int)
      requires Valid()
      modifies this, counter, acts
      ensures actionType !in COPY_TTL_TYPES ==> acts == old(acts) && unchanged(counter, acts)
      ensures actionType in COPY_TTL_TYPES ==> Appended(old(acts[..]), old(counter.actNum), Action(actionType, NoPayload))
      ensures acts == old(acts) || fresh(acts)
      ensures old(Owned()) && actionType in COPY_TTL_TYPES ==>
        Owned() && Contents() == old(Contents()) + [Some(Action(actionType, NoPayload))]
    {
      if actionType in COPY_TTL_TYPES {
        Append(Action(actionType, NoPayload));
      }
    }

    /** Appends a decrement-TTL action; a type other than the two decrement-TTL types is ignored. */
    method CreateDecTTL(actionType: int)
      requires Valid()
      modifies this, counter, acts
      ensures actionType !in DEC_TTL_TYPES ==> acts == old(acts) && unchanged(counter, acts)
      ensures actionType in DEC_TTL_TYPES ==> Appended(old(acts[..]), old(counter.actNum), Action(actionType, NoPayload))
      ensures acts == old(acts) || fresh(acts)
      ensures old(Owned()) && actionType in DEC_TTL_TYPES ==>
        Owned() && Contents() == old(Contents()) + [Some(Action(actionType, NoPayload))]
    {
      if actionType in DEC_TTL_TYPES {
        Append(Action(actionType, NoPayload));
      }
    }

    /** Appends a push action (MPLS, VLAN or PBB tag) with `ethertype`; any other type is ignored. */
    method CreatePushAction(actionType: int, ethertype: uint16)
      requires Valid()
      modifies this, counter, acts
      ensures actionType !in PUSH_TYPES ==> acts == old(acts) && unchanged(counter, acts)
      ensures actionType in PUSH_TYPES ==> Appended(old(acts[..]), old(counter.actNum), Action(actionType, Push(ethertype)))
      ensures acts == old(acts) || fresh(acts)
      ensures old(Owned()) && actionType in PUSH_TYPES ==>
        Owned() && Contents() == old(Contents()) + [Some(Action(actionType, Push(ethertype)))]
    {
      if actionType in PUSH_TYPES {
        Append(Action(actionType, Push(ethertype)));
      }
    }

    /** Appends a pop-VLAN action. */
    method CreatePopVlan()
      requires Valid()
      modifies this, counter, acts
      ensures Appended(old(acts[..]), old(counter.actNum), Action(OFPAT_POP_VLAN, NoPayload))
      ensures acts == old(acts) || fresh(acts)
      ensures old(Owned()) ==> Owned() && Contents() == old(Contents()) + [Some(Action(OFPAT_POP_VLAN, NoPayload))]
    {
      Append(Action(OFPAT_POP_VLAN, NoPayload));
    }

    /** Appends a pop-MPLS action that sets the ethertype to `ethertype`. */
    method CreatePopMpls(ethertype: uint16)
      requires Valid()
      modifies this, counter, acts
      ensures Appended(old(acts[..]), old(counter.actNum), Action(OFPAT_POP_MPLS, PopMpls(ethertype)))
      ensures acts == old(acts) || fresh(acts)
      ensures old(Owned()) ==> Owned() && Contents() == old(Contents()) + [Some(Action(OFPAT_POP_MPLS, PopMpls(ethertype)))]
    {
      Append(Action(OFPAT_POP_MPLS, PopMpls(ethertype)));
    }

    /** Appends a set-IP-TTL action. */
    method CreateSetNwTTL(nwTtl: uint8)
      requires Valid()
      modifies this, counter, acts
      ensures Appended(old(acts[..]), old(counter.actNum), Action(OFPAT_SET_NW_TTL, NwTtl(nwTtl)))
      ensures acts == old(acts) || fresh(acts)
      ensures old(Owned()) ==> Owned() && Contents() == old(Contents()) + [Some(Action(OFPAT_SET_NW_TTL, NwTtl(nwTtl)))]
    {
      Append(Action(OFPAT_SET_NW_TTL, NwTtl(nwTtl)));
    }

    /**
     * Appends a set-MPLS-TTL action. Corrected version: the array grows to
     * count + 1 slots like every other constructor (see `SetMplsTtlAsWritten`).
     */
    method CreateSetMplsTTL(mplsTtl: uint8)
      requires Valid()
      modifies this, counter, acts
      ensures Appended(old(acts[..]), old(counter.actNum), Action(OFPAT_SET_MPLS_TTL, MplsTtl(mplsTtl)))
      ensures acts == old(acts) || fresh(acts)
      ensures old(Owned()) ==> Owned() && Contents() == old(Contents()) + [Some(Action(OFPAT_SET_MPLS_TTL, MplsTtl(mplsTtl)))]
    {
      Append(Action(OFPAT_SET_MPLS_TTL, MplsTtl(mplsTtl)));
    }

    /** Appends a set-queue action. */
    method CreateSetQueue(queueId: uint32)
      requires Valid()
      modifies this, counter, acts
      ensures Appended(old(acts[..]), old(counter.actNum), Action(OFPAT_SET_QUEUE, Queue(queueId)))
      ensures acts == old(acts) || fresh(acts)
      ensures old(Owned()) ==> Owned() && Contents() == old(Contents()) + [Some(Action(OFPAT_SET_QUEUE, Queue(queueId)))]
    {
      Append(Action(OFPAT_SET_QUEUE, Queue(queueId)));
    }

    /** Appends a group action. */
    method CreateGroupAction(groupId: uint32)
      requires Valid()
      modifies this, counter, acts
      ensures Appended(old(acts[..]), old(counter.actNum), Action(OFPAT_GROUP, Group(groupId)))
      ensures acts == old(acts) || fresh(acts)
      ensures old(Owned()) ==> Owned() && Contents() == old(Contents()) + [Some(Action(OFPAT_GROUP, Group(groupId)))]
    {
      Append(Action(OFPAT_GROUP, Group(groupId)));
    }

    /**
     * Appends a set-field action for the match field named `field`, whose
     * header comes from the table `fields` of match-field headers (a name
     * missing from the table gets header 0, as a lookup that inserts a
     * default would give). Corrected version: the array grows to count + 1
     * slots (see `SetFieldAsWritten`).
     */
    method CreateSetField(fields: map<string, uint32>, field: string, value: seq<uint8>)
      requires Valid()
      modifies this, counter, acts
      ensures Appended(old(acts[..]), old(counter.actNum), Action(OFPAT_SET_FIELD, SetField(FieldHeader(fields, field), value)))
      ensures acts == old(acts) || fresh(acts)
      ensures old(Owned()) ==>
        Owned() && Contents() == old(Contents()) + [Some(Action(OFPAT_SET_FIELD, SetField(FieldHeader(fields, field), value)))]
    {
      Append(Action(OFPAT_SET_FIELD, SetField(FieldHeader(fields, field), value)));
    }

    /**
     * CreateSetMplsTTL as written: the array is resized to the count
     * itself and then written at the slot the count names. Reports whether
     * that slot exists: it never does.
     */
    method SetMplsTtlAsWritten(mplsTtl: uint8) returns (inBounds: bool)
      requires Valid()
      modifies this
      ensures !inBounds
    {
      acts := Realloc(acts, counter.actNum);
      inBounds := counter.actNum < acts.Length;
    }

    /**
     * CreateSetField as written: the same resize to the count itself
     * before writing the slot the count names. Reports whether that slot
     * exists: it never does.
     */
    method SetFieldAsWritten(fields: map<string, uint32>, field: string, value: seq<uint8>) returns (inBounds: bool)
      requires Valid()
      modifies this
      ensures !inBounds
    {
      acts := Realloc(acts, counter.actNum);
      inBounds := counter.actNum < acts.Length;
    }

    /**
     * CreateCopyTTL as written: after the resize, the type is stored
     * through the slot the count names before anything is allocated for
     * it. Reports whether that slot holds an action the store could go
     * through: on an owned list it never does.
     */
    method CopyTtlAsWritten(actionType: int) returns (slotAllocated: bool)
      requires Owned() && actionType in COPY_TTL_TYPES
      modifies this
      ensures !slotAllocated
    {
      var n := counter.actNum;
      if n != 0 {
        acts := Realloc(acts, n + 1);
      }
      slotAllocated := acts[n].Some?;
    }
  }

  /** The header of a match field by name; 0 for a name the table lacks. */
  function FieldHeader(fields: map<string, uint32>, field: string): (h: uint32)
    ensures field in fields ==> h == fields[field]
    ensures field !in fields ==> h == 0
  {
    if field in fields then fields[field] else 0
  }

  /**
   * Two lists on the shared count: once a second list is created, the
   * next action given to the first list overwrites the first list's
   * first action, and the count says 1 while the first list holds 2.
   */
  method SharedCountClobbers() returns (first: Option<Action>, count: int, slots: nat)
    ensures first == Some(Action(OFPAT_OUTPUT, Output(3, 0)))
    ensures count == 1 && slots == 2
  {
    var shared := new ActCounter();
    var a := new Actions(shared);
    a.CreateOutputPort(1);
    a.CreateOutputPort(2);
    var b := new Actions(shared);
    a.CreateOutputPort(3);
    first := a.acts[0];
    count := shared.actNum;
    slots := a.acts.Length;
  }

  /**
   * With a count of its own, the same calls keep every action: the list
   * holds the three outputs in order and the count says 3.
   */
  method PrivateCountKeeps() returns (contents: seq<Option<Action>>, count: int)
    ensures contents == [Some(Action(OFPAT_OUTPUT, Output(1, 0))), Some(Action(OFPAT_OUTPUT, Output(2, 0))),
                         Some(Action(OFPAT_OUTPUT, Output(3, 0)))]
    ensures count == 3
  {
    var a := new Actions.Private();
    a.CreateOutputPort(1);
    a.CreateOutputPort(2);
    var b := new Actions.Private();
    a.CreateOutputPort(3);
    contents := a.acts[..a.counter.actNum];
    count := a.counter.actNum;
  }
}

=== FILE: classifier.dfy ===
/**
 * The packet classifier: on a packet-in it asks the rule engine for the
 * matching rules, best priority first, and runs the action of every rule
 * in the leading band of equal priority.
 */
module PacketClassifier {
  import opened OpenFlow
  import opened MsgEvent
  import opened EventDispatcher

  /** The order at which the classifier binds itself to packet-in events. */
  const PACKET_IN_ORDER: int := 100

  /** A matching rule: its priority and its action (opaque, identified by a number). */
  datatype Rule = Rule(priority: int, action: nat)

  /** The rules at the head of `rs` whose priority is `p`, up to the first that differs. */
  function PrefixWith(rs: seq<Rule>, p: int): (b: seq<Rule>)
    ensures |b| <= |rs|
    decreases |rs|
  {
    if rs == [] || rs[0].priority != p then [] else [rs[0]] + PrefixWith(rs[1..], p)
  }

  /** The leading band of equal priority of a match result. */
  function TopBand(rs: seq<Rule>): (b: seq<Rule>)
    ensures |b| <= |rs|
  {
    if rs == [] then [] else PrefixWith(rs, rs[0].priority)
  }

  function Actions(rs: seq<Rule>): seq<nat> {
    seq(|rs|, i requires 0 <= i < |rs| => rs[i].action)
  }

  lemma {:induction false} PrefixWithShape(rs: seq<Rule>, p: int)
    ensures var b := PrefixWith(rs, p);
            |b| <= |rs| && b == rs[..|b|] &&
            (forall i :: 0 <= i < |b| ==> rs[i].priority == p) &&
            (|b| < |rs| ==> rs[|b|].priority != p)
    decreases |rs|
  {
    if rs != [] && rs[0].priority == p {
      PrefixWithShape(rs[1..], p);
      var b := PrefixWith(rs, p);
      forall i | 0 <= i < |b|
        ensures rs[i].priority == p
      {
        if i > 0 {
          assert rs[i] == rs[1..][i - 1];
        }
      }
    }
  }

  /**
   * The band is a non-empty prefix of a non-empty result, all of the first
   * rule's priority, and the rule after it, if any, has another priority.
   */
  lemma TopBandShape(rs: seq<Rule>)
    ensures rs == [] <==> TopBand(rs) == []
    ensures var b := TopBand(rs);
            |b| <= |rs| && b == rs[..|b|] &&
            (forall i :: 0 <= i < |b| ==> rs[i].priority == rs[0].priority) &&
            (0 < |b| < |rs| ==> rs[|b|].priority != rs[0].priority)
  {
    if rs != [] {
      PrefixWithShape(rs, rs[0].priority);
    }
  }

  /** Rules ordered best priority first, as the rule engine hands them out. */
  predicate SortedByPriority(rs: seq<Rule>) {
    forall i, j :: 0 <= i < j < |rs| ==> rs[i].priority >= rs[j].priority
  }

  /**
   * On a result ordered best first, the band is exactly the rules of the
   * highest priority present.
   */
  lemma TopBandOfSorted(rs: seq<Rule>)
    requires SortedByPriority(rs)
    ensures forall i :: 0 <= i < |rs| ==> rs[i].priority <= rs[0].priority
    ensures forall i :: 0 <= i < |rs| ==> (i < |TopBand(rs)| <==> rs[i].priority == rs[0].priority)
  {
    TopBandShape(rs);
    var n := |TopBand(rs)|;
    forall i | 0 <= i < |rs| && rs[i].priority == rs[0].priority
      ensures i < n
    {
    }
  }

  /** A rule at the leading priority right after `k` rules of the band extends the band. */
  lemma BandContinues(rs: seq<Rule>, k: nat)
    requires k <= |TopBand(rs)| && k < |rs| && rs[k].priority == rs[0].priority
    ensures k < |TopBand(rs)|
  {
    TopBandShape(rs);
  }

  /** The band ends at the end of the result or at the first rule of another priority. */
  lemma BandEnds(rs: seq<Rule>, k: nat)
    requires 1 <= k <= |TopBand(rs)| && (k == |rs| || rs[k].priority != rs[0].priority)
    ensures rs[..k] == TopBand(rs)
  {
    TopBandShape(rs);
  }

  lemma ActionsSnoc(rs: seq<Rule>, k: nat)
    requires k < |rs|
    ensures Actions(rs[..k + 1]) == Actions(rs[..k]) + [rs[k].action]
  {
  }

  class PacketClassifier {
    /** The core's handler table the classifier binds itself into. */
    const table: HandlerTable
    /** The current match result and the position of its next rule. */
    var result: seq<Rule>
    var cursor: nat
    /** The actions run so far, in order. */
    var invoked: seq<nat>

    constructor (table: HandlerTable)
      ensures this.table == table && result == [] && cursor == 0 && invoked == []
    {
      this.table := table;
      result := [];
      cursor := 0;
      invoked := [];
    }

    /** Binds the packet-in handler at order 100. */
    method RegisterPacketIn(h: nat)
      modifies table
      ensures table.bindings == old(table.bindings) + [Binding(GetName(OFPT_PACKET_IN), PACKET_IN_ORDER, h)]
    {
      table.Register(GetName(OFPT_PACKET_IN), h, PACKET_IN_ORDER);
    }

    /** The next rule of the result, advancing the cursor; None once it is exhausted. */
    method Next() returns (r: Option<Rule>)
      modifies this`cursor
      requires cursor <= |result|
      ensures old(cursor) < |result| ==> r == Some(result[old(cursor)]) && cursor == old(cursor) + 1
      ensures old(cursor) == |result| ==> r == None && cursor == old(cursor)
    {
      if cursor < |result| {
        r := Some(result[cursor]);
        cursor := cursor + 1;
      } else {
        r := None;
      }
    }

    /**
     * Fills the result with the rules matching the packet (`matched`, from
     * the rule engine), runs the action of every rule in its leading band
     * and clears the result. Always lets later handlers run.
     */
    method HandlePacketIn(e: Event, matched: seq<Rule>) returns (d: Disposition)
      modifies this
      ensures d == CONTINUE
      ensures invoked == old(invoked) + Actions(TopBand(matched))
      ensures result == [] && cursor == 0
    {
      result := matched;
      cursor := 0;
      var m := Next();
      if m.None? {
        result := [];
        cursor := 0;
        assert TopBand(matched) == [];
        assert Actions([]) == [];
        return CONTINUE;
      }
      BandContinues(matched, 0);
      var top := m.value.priority;
      var start := old(invoked);
      invoked := invoked + [m.value.action];
      assert Actions(matched[..1]) == [matched[0].action];
      ghost var k := 1;
      m := Next();
      while m.Some? && m.value.priority == top
        invariant result == matched && 1 <= k <= |TopBand(matched)|
        invariant top == matched[0].priority
        invariant invoked == start + Actions(matched[..k])
        invariant k < |matched| ==> m == Some(matched[k]) && cursor == k + 1
        invariant k == |matched| ==> m == None && cursor == k
        decreases |matched| - k
      {
        BandContinues(matched, k);
        ActionsSnoc(matched, k);
        invoked := invoked + [m.value.action];
        k := k + 1;
        m := Next();
      }
      BandEnds(matched, k);
      result := [];
      cursor := 0;
      d := CONTINUE;
    }
  }
}

=== FILE: discovery.dfy ===
/**
 * The discovery component: it keeps the known datapaths, their ports (each
 * with the LLDP frame that announces it) and the links learned from LLDP
 * frames coming back as packet-ins, with the time each link was last seen.
 * It posts a link event for every link it adds or removes, sends one
 * port's frame per timer tick in round-robin order, and ages links out.
 *
 * Clocks and timers are parameters: `now` is the current time in
 * milliseconds, and re-arming a timer is not modelled. Posted link events
 * and sent packet-outs are recorded in the order they are issued.
 */
module Discovery {
  import opened OpenFlow
  import opened MsgEvent
  import opened Lldp
  import EventDispatcher

  // Periods, in milliseconds.
  const PER_PORT_PERIOD: uint64 := 100
  const PACKET_OUT_PERIOD: uint64 := 10
  const TIMEOUT_CHECK_PERIOD: uint64 := 500
  const LINK_TIMEOUT: uint64 := 3 * PER_PORT_PERIOD

  const LINK_EVENT_NAME: string := "Link_event"

  // Configuration argument keys.
  const PER_PORT_ARG: string := "per_port"
  const PACKET_OUT_ARG: string := "pkt_out"
  const TIMEOUT_ARG: string := "check"
  const LINK_TO_ARG: string := "link_to"

  datatype LinkAction = ADD | REMOVE

  /** Why a link changed: the link itself, one of its ports, or a datapath leaving. */
  datatype LinkReason = LINK | PORT | DP

  datatype LinkEvent = LinkEvent(dpsrc: DpId, dpdst: DpId, sport: uint32, dport: uint32,
                                 action: LinkAction, reason: LinkReason)

  function LinkEventFor(l: Link, action: LinkAction, reason: LinkReason): LinkEvent {
    LinkEvent(l.sport.dpid, l.dport.dpid, l.sport.port, l.dport.port, action, reason)
  }

  /** A link event names its link exactly: the event determines the link. */
  function LinkOf(e: LinkEvent): (l: Link)
    ensures LinkEventFor(l, e.action, e.reason) == e
    ensures forall k: Link :: LinkEventFor(k, e.action, e.reason) == e ==> k == l
  {
    Link(Port(e.dpsrc, e.sport), Port(e.dpdst, e.dport))
  }

  /** The REMOVE events for `ls`, in order. */
  function RemoveEvents(ls: seq<Link>, reason: LinkReason): seq<LinkEvent> {
    seq(|ls|, i requires 0 <= i < |ls| => LinkEventFor(ls[i], REMOVE, reason))
  }

  /** One step of walking the link table: the least link left goes first. */
  lemma DeleteStep(m: map<Link, uint64>, doomed: set<Link>, todo: set<Link>, l: Link, reason: LinkReason)
    requires IsLeast(l, todo) && todo <= doomed
    ensures (m - (doomed - todo)) - {l} == m - (doomed - (todo - {l}))
    ensures RemoveEvents(SortedLinks(todo), reason)
         == [LinkEventFor(l, REMOVE, reason)] + RemoveEvents(SortedLinks(todo - {l}), reason)
  {
    assert doomed - (todo - {l}) == (doomed - todo) + {l};
    SortedLinksHead(todo, l);
    RemoveEventsCons(l, SortedLinks(todo - {l}), reason);
  }

  /** Moving the first of the pending events onto the posted ones leaves their concatenation alone. */
  lemma MoveFirst(evs: seq<LinkEvent>, e: LinkEvent, rest: seq<LinkEvent>)
    ensures (evs + [e]) + rest == evs + ([e] + rest)
  {
  }

  lemma RemoveEventsCons(l: Link, ls: seq<Link>, reason: LinkReason)
    ensures RemoveEvents([l] + ls, reason) == [LinkEventFor(l, REMOVE, reason)] + RemoveEvents(ls, reason)
  {
  }

  /** A frame handed to the controller for output: datapath, bytes, in_port and out_port. */
  datatype PacketOut = PacketOut(dpid: DpId, frame: seq<uint8>, inPort: uint32, outPort: uint32)

  datatype Timeval = Timeval(sec: nat, usec: nat)

  /** Milliseconds as seconds plus microseconds; the split loses nothing. */
  function ToTimeval(ms: nat): (tv: Timeval)
    ensures tv.usec < 1000000 && tv.usec % 1000 == 0
    ensures tv.sec * 1000 + tv.usec / 1000 == ms
  {
    Timeval(ms / 1000, (ms % 1000) * 1000)
  }

  function Max(a: uint64, b: uint64): uint64 {
    if a < b then b else a
  }

  /**
   * The delay between two frames: with `n` ports, a full round should take
   * `perPort` milliseconds, but no delay is shorter than `packetOut`.
   */
  function PerPortInterval(perPort: uint64, packetOut: uint64, n: nat): uint64 {
    if n == 0 then perPort else Max(packetOut, perPort / n)
  }

  /**
   * With ports, the interval never drops below `packetOut`, and unless it
   * is held at `packetOut` a round of `n` frames fits `perPort` as closely
   * as whole milliseconds allow.
   */
  lemma PerPortIntervalSpreads(perPort: uint64, packetOut: uint64, n: nat)
    requires n > 0
    ensures var pp := PerPortInterval(perPort, packetOut, n);
            pp >= packetOut &&
            (pp == packetOut || pp * n <= perPort < pp * n + n)
  {
    var q := perPort / n;
    var r := perPort % n;
    assert perPort == q * n + r && 0 <= r < n;
  }

  /** The cut-off below which a link has timed out, in wrapping 64-bit arithmetic. */
  function LastTime(now: uint64, linkTimeout: uint64): (t: uint64)
    ensures now >= linkTimeout ==> t == now - linkTimeout
    ensures now < linkTimeout ==> t == UINT64_LIMIT + now - linkTimeout
  {
    (now - linkTimeout) % UINT64_LIMIT
  }

  /**
   * A configuration value: the argument converted to 64 bits when present,
   * else the current value. The conversion of a signed integer to an
   * unsigned 64-bit one keeps the value modulo 2^64, so a negative argument
   * wraps to a large period.
   */
  function Arg(args: map<string, int>, key: string, current: uint64): (v: uint64)
    ensures key in args && args[key] >= 0 && args[key] < UINT64_LIMIT ==> v == args[key]
    ensures key in args && args[key] < 0 && args[key] + UINT64_LIMIT >= 0 ==> v == UINT64_LIMIT + args[key]
    ensures key in args ==> (v - args[key]) % UINT64_LIMIT == 0
    ensures key !in args ==> v == current
  {
    if key in args then args[key] % UINT64_LIMIT else current
  }

  // The links of a set that touch a set of ports.

  function LinksAt(keys: set<Link>, ps: set<Port>): (r: set<Link>)
    ensures r <= keys
    ensures forall l :: l in keys && (l.sport in ps || l.dport in ps) ==> l in r
  {
    set l | l in keys && (l.sport in ps || l.dport in ps)
  }

  // Links in the order the link table visits them.

  predicate IsLeast(l: Link, s: set<Link>) {
    l in s && forall m :: m in s ==> !LinkLess(m, l)
  }

  /** Every non-empty finite set of links has a least element. */
  lemma {:induction false} LeastExists(s: set<Link>)
    requires s != {}
    ensures exists l :: IsLeast(l, s)
    decreases |s|
  {
    var x :| x in s;
    LinkOrder(x, x, x);
    if s == {x} {
      assert IsLeast(x, s);
    } else {
      LeastExists(s - {x});
      var y :| IsLeast(y, s - {x});
      if LinkLess(x, y) {
        forall m | m in s
          ensures !LinkLess(m, x)
        {
          LinkOrder(m, x, y);
        }
        assert IsLeast(x, s);
      } else {
        assert IsLeast(y, s);
      }
    }
  }

  lemma LeastUnique(a: Link, b: Link, s: set<Link>)
    requires IsLeast(a, s) && IsLeast(b, s)
    ensures a == b
  {
    LinkOrder(a, b, a);
  }

  ghost function Least(s: set<Link>): (m: Link)
    requires s != {}
    ensures IsLeast(m, s)
  {
    LeastExists(s);
    var m :| IsLeast(m, s);
    m
  }

  /** The links of `s` in ascending order. */
  ghost function SortedLinks(s: set<Link>): (ls: seq<Link>)
    ensures |ls| == |s|
    decreases |s|
  {
    if s == {} then [] else [Least(s)] + SortedLinks(s - {Least(s)})
  }

  /** The order lists exactly the links of the set. */
  lemma {:induction false} SortedLinksMembers(s: set<Link>)
    ensures forall l :: l in SortedLinks(s) <==> l in s
    decreases |s|
  {
    if s != {} {
      SortedLinksMembers(s - {Least(s)});
    }
  }

  /** The sequence is strictly ascending, so it lists each link once. */
  lemma {:induction false} SortedLinksIncreasing(s: set<Link>)
    ensures forall i, j :: 0 <= i < j < |SortedLinks(s)| ==> LinkLess(SortedLinks(s)[i], SortedLinks(s)[j])
    decreases |s|
  {
    if s != {} {
      var m := Least(s);
      var rest := SortedLinks(s - {m});
      var ls := SortedLinks(s);
      assert ls == [m] + rest;
      SortedLinksIncreasing(s - {m});
      SortedLinksMembers(s - {m});
      forall i, j | 0 <= i < j < |ls|
        ensures LinkLess(ls[i], ls[j])
      {
        if i == 0 {
          MinFirst(m, s, rest[j - 1]);
        } else {
          assert LinkLess(rest[i - 1], rest[j - 1]);
        }
      }
    }
  }

  lemma MinFirst(m: Link, s: set<Link>, l: Link)
    requires IsLeast(m, s) && l in s - {m}
    ensures LinkLess(m, l)
  {
    LinkOrder(m, l, m);
  }

  /** Taking away the least link takes away the head of the order. */
  lemma SortedLinksHead(s: set<Link>, m: Link)
    requires IsLeast(m, s)
    ensures SortedLinks(s) == [m] + SortedLinks(s - {m})
  {
    LeastUnique(m, Least(s), s);
  }

  // Ports of other datapaths.

  /** `ps` without the ports of datapath `dpid`, in order. */
  function Keep(ps: seq<Port>, dpid: DpId): seq<Port> {
    if ps == [] then []
    else (if ps[0].dpid == dpid then [] else [ps[0]]) + Keep(ps[1..], dpid)
  }

  /** What is kept is exactly the ports of other datapaths. */
  lemma {:induction false} KeepMembers(ps: seq<Port>, dpid: DpId)
    ensures forall p :: p in Keep(ps, dpid) <==> p in ps && p.dpid != dpid
    decreases |ps|
  {
    if ps != [] {
      KeepMembers(ps[1..], dpid);
      assert ps == [ps[0]] + ps[1..];
    }
  }

  lemma {:induction false} KeepConcat(a: seq<Port>, b: seq<Port>, dpid: DpId)
    ensures Keep(a + b, dpid) == Keep(a, dpid) + Keep(b, dpid)
    decreases |a|
  {
    if a == [] {
      assert a + b == b;
    } else {
      var head := if a[0].dpid == dpid then [] else [a[0]];
      assert (a + b)[0] == a[0];
      assert (a + b)[1..] == a[1..] + b;
      KeepConcat(a[1..], b, dpid);
      assert Keep(a, dpid) == head + Keep(a[1..], dpid);
      assert Keep(a + b, dpid) == head + Keep(a[1..] + b, dpid);
    }
  }

  /** Deleting a port of `dpid` does not change what is kept. */
  lemma KeepErase(ps: seq<Port>, i: nat, dpid: DpId)
    requires i < |ps| && ps[i].dpid == dpid
    ensures Keep(Erase(ps, i), dpid) == Keep(ps, dpid)
  {
    var tail := [ps[i]] + ps[i + 1..];
    assert ps == ps[..i] + tail;
    KeepConcat(ps[..i], tail, dpid);
    KeepConcat(ps[..i], ps[i + 1..], dpid);
    assert tail[1..] == ps[i + 1..];
    assert Keep(tail, dpid) == Keep(ps[i + 1..], dpid);
  }

  /** A sequence with no port of `dpid` keeps everything. */
  lemma {:induction false} KeepAll(ps: seq<Port>, dpid: DpId)
    requires forall j :: 0 <= j < |ps| ==> ps[j].dpid != dpid
    ensures Keep(ps, dpid) == ps
    decreases |ps|
  {
    if ps != [] {
      KeepAll(ps[1..], dpid);
    }
  }

  /** The first position of `p` in `ps`. */
  function IndexOf(ps: seq<Port>, p: Port): (i: nat)
    requires p in ps
    ensures i < |ps| && ps[i] == p
    ensures forall j :: 0 <= j < i ==> ps[j] != p
  {
    if ps[0] == p then 0 else 1 + IndexOf(ps[1..], p)
  }

  /**
   * `evs` are the REMOVE events, with `reason`, of exactly the links in
   * `gone`, one event per link.
   */
  ghost predicate Posted(evs: seq<LinkEvent>, gone: set<Link>, reason: LinkReason) {
    |evs| == |gone| &&
    (forall i :: 0 <= i < |evs| ==> LinkOf(evs[i]) in gone && evs[i] == LinkEventFor(LinkOf(evs[i]), REMOVE, reason)) &&
    (forall l :: l in gone ==> LinkEventFor(l, REMOVE, reason) in evs)
  }

  /** Removal events in link order are posted removal events. */
  lemma SortedPosted(s: set<Link>, reason: LinkReason)
    ensures Posted(RemoveEvents(SortedLinks(s), reason), s, reason)
  {
    var evs := RemoveEvents(SortedLinks(s), reason);
    SortedLinksMembers(s);
    forall l | l in s
      ensures LinkEventFor(l, REMOVE, reason) in evs
    {
      var i :| 0 <= i < |SortedLinks(s)| && SortedLinks(s)[i] == l;
      assert evs[i] == LinkEventFor(l, REMOVE, reason);
    }
  }

  /** Posting for two disjoint sets, one after the other, posts for their union. */
  lemma PostedAppend(e1: seq<LinkEvent>, g1: set<Link>, e2: seq<LinkEvent>, g2: set<Link>, reason: LinkReason)
    requires Posted(e1, g1, reason) && Posted(e2, g2, reason) && g1 !! g2
    ensures Posted(e1 + e2, g1 + g2, reason)
  {
    assert |g1 + g2| == |g1| + |g2|;
    var e := e1 + e2;
    forall i | 0 <= i < |e|
      ensures LinkOf(e[i]) in g1 + g2 && e[i] == LinkEventFor(LinkOf(e[i]), REMOVE, reason)
    {
      if i >= |e1| {
        assert e[i] == e2[i - |e1|];
      }
    }
  }

  /** A set of links minus the links at `ps`, and more ports, is the set minus the links at all of them. */
  lemma LinksAtGrow(keys: set<Link>, ps: set<Port>, p: Port)
    ensures LinksAt(keys, ps + {p}) == LinksAt(keys, ps) + LinksAt(keys - LinksAt(keys, ps), {p})
    ensures LinksAt(keys, ps) !! LinksAt(keys - LinksAt(keys, ps), {p})
  {
  }

  /** `ps` without its entry at `i`. */
  function Erase(ps: seq<Port>, i: nat): (r: seq<Port>)
    requires i < |ps|
    ensures |r| == |ps| - 1
    ensures forall k :: 0 <= k < |r| ==> r[k] == ps[if k < i then k else k + 1]
  {
    ps[..i] + ps[i + 1..]
  }

  predicate Distinct(ps: seq<Port>) {
    forall i, j :: 0 <= i < j < |ps| ==> ps[i] != ps[j]
  }

  /** Erasing one entry of a list without repeats leaves the others, once each. */
  lemma EraseDistinct(ps: seq<Port>, i: nat)
    requires Distinct(ps) && i < |ps|
    ensures Distinct(Erase(ps, i))
    ensures (set q | q in Erase(ps, i)) == (set q | q in ps) - {ps[i]}
  {
    EraseKeepsDistinct(ps, i);
    EraseMembers(ps, i);
  }

  lemma EraseKeepsDistinct(ps: seq<Port>, i: nat)
    requires Distinct(ps) && i < |ps|
    ensures Distinct(Erase(ps, i))
  {
    var rs := Erase(ps, i);
    forall a, b | 0 <= a < b < |rs|
      ensures rs[a] != rs[b]
    {
      assert rs[a] == ps[if a < i then a else a + 1];
    }
  }

  lemma EraseMembers(ps: seq<Port>, i: nat)
    requires Distinct(ps) && i < |ps|
    ensures forall q :: q in Erase(ps, i) <==> q in ps && q != ps[i]
  {
    var rs := Erase(ps, i);
    forall q | q in rs
      ensures q in ps && q != ps[i]
    {
      var k :| 0 <= k < |rs| && rs[k] == q;
      assert ps[if k < i then k else k + 1] == q;
    }
    forall q | q in ps && q != ps[i]
      ensures q in rs
    {
      var k :| 0 <= k < |ps| && ps[k] == q;
      assert q == rs[if k < i then k else k - 1];
    }
  }

  /**
   * Deleting the port `p` after the ports of `removed` deletes the links
   * at all of them and posts one event per link.
   */
  lemma DpRemoveStep(links0: map<Link, uint64>, removed: set<Port>, p: Port, evs: seq<LinkEvent>)
    requires Posted(evs, LinksAt(links0.Keys, removed), DP)
    ensures var cur := links0 - LinksAt(links0.Keys, removed);
            var here := LinksAt(cur.Keys, {p});
            cur - here == links0 - LinksAt(links0.Keys, removed + {p}) &&
            Posted(evs + RemoveEvents(SortedLinks(here), DP), LinksAt(links0.Keys, removed + {p}), DP)
  {
    var gone := LinksAt(links0.Keys, removed);
    var cur := links0 - gone;
    assert cur.Keys == links0.Keys - gone;
    var here := LinksAt(cur.Keys, {p});
    LinksAtGrow(links0.Keys, removed, p);
    SortedPosted(here, DP);
    PostedAppend(evs, gone, RemoveEvents(SortedLinks(here), DP), here, DP);
    assert gone + here == LinksAt(links0.Keys, removed + {p});
  }

  lemma SuffixAppend(a: seq<LinkEvent>, b: seq<LinkEvent>, k: nat)
    requires k <= |a|
    ensures (a + b)[k..] == a[k..] + b
    ensures (a + b)[..k] == a[..k]
  {
  }

  /** Where the next frame comes from: `next`, or the first port once `next` has run past the end. */
  function RoundRobin(next: nat, n: nat): (k: nat)
    requires n > 0
    ensures k < n
    ensures next < n ==> k == next
  {
    if n <= next then 0 else next
  }

  /** Taking away the links last seen before `cut` keeps exactly the others, with their times. */
  lemma ExpiredLinks(m: map<Link, uint64>, cut: uint64, expired: set<Link>)
    requires expired == set l | l in m && m[l] < cut
    ensures expired <= m.Keys && m.Keys - (m - expired).Keys == expired
    ensures forall l :: l in m - expired ==> l in m && (m - expired)[l] == m[l] && m[l] >= cut
    ensures forall l :: l in m && m[l] >= cut ==> l in m - expired
  {
  }

  class DiscoveryComponent {
    var dps: set<DpId>
    var ports: seq<Port>
    /** The frame announcing each port. */
    var lldps: map<Port, seq<uint8>>
    /** Each link with the time it was last seen. */
    var links: map<Link, uint64>
    /** The position in `ports` of the next frame to send (a size_t). */
    var nextPort: uint64
    var perPort: uint64
    var packetOut: uint64
    var timeout: uint64
    var linkTimeout: uint64
    var perPortTv: Timeval
    var timeoutTv: Timeval
    /** The link events posted so far. */
    var events: seq<LinkEvent>
    /** The frames sent so far. */
    var sent: seq<PacketOut>

    /** Ports are listed once each, and exactly the listed ports have their frame. */
    ghost predicate Valid()
      reads this
    {
      Distinct(ports) &&
      lldps.Keys == (set p | p in ports) &&
      (forall p :: p in lldps ==> lldps[p] == CreateLldp(p, LLDP_TTL))
    }

    /** The state after the port at `i` of `ps0` is deleted, starting from the given tables. */
    ghost predicate PortDeleted(ps0: seq<Port>, lldps0: map<Port, seq<uint8>>, links0: map<Link, uint64>,
                                evs0: seq<LinkEvent>, i: nat, reason: LinkReason)
      reads this
      requires i < |ps0|
    {
      var p := ps0[i];
      var gone := LinksAt(links0.Keys, {p});
      ports == Erase(ps0, i) && lldps == lldps0 - {p} &&
      links == links0 - gone && events == evs0 + RemoveEvents(SortedLinks(gone), reason)
    }

    /**
     * The state after every port of `dpid` was deleted, starting from the
     * given tables: exactly the other datapaths' ports remain, in order;
     * the links at the removed ports are gone, with one REMOVE/DP event
     * each posted after the earlier events; the delay is recomputed when a
     * port went.
     */
    ghost predicate DpRemoved(ports0: seq<Port>, links0: map<Link, uint64>, events0: seq<LinkEvent>,
                              tv0: Timeval, dpid: DpId)
      reads this`ports, this`links, this`events, this`perPortTv, this`perPort, this`packetOut
    {
      var gone := LinksAt(links0.Keys, set p | p in ports0 && p.dpid == dpid);
      ports == Keep(ports0, dpid) &&
      links == links0 - gone &&
      |events| >= |events0| && events[..|events0|] == events0 &&
      Posted(events[|events0|..], gone, DP) &&
      (ports == ports0 ==> perPortTv == tv0) &&
      (ports != ports0 ==> perPortTv == ToTimeval(PerPortInterval(perPort, packetOut, |ports|)))
    }

    /** No datapaths, ports or links; the default periods; the next frame index at its maximum. */
    constructor ()
      ensures dps == {} && ports == [] && lldps == map[] && links == map[]
      ensures nextPort == UINT64_LIMIT - 1
      ensures perPort == PER_PORT_PERIOD && packetOut == PACKET_OUT_PERIOD
      ensures timeout == TIMEOUT_CHECK_PERIOD && linkTimeout == LINK_TIMEOUT
      ensures perPortTv == Timeval(0, 0) && timeoutTv == Timeval(0, 0)
      ensures events == [] && sent == []
      ensures Valid()
    {
      dps := {};
      ports := [];
      lldps := map[];
      links := map[];
      nextPort := UINT64_LIMIT - 1;
      perPort := PER_PORT_PERIOD;
      packetOut := PACKET_OUT_PERIOD;
      timeout := TIMEOUT_CHECK_PERIOD;
      linkTimeout := LINK_TIMEOUT;
      perPortTv := Timeval(0, 0);
      timeoutTv := Timeval(0, 0);
      events := [];
      sent := [];
    }

    /**
     * Takes each period from its argument when given, registers the link
     * event channel, and sets both timer intervals.
     */
    method Configure(args: map<string, int>, d: EventDispatcher.EventDispatcherComponent)
      modifies this`perPort, this`packetOut, this`timeout, this`linkTimeout, this`timeoutTv, this`perPortTv, d`events
      ensures perPort == Arg(args, PER_PORT_ARG, old(perPort))
      ensures packetOut == Arg(args, PACKET_OUT_ARG, old(packetOut))
      ensures timeout == Arg(args, TIMEOUT_ARG, old(timeout))
      ensures linkTimeout == Arg(args, LINK_TO_ARG, old(linkTimeout))
      ensures d.events == old(d.events) + {LINK_EVENT_NAME}
      ensures timeoutTv == ToTimeval(timeout)
      ensures perPortTv == ToTimeval(PerPortInterval(perPort, packetOut, |ports|))
    {
      if PER_PORT_ARG in args {
        perPort := args[PER_PORT_ARG] % UINT64_LIMIT;
      }
      if PACKET_OUT_ARG in args {
        packetOut := args[PACKET_OUT_ARG] % UINT64_LIMIT;
      }
      if TIMEOUT_ARG in args {
        timeout := args[TIMEOUT_ARG] % UINT64_LIMIT;
      }
      if LINK_TO_ARG in args {
        linkTimeout := args[LINK_TO_ARG] % UINT64_LIMIT;
      }
      var _ := d.RegisterEvent(LINK_EVENT_NAME);
      timeoutTv := Timeval(timeout / 1000, (timeout % 1000) * 1000);
      UpdateTimeval();
    }

    /** Recomputes the delay between frames from the number of ports. */
    method UpdateTimeval()
      modifies this`perPortTv
      ensures perPortTv == ToTimeval(PerPortInterval(perPort, packetOut, |ports|))
    {
      var pp: uint64 := if |ports| == 0 then perPort else Max(packetOut, perPort / |ports|);
      perPortTv := Timeval(pp / 1000, (pp % 1000) * 1000);
    }

    /** A new port is appended with its frame; a known one changes nothing. */
    method PortAdd(port: Port)
      requires Valid()
      modifies this`ports, this`lldps, this`perPortTv
      ensures Valid()
      ensures port in old(ports) ==> ports == old(ports) && lldps == old(lldps) && perPortTv == old(perPortTv)
      ensures port !in old(ports) ==>
                ports == old(ports) + [port] && lldps == old(lldps)[port := CreateLldp(port, LLDP_TTL)] &&
                perPortTv == ToTimeval(PerPortInterval(perPort, packetOut, |ports|))
    {
      var i := 0;
      while i < |ports|
        invariant 0 <= i <= |ports|
        invariant forall j :: 0 <= j < i ==> ports[j] != port
      {
        if ports[i] == port {
          return;
        }
        i := i + 1;
      }
      ports := ports + [port];
      lldps := lldps[port := CreateLldp(port, LLDP_TTL)];
      UpdateTimeval();
    }

    /** Removes one link and posts its REMOVE event. */
    method DeleteLinkEntry(l: Link, reason: LinkReason)
      requires l in links
      modifies this`links, this`events
      ensures links == old(links) - {l}
      ensures events == old(events) + [LinkEventFor(l, REMOVE, reason)]
    {
      links := links - {l};
      events := events + [LinkEventFor(l, REMOVE, reason)];
    }

    /**
     * Walks the link table in key order and deletes the links of
     * `doomed`, posting their REMOVE events in that order.
     */
    method DeleteLinks(doomed: set<Link>, reason: LinkReason)
      requires doomed <= links.Keys
      modifies this`links, this`events
      ensures links == old(links) - doomed
      ensures events == old(events) + RemoveEvents(SortedLinks(doomed), reason)
    {
      var todo := doomed;
      ghost var rest := RemoveEvents(SortedLinks(todo), reason);
      while todo != {}
        invariant todo <= doomed && todo <= links.Keys
        invariant links == old(links) - (doomed - todo)
        invariant rest == RemoveEvents(SortedLinks(todo), reason)
        invariant events + rest == old(events) + RemoveEvents(SortedLinks(doomed), reason)
        decreases |todo|
      {
        LeastExists(todo);
        var l :| IsLeast(l, todo);
        DeleteStep(old(links), doomed, todo, l, reason);
        ghost var rest' := RemoveEvents(SortedLinks(todo - {l}), reason);
        MoveFirst(events, LinkEventFor(l, REMOVE, reason), rest');
        DeleteLinkEntry(l, reason);
        todo := todo - {l};
        rest := rest';
      }
      assert rest == [];
    }

    /** Deletes the link if it is known; otherwise nothing changes. */
    method LinkDelete(link: Link, reason: LinkReason)
      modifies this`links, this`events
      ensures links == old(links) - {link}
      ensures events == old(events) + (if link in old(links) then [LinkEventFor(link, REMOVE, reason)] else [])
    {
      if link in links {
        DeleteLinkEntry(link, reason);
      }
    }

    /**
     * Deletes the port at `i`: every link from or to it (posting their
     * REMOVE events), its frame and its entry, then recomputes the delay.
     */
    method PortDeleteAt(i: nat, reason: LinkReason)
      requires Valid() && i < |ports|
      modifies this`links, this`events, this`lldps, this`ports, this`perPortTv
      ensures Valid()
      ensures PortDeleted(old(ports), old(lldps), old(links), old(events), i, reason)
      ensures perPortTv == ToTimeval(PerPortInterval(perPort, packetOut, |ports|))
    {
      var port := ports[i];
      DeleteLinks(LinksAt(links.Keys, {port}), reason);
      lldps := lldps - {port};
      EraseDistinct(ports, i);
      ports := Erase(ports, i);
      UpdateTimeval();
    }

    /** Deletes `port` if it is listed; otherwise nothing changes. */
    method PortDelete(port: Port, reason: LinkReason)
      requires Valid()
      modifies this`links, this`events, this`lldps, this`ports, this`perPortTv
      ensures Valid()
      ensures port !in old(ports) ==>
                ports == old(ports) && lldps == old(lldps) && links == old(links) &&
                events == old(events) && perPortTv == old(perPortTv)
      ensures port in old(ports) ==>
                PortDeleted(old(ports), old(lldps), old(links), old(events), IndexOf(old(ports), port), reason) &&
                perPortTv == ToTimeval(PerPortInterval(perPort, packetOut, |ports|))
      ensures port !in ports
      ensures port in old(ports) ==> LinksAt(links.Keys, {port}) == {}
    {
      var i := 0;
      while i < |ports|
        invariant 0 <= i <= |ports|
        invariant forall j :: 0 <= j < i ==> ports[j] != port
      {
        if ports[i] == port {
          PortDeleteAt(i, reason);
          return;
        }
        i := i + 1;
      }
    }
  
    /**
     * Part-way through deleting the ports of `dpid`, starting from the
     * given tables: the ports before `i` are of other datapaths, the ports
     * of `removed` are gone with their links, and one event was posted per
     * link.
     */
    ghost predicate RemovingDp(ports0: seq<Port>, links0: map<Link, uint64>, events0: seq<LinkEvent>,
                               dps0: set<DpId>, tv0: Timeval, dpid: DpId, removed: set<Port>, i: nat)
      reads this
    {
      Valid() && dps == dps0 && i <= |ports| &&
      (forall j :: 0 <= j < i ==> ports[j].dpid != dpid) &&
      Keep(ports, dpid) == Keep(ports0, dpid) &&
      (forall q :: q in ports ==> q in ports0) &&
      (forall q :: q in removed <==> q in ports0 && q.dpid == dpid && q !in ports) &&
      links == links0 - LinksAt(links0.Keys, removed) &&
      |events| >= |events0| && events[..|events0|] == events0 &&
      Posted(events[|events0|..], LinksAt(links0.Keys, removed), DP) &&
      (ports == ports0 || |ports| < |ports0|) &&
      (ports == ports0 ==> perPortTv == tv0) &&
      (ports != ports0 ==> perPortTv == ToTimeval(PerPortInterval(perPort, packetOut, |ports|)))
    }

    /** Once no port of `dpid` is left, the ports removed are all of its ports. */
    lemma DpRemovedAtEnd(ports0: seq<Port>, links0: map<Link, uint64>, events0: seq<LinkEvent>,
                         dps0: set<DpId>, tv0: Timeval, dpid: DpId, removed: set<Port>)
      requires RemovingDp(ports0, links0, events0, dps0, tv0, dpid, removed, |ports|)
      ensures DpRemoved(ports0, links0, events0, tv0, dpid)
    {
      KeepAll(ports, dpid);
      assert removed == set p | p in ports0 && p.dpid == dpid;
    }

    /** One step of deleting the ports of `dpid`: the port at `i` is one of them. */
    method DpRemoveAt(i: nat, dpid: DpId, ghost removed: set<Port>, ghost ports0: seq<Port>,
                      ghost links0: map<Link, uint64>, ghost events0: seq<LinkEvent>,
                      ghost dps0: set<DpId>, ghost tv0: Timeval)
      requires RemovingDp(ports0, links0, events0, dps0, tv0, dpid, removed, i)
      requires i < |ports| && ports[i].dpid == dpid
      modifies this`links, this`events, this`lldps, this`ports, this`perPortTv
      ensures RemovingDp(ports0, links0, events0, dps0, tv0, dpid, removed + {old(ports[i])}, i)
      ensures |ports| < |old(ports)|
    {
      var p := ports[i];
      ghost var ports1, lldps1, links1, events1 := ports, lldps, links, events;
      DpRemoveStep(links0, removed, p, events1[|events0|..]);
      KeepErase(ports, i, dpid);
      PortDeleteAt(i, DP);
      assert PortDeleted(ports1, lldps1, links1, events1, i, DP);
      ghost var here := RemoveEvents(SortedLinks(LinksAt(links1.Keys, {p})), DP);
      assert events == events1 + here;
      SuffixAppend(events1, here, |events0|);
      forall j | 0 <= j < i
        ensures ports[j] == ports1[j]
      {
      }
    }

    /**
     * Deletes every port of `dpid` (with their links, posting REMOVE/DP
     * events) and forgets the datapath.
     */
    method DpRemove(dpid: DpId)
      requires Valid()
      modifies this`links, this`events, this`lldps, this`ports, this`perPortTv, this`dps
      ensures Valid()
      ensures dps == old(dps) - {dpid}
      ensures DpRemoved(old(ports), old(links), old(events), old(perPortTv), dpid)
    {
      var i := 0;
      ghost var removed: set<Port> := {};
      while i < |ports|
        invariant RemovingDp(old(ports), old(links), old(events), old(dps), old(perPortTv), dpid, removed, i)
        decreases |ports| - i
      {
        if ports[i].dpid == dpid {
          var p := ports[i];
          DpRemoveAt(i, dpid, removed, old(ports), old(links), old(events), old(dps), old(perPortTv));
          removed := removed + {p};
        } else {
          i := i + 1;
        }
      }
      DpRemovedAtEnd(old(ports), old(links), old(events), old(dps), old(perPortTv), dpid, removed);
      dps := dps - {dpid};
    }
  
    /** Records a joining datapath; one already known is removed first. */
    method DpAdd(dpid: DpId)
      requires Valid()
      modifies this`links, this`events, this`lldps, this`ports, this`perPortTv, this`dps
      ensures Valid()
      ensures dps == old(dps) + {dpid}
      ensures dpid !in old(dps) ==>
                ports == old(ports) && links == old(links) && events == old(events) && perPortTv == old(perPortTv)
      ensures dpid in old(dps) ==> DpRemoved(old(ports), old(links), old(events), old(perPortTv), dpid)
    {
      if dpid in dps {
        DpRemove(dpid);
      }
      dps := dps + {dpid};
    }

    /** A new link is stored and announced; a known one only has its time refreshed. */
    method LinkAdd(link: Link, now: uint64)
      modifies this`links, this`events
      ensures links == old(links)[link := now]
      ensures events == old(events) + (if link in old(links) then [] else [LinkEventFor(link, ADD, LINK)])
    {
      if link in links {
        links := links[link := now];
        return;
      }
      links := links[link := now];
      events := events + [LinkEventFor(link, ADD, LINK)];
    }

    /**
     * Deletes, in link order with REMOVE/LINK events, exactly the links last
     * seen before `now - linkTimeout`.
     */
    method TimeoutLinks(now: uint64)
      modifies this`links, this`events
      ensures var cut := LastTime(now, linkTimeout);
              (forall l :: l in links ==> l in old(links) && links[l] == old(links)[l] && links[l] >= cut) &&
              (forall l :: l in old(links) && old(links)[l] >= cut ==> l in links) &&
              events == old(events) + RemoveEvents(SortedLinks(old(links).Keys - links.Keys), LINK)
    {
      var lastTime := LastTime(now, linkTimeout);
      var expired := set l | l in links && links[l] < lastTime;
      ghost var m := links;
      ExpiredLinks(m, lastTime, expired);
      DeleteLinks(expired, LINK);
      assert links == m - expired;
    }

    /**
     * Sends the frame of the next port in turn, wrapping to the first port
     * when the index has run past the end; nothing is sent without ports,
     * or when the port has no frame.
     */
    method SendLldp()
      modifies this`nextPort, this`sent
      ensures ports == [] ==> nextPort == old(nextPort) && sent == old(sent)
      ensures ports != [] ==>
                var k := RoundRobin(old(nextPort), |ports|);
                var p := ports[k];
                (p in lldps ==> sent == old(sent) + [PacketOut(p.dpid, lldps[p], OFPP_CONTROLLER, p.port)] &&
                                nextPort == (k + 1) % UINT64_LIMIT) &&
                (p !in lldps ==> sent == old(sent) && nextPort == k)
      ensures Valid() && ports != [] ==>
                var p := ports[RoundRobin(old(nextPort), |ports|)];
                sent == old(sent) + [PacketOut(p.dpid, CreateLldp(p, LLDP_TTL), OFPP_CONTROLLER, p.port)]
    {
      if |ports| == 0 {
        return;
      }
      if |ports| <= nextPort {
        nextPort := 0;
      }
      var port := ports[nextPort];
      if port !in lldps {
        return;
      }
      sent := sent + [PacketOut(port.dpid, lldps[port], OFPP_CONTROLLER, port.port)];
      nextPort := (nextPort + 1) % UINT64_LIMIT;
    }

    /** A joining datapath is added under the id of its features reply. */
    method DpJoinHandler(e: Event) returns (d: Disposition)
      requires e.OfpMsgEvent? && Valid()
      modifies this`links, this`events, this`lldps, this`ports, this`perPortTv, this`dps
      ensures Valid() && d == CONTINUE
      ensures dps == old(dps) + {e.msg.datapathId}
      ensures e.msg.datapathId !in old(dps) ==>
                ports == old(ports) && links == old(links) && events == old(events) && perPortTv == old(perPortTv)
      ensures e.msg.datapathId in old(dps) ==>
                DpRemoved(old(ports), old(links), old(events), old(perPortTv), e.msg.datapathId)
    {
      DpAdd(e.msg.datapathId);
      d := CONTINUE;
    }

    /** A leaving datapath loses its ports and their links. */
    method DpLeaveHandler(e: Event) returns (d: Disposition)
      requires e.DatapathLeave? && Valid()
      modifies this`links, this`events, this`lldps, this`ports, this`perPortTv, this`dps
      ensures Valid() && d == CONTINUE
      ensures dps == old(dps) - {e.leftDpid}
      ensures DpRemoved(old(ports), old(links), old(events), old(perPortTv), e.leftDpid)
    {
      DpRemove(e.leftDpid);
      d := CONTINUE;
    }

    /**
     * A port-status message for a real port (number at most OFPP_MAX) adds
     * or deletes that port; modifications and reserved ports are ignored.
     */
    method PortStatusHandler(e: Event, reason: int, portNo: uint32) returns (d: Disposition)
      requires e.OfpMsgEvent? && Valid()
      modifies this`links, this`events, this`lldps, this`ports, this`perPortTv
      ensures Valid() && d == CONTINUE
      ensures var p := Port(e.dpid, portNo);
              portNo <= OFPP_MAX && reason == OFPPR_ADD ==>
                ports == (if p in old(ports) then old(ports) else old(ports) + [p]) &&
                links == old(links) && events == old(events) &&
                (p !in old(ports) ==> perPortTv == ToTimeval(PerPortInterval(perPort, packetOut, |ports|)))
      ensures var p := Port(e.dpid, portNo);
              portNo <= OFPP_MAX && reason == OFPPR_DELETE && p in old(ports) ==>
                PortDeleted(old(ports), old(lldps), old(links), old(events), IndexOf(old(ports), p), PORT) &&
                perPortTv == ToTimeval(PerPortInterval(perPort, packetOut, |ports|))
      ensures var p := Port(e.dpid, portNo);
              (portNo <= OFPP_MAX && reason == OFPPR_ADD && p in old(ports)) ||
              (portNo <= OFPP_MAX && reason == OFPPR_DELETE && p !in old(ports)) ||
              portNo > OFPP_MAX || (reason != OFPPR_ADD && reason != OFPPR_DELETE) ==>
                ports == old(ports) && lldps == old(lldps) && links == old(links) &&
                events == old(events) && perPortTv == old(perPortTv)
    {
      var p := Port(e.dpid, portNo);
      if portNo <= OFPP_MAX {
        if reason == OFPPR_ADD {
          PortAdd(p);
        } else if reason == OFPPR_DELETE {
          PortDelete(p, PORT);
        }
      }
      d := CONTINUE;
    }

    /**
     * An LLDP frame arriving at datapath `e.dpid` records the link from the
     * port it announces to port 1 of that datapath, unless the two are the
     * same port; any other packet is ignored.
     */
    method PacketInHandler(e: Event, data: seq<uint8>, now: uint64) returns (d: Disposition)
      requires e.OfpMsgEvent?
      modifies this`links, this`events
      ensures d == CONTINUE
      ensures var src := ParseLldp(data);
              var dst := Port(e.dpid, 1);
              (src.None? || src.value == dst ==> links == old(links) && events == old(events)) &&
              (src.Some? && src.value != dst ==>
                 var link := Link(src.value, dst);
                 links == old(links)[link := now] &&
                 events == old(events) + (if link in old(links) then [] else [LinkEventFor(link, ADD, LINK)]))
    {
      d := CONTINUE;
      var sport := ParseLldp(data);
      if sport.None? {
        return;
      }
      var dport := Port(e.dpid, 1);
      if sport.value == dport {
        return;
      }
      LinkAdd(Link(sport.value, dport), now);
    }
  }
}

=== FILE: dispatcher.dfy ===
/**
 * The event-dispatcher component: the set of known channel names, the
 * per-channel filter chains read from the configuration, and the binding of
 * handlers to channels at the order their filter chain assigns.
 */
module EventDispatcher {
  import opened OpenFlow
  import opened MsgEvent

  /** Component name -> order within one channel's filter chain. */
  type FilterChain = map<string, int>

  /** One entry of the configuration's "events" dictionary: a channel and its component list. */
  type ChainConfig = (string, seq<string>)

  /** A handler bound to a channel at an order; handlers are opaque, identified by a number. */
  datatype Binding = Binding(name: string, order: int, handler: nat)

  /** The chain built from one component list: each component gets its 0-based position. */
  function ChainOf(comps: seq<string>): FilterChain
    decreases |comps|
  {
    if comps == [] then map[]
    else ChainOf(comps[..|comps| - 1])[comps[|comps| - 1] := |comps| - 1]
  }

  /** The chains of a whole configuration; a later entry for the same channel replaces an earlier one. */
  function ChainsOf(config: seq<ChainConfig>): map<string, FilterChain>
    decreases |config|
  {
    if config == [] then map[]
    else ChainsOf(config[..|config| - 1])[config[|config| - 1].0 := ChainOf(config[|config| - 1].1)]
  }

  /**
   * The component list of a chain is exactly its key set, and a component
   * listed more than once keeps the position of its last occurrence.
   */
  lemma {:induction false} ChainOfLastPosition(comps: seq<string>, c: string)
    ensures c in ChainOf(comps) <==> c in comps
    ensures c in comps ==>
              var k := ChainOf(comps)[c];
              0 <= k < |comps| && comps[k] == c && forall j :: k < j < |comps| ==> comps[j] != c
    decreases |comps|
  {
    if comps != [] {
      var init := comps[..|comps| - 1];
      ChainOfLastPosition(init, c);
      assert comps == init + [comps[|comps| - 1]];
    }
  }

  /** The order a handler of component `filter` gets on channel `name`. */
  function EffectiveOrder(chains: map<string, FilterChain>, name: string, filter: string): int {
    if name in chains && filter in chains[name] then chains[name][filter] else 0
  }

  /** The chain of a channel is the one from its last configuration entry. */
  lemma {:induction false} ChainsOfLastEntry(config: seq<ChainConfig>, name: string, i: int)
    requires 0 <= i < |config| && config[i].0 == name
    requires forall j :: i < j < |config| ==> config[j].0 != name
    ensures name in ChainsOf(config) && ChainsOf(config)[name] == ChainOf(config[i].1)
    decreases |config|
  {
    if i < |config| - 1 {
      var init := config[..|config| - 1];
      ChainsOfLastEntry(init, name, i);
    }
  }

  /** A channel without a configuration entry has no chain. */
  lemma {:induction false} ChainsOfUnconfigured(config: seq<ChainConfig>, name: string)
    requires forall i :: 0 <= i < |config| ==> config[i].0 != name
    ensures name !in ChainsOf(config)
    decreases |config|
  {
    if config != [] {
      ChainsOfUnconfigured(config[..|config| - 1], name);
    }
  }

  /**
   * A component listed in the last configuration entry for a channel is
   * ordered at its last position in that list; any other component is
   * ordered at 0.
   */
  lemma EffectiveOrderFromConfig(config: seq<ChainConfig>, name: string, filter: string, i: int)
    requires 0 <= i < |config| && config[i].0 == name
    requires forall j :: i < j < |config| ==> config[j].0 != name
    ensures filter !in config[i].1 ==> EffectiveOrder(ChainsOf(config), name, filter) == 0
    ensures filter in config[i].1 ==>
              var k := EffectiveOrder(ChainsOf(config), name, filter);
              var comps := config[i].1;
              0 <= k < |comps| && comps[k] == filter && forall j :: k < j < |comps| ==> comps[j] != filter
  {
    ChainsOfLastEntry(config, name, i);
    ChainOfLastPosition(config[i].1, filter);
  }

  /** Every component of an unconfigured channel is ordered at 0. */
  lemma EffectiveOrderUnconfigured(config: seq<ChainConfig>, name: string, filter: string)
    requires forall i :: 0 <= i < |config| ==> config[i].0 != name
    ensures EffectiveOrder(ChainsOf(config), name, filter) == 0
  {
    ChainsOfUnconfigured(config, name);
  }

  /** The system events, registered first. */
  const SYSTEM_EVENTS: seq<string> :=
    [DATAPATH_JOIN_EVENT, DATAPATH_LEAVE_EVENT, SHUTDOWN_EVENT, BOOTSTRAP_COMPLETE_EVENT]

  /** Message types whose channels are registered before the multipart channels. */
  const EARLY_TYPES: seq<int> := [
    OFPT_HELLO, OFPT_ERROR, OFPT_ECHO_REQUEST, OFPT_ECHO_REPLY, OFPT_EXPERIMENTER,
    OFPT_FEATURES_REPLY, OFPT_GET_CONFIG_REPLY, OFPT_PACKET_IN, OFPT_FLOW_REMOVED,
    OFPT_PORT_STATUS]

  /** Multipart subtypes whose channels are registered. */
  const STARTUP_STATS: seq<int> := [
    OFPMP_DESC, OFPMP_FLOW, OFPMP_AGGREGATE, OFPMP_TABLE, OFPMP_PORT_STATS, OFPMP_QUEUE,
    OFPMP_GROUP, OFPMP_GROUP_DESC, OFPMP_GROUP_FEATURES, OFPMP_METER, OFPMP_METER_CONFIG,
    OFPMP_TABLE_FEATURES, OFPMP_PORT_DESC]

  /** Message types whose channels are registered last. */
  const LATE_TYPES: seq<int> := [OFPT_BARRIER_REPLY, OFPT_QUEUE_GET_CONFIG_REPLY]

  function TypeNames(ts: seq<int>): seq<string> {
    seq(|ts|, i requires 0 <= i < |ts| => GetName(ts[i]))
  }

  function StatsNames(ms: seq<int>): seq<string> {
    seq(|ms|, i requires 0 <= i < |ms| => GetStatsName(ms[i]))
  }

  /** The channels the component registers at start-up, in registration order. */
  const STARTUP_EVENTS: seq<string> :=
    SYSTEM_EVENTS + TypeNames(EARLY_TYPES) + StatsNames(STARTUP_STATS) + TypeNames(LATE_TYPES)

  /** Strictly increasing codes are pairwise distinct. */
  lemma {:induction false} IncreasingDistinct(s: seq<int>)
    requires forall i :: 0 <= i < |s| - 1 ==> s[i] < s[i + 1]
    ensures forall i, j :: 0 <= i < j < |s| ==> s[i] < s[j]
    decreases |s|
  {
    if |s| > 1 {
      IncreasingDistinct(s[1..]);
      forall j | 1 < j < |s|
        ensures s[0] < s[j]
      {
        assert s[1..][0] < s[1..][j - 1];
      }
      forall i, j | 0 <= i < j < |s|
        ensures s[i] < s[j]
      {
        if 0 < i {
          assert s[1..][i - 1] < s[1..][j - 1];
        }
      }
    }
  }

  /** A prefix one longer is the prefix followed by the next element. */
  lemma TakeOneMore<T>(s: seq<T>, i: nat)
    requires i < |s|
    ensures s[..i + 1] == s[..i] + [s[i]]
  {
  }

  /** No system event is a message or multipart channel. */
  lemma SystemEventsAreNotChannels()
    ensures forall i :: 0 <= i < |SYSTEM_EVENTS| ==> ChannelOf(SYSTEM_EVENTS[i]) == None
  {
    assert ChannelOf(DATAPATH_JOIN_EVENT) == None;
    assert ChannelOf(DATAPATH_LEAVE_EVENT) == None;
    assert ChannelOf(SHUTDOWN_EVENT) == None;
    assert ChannelOf(BOOTSTRAP_COMPLETE_EVENT) == None;
  }

  /** The 29 start-up channels are pairwise distinct, so each registration succeeds. */
  lemma StartupEventsDistinct()
    ensures |STARTUP_EVENTS| == 29
    ensures forall i, j :: 0 <= i < j < |STARTUP_EVENTS| ==> STARTUP_EVENTS[i] != STARTUP_EVENTS[j]
  {
    var msgs := EARLY_TYPES + LATE_TYPES;
    IncreasingDistinct(msgs);
    IncreasingDistinct(STARTUP_STATS);
    SystemEventsAreNotChannels();
    var S := STARTUP_EVENTS;
    forall i, j | 0 <= i < j < |S|
      ensures S[i] != S[j]
    {
      if j < 4 {
      } else if i < 4 {
        if j < 14 || 27 <= j {
          var t := if j < 14 then EARLY_TYPES[j - 4] else LATE_TYPES[j - 27];
          assert S[j] == GetName(t);
          GetNameInverse(t);
        } else {
          var m := STARTUP_STATS[j - 14];
          assert S[j] == GetStatsName(m);
          GetStatsNameInverse(m);
        }
      } else {
        var ci := if i < 14 then MsgChannel(msgs[i - 4]) else if i < 27 then StatsChannel(STARTUP_STATS[i - 14]) else MsgChannel(msgs[i - 17]);
        var cj := if j < 14 then MsgChannel(msgs[j - 4]) else if j < 27 then StatsChannel(STARTUP_STATS[j - 14]) else MsgChannel(msgs[j - 17]);
        NamesDistinctAt(S, i, ci);
        NamesDistinctAt(S, j, cj);
        assert ci != cj;
      }
    }
  }

  /** The channel a start-up name at position `i` reads back to. */
  lemma NamesDistinctAt(S: seq<string>, i: int, c: Channel)
    requires S == STARTUP_EVENTS && 4 <= i < 29
    requires c == if i < 14 then MsgChannel((EARLY_TYPES + LATE_TYPES)[i - 4])
                  else if i < 27 then StatsChannel(STARTUP_STATS[i - 14])
                  else MsgChannel((EARLY_TYPES + LATE_TYPES)[i - 17])
    ensures ChannelOf(S[i]) == Some(c)
  {
    if i < 14 {
      GetNameInverse(EARLY_TYPES[i - 4]);
    } else if i < 27 {
      GetStatsNameInverse(STARTUP_STATS[i - 14]);
    } else {
      GetNameInverse(LATE_TYPES[i - 27]);
    }
  }

  /**
   * Which named channels are registered: every named message type except
   * flow-mod, role-reply and async-reply, and every named multipart subtype
   * except meter-features and experimenter.
   */
  lemma StartupChannels(t: int, m: int)
    ensures GetName(t) != "" ==>
              (GetName(t) in STARTUP_EVENTS <==>
               t !in {OFPT_FLOW_MOD, OFPT_ROLE_REPLY, OFPT_GET_ASYNC_REPLY})
    ensures GetStatsName(m) != "" ==>
              (GetStatsName(m) in STARTUP_EVENTS <==>
               m !in {OFPMP_METER_FEATURES, OFPMP_EXPERIMENTER})
  {
    if GetName(t) != "" {
      StartupMsgChannel(t);
    }
    if GetStatsName(m) != "" {
      StartupStatsChannel(m);
    }
  }

  lemma StartupMsgChannel(t: int)
    requires GetName(t) != ""
    ensures GetName(t) in STARTUP_EVENTS <==> t !in {OFPT_FLOW_MOD, OFPT_ROLE_REPLY, OFPT_GET_ASYNC_REPLY}
  {
    var S := STARTUP_EVENTS;
    if GetName(t) in S {
      var i :| 0 <= i < |S| && S[i] == GetName(t);
      StartupMsgAt(t, i);
    } else if t !in {OFPT_FLOW_MOD, OFPT_ROLE_REPLY, OFPT_GET_ASYNC_REPLY} {
      MsgTypeRegistered(t);
    }
  }

  /** A start-up name equal to a message-type name sits at that type's message position. */
  lemma StartupMsgAt(t: int, i: int)
    requires GetName(t) != "" && 0 <= i < |STARTUP_EVENTS| && STARTUP_EVENTS[i] == GetName(t)
    ensures t in EARLY_TYPES + LATE_TYPES
  {
    var S := STARTUP_EVENTS;
    if i < 4 {
      SystemEventsAreNotChannels();
      GetNameInverse(t);
    } else if i < 14 || 27 <= i {
      var u := if i < 14 then EARLY_TYPES[i - 4] else LATE_TYPES[i - 27];
      assert S[i] == GetName(u);
      NamesDistinct(t, u, 0, 0);
      assert u in EARLY_TYPES + LATE_TYPES;
    } else {
      assert S[i] == GetStatsName(STARTUP_STATS[i - 14]);
      NamesDistinct(t, t, STARTUP_STATS[i - 14], 0);
    }
  }

  lemma StartupStatsChannel(m: int)
    requires GetStatsName(m) != ""
    ensures GetStatsName(m) in STARTUP_EVENTS <==> m !in {OFPMP_METER_FEATURES, OFPMP_EXPERIMENTER}
  {
    var S := STARTUP_EVENTS;
    if GetStatsName(m) in S {
      var i :| 0 <= i < |S| && S[i] == GetStatsName(m);
      StartupStatsAt(m, i);
    } else if m !in {OFPMP_METER_FEATURES, OFPMP_EXPERIMENTER} {
      StatsTypeRegistered(m);
    }
  }

  /** A start-up name equal to a multipart-subtype name sits at that subtype's position. */
  lemma StartupStatsAt(m: int, i: int)
    requires GetStatsName(m) != "" && 0 <= i < |STARTUP_EVENTS| && STARTUP_EVENTS[i] == GetStatsName(m)
    ensures m in STARTUP_STATS
  {
    var S := STARTUP_EVENTS;
    if i < 4 {
      SystemEventsAreNotChannels();
      GetStatsNameInverse(m);
    } else if i < 14 || 27 <= i {
      var u := if i < 14 then EARLY_TYPES[i - 4] else LATE_TYPES[i - 27];
      assert S[i] == GetName(u);
      NamesDistinct(u, u, m, 0);
    } else {
      var u := STARTUP_STATS[i - 14];
      assert S[i] == GetStatsName(u);
      NamesDistinct(0, 0, m, u);
    }
  }

  lemma MsgTypeRegistered(t: int)
    requires t in NAMED_TYPES && t !in {OFPT_FLOW_MOD, OFPT_ROLE_REPLY, OFPT_GET_ASYNC_REPLY}
    ensures GetName(t) in STARTUP_EVENTS
  {
    var msgs := EARLY_TYPES + LATE_TYPES;
    assert t in msgs;
    var k :| 0 <= k < |msgs| && msgs[k] == t;
    var i := if k < 10 then k + 4 else k + 17;
    assert STARTUP_EVENTS[i] == GetName(t);
  }

  lemma StatsTypeRegistered(m: int)
    requires m in NAMED_STATS && m !in {OFPMP_METER_FEATURES, OFPMP_EXPERIMENTER}
    ensures GetStatsName(m) in STARTUP_EVENTS
  {
    assert m in STARTUP_STATS;
    var k :| 0 <= k < |STARTUP_STATS| && STARTUP_STATS[k] == m;
    assert STARTUP_EVENTS[k + 14] == GetStatsName(m);
  }

  /**
   * The core's handler table: bindings in the order they were made. How the
   * core runs the handlers of a channel by order is not part of this model.
   */
  class HandlerTable {
    var bindings: seq<Binding>

    constructor ()
      ensures bindings == []
    {
      bindings := [];
    }

    /** Binds `h` to channel `name` at `order`, whether or not the channel is known. */
    method Register(name: string, h: nat, order: int)
      modifies this
      ensures bindings == old(bindings) + [Binding(name, order, h)]
    {
      bindings := bindings + [Binding(name, order, h)];
    }
  }

  class EventDispatcherComponent {
    /** Channel -> filter chain, built once from the configuration. */
    var filterChains: map<string, FilterChain>
    /** The known channel names. */
    var events: set<string>
    /** The core's handler table that bindings are added to. */
    const table: HandlerTable

    /**
     * Builds the filter chain of every configured channel, then registers
     * the system events and the message and multipart channels.
     */
    constructor (config: seq<ChainConfig>, table: HandlerTable)
      ensures this.table == table
      ensures filterChains == ChainsOf(config)
      ensures events == set n | n in STARTUP_EVENTS
    {
      var chains: map<string, FilterChain> := map[];
      var k := 0;
      while k < |config|
        invariant 0 <= k <= |config|
        invariant chains == ChainsOf(config[..k])
      {
        var eventName := config[k].0;
        var compList := config[k].1;
        var order := 0;
        var chain: FilterChain := map[];
        while order < |compList|
          invariant 0 <= order <= |compList|
          invariant chain == ChainOf(compList[..order])
        {
          assert compList[..order + 1][..order] == compList[..order];
          chain := chain[compList[order] := order];
          order := order + 1;
        }
        assert compList[..order] == compList;
        assert config[..k + 1][..k] == config[..k];
        chains := chains[eventName := chain];
        k := k + 1;
      }
      assert config[..k] == config;
      filterChains := chains;
      events := {};
      this.table := table;
      new;
      var i := 0;
      while i < |STARTUP_EVENTS|
        invariant 0 <= i <= |STARTUP_EVENTS|
        invariant events == set n | n in STARTUP_EVENTS[..i]
        invariant filterChains == ChainsOf(config) && this.table == table
      {
        var _ := RegisterEvent(STARTUP_EVENTS[i]);
        TakeOneMore(STARTUP_EVENTS, i);
        i := i + 1;
      }
      assert STARTUP_EVENTS[..i] == STARTUP_EVENTS;
    }

    /** Does nothing: events are posted through the core directly. */
    method Post(e: Event)
      ensures unchanged(this)
    {
    }

    /** Records a channel name; fails, changing nothing, when the name is already known. */
    method RegisterEvent(name: string) returns (ok: bool)
      modifies this`events
      ensures ok <==> name !in old(events)
      ensures events == old(events) + {name}
    {
      if name in events {
        ok := false;
      } else {
        events := events + {name};
        ok := true;
      }
    }

    /**
     * Binds handler `h` of component `filter` to channel `name`; fails,
     * binding nothing, when the channel is unknown.
     */
    method RegisterHandler(filter: string, name: string, h: nat) returns (ok: bool)
      modifies table
      ensures ok <==> name in events
      ensures table.bindings ==
                if ok then old(table.bindings) + [Binding(name, EffectiveOrder(filterChains, name, filter), h)]
                else old(table.bindings)
    {
      if name !in events {
        return false;
      }
      if name !in filterChains {
        table.Register(name, h, 0);
      } else {
        var chain := filterChains[name];
        if filter !in chain {
          table.Register(name, h, 0);
        } else {
          table.Register(name, h, chain[filter]);
        }
      }
      ok := true;
    }
  }

  /** Registering the same channel twice fails the second time and keeps the name known. */
  method RegisterTwice(d: EventDispatcherComponent, name: string) returns (first: bool, second: bool)
    modifies d
    ensures !second && name in d.events
    ensures first <==> name !in old(d.events)
  {
    first := d.RegisterEvent(name);
    second := d.RegisterEvent(name);
  }
}

=== FILE: flowmod.dfy ===
/**
 * The flow-modification message builder of the OpenFlow library: a
 * `FlowMod` object holds one OpenFlow 1.3 flow_mod message whose header
 * fields are set by a constructor, and whose match and instruction list
 * are attached afterwards.
 */
module FlowMods {
  import opened OpenFlow
  import opened InstructionList

  /** The value of one match field: a number or a byte string such as a MAC address. */
  datatype FieldValue = Num(n: int) | Octets(octets: seq<uint8>)

  /** One OXM match field, by name. */
  datatype MatchField = MatchField(name: string, value: FieldValue)

  /** A match: its fields in the order they were added. */
  type Match = seq<MatchField>

  /** The table id of the default message: all tables. */
  const OFPTT_ALL: uint8 := 0xff

  /**
   * A flow_mod message. A match that is not set is `None`; an instruction
   * list that is not set is empty with a count of 0.
   */
  datatype FlowModMsg = FlowModMsg(
    msgType: int,
    cookie: uint64,
    cookieMask: uint64,
    tableId: uint8,
    command: int,
    idleTimeout: uint16,
    hardTimeout: uint16,
    priority: uint16,
    bufferId: uint32,
    outPort: uint32,
    outGroup: uint32,
    flags: uint16,
    flowMatch: Option<Match>,
    instructionsNum: int,
    instructions: seq<Option<Instr>>)

  /**
   * The message the eleven-argument constructor builds: a flow_mod with
   * the given header fields, no match and no instructions.
   */
  function NewFlowMod(cookie: uint64, cookieMask: uint64, tableId: uint8, command: int,
                      idleTimeout: uint16, hardTimeout: uint16, priority: uint16,
                      bufferId: uint32, outPort: uint32, outGroup: uint32, flags: uint16): (m: FlowModMsg)
    ensures m.msgType == OFPT_FLOW_MOD && m.flowMatch == None
    ensures m.instructionsNum == 0 && m.instructions == []
  {
    FlowModMsg(OFPT_FLOW_MOD, cookie, cookieMask, tableId, command, idleTimeout, hardTimeout,
               priority, bufferId, outPort, outGroup, flags, None, 0, [])
  }

  /**
   * The message of the default constructor: add a permanent flow at the
   * default priority to every table, with no buffered packet, any output
   * port, any group and no flags.
   */
  const DEFAULT_FLOW_MOD: FlowModMsg :=
    NewFlowMod(0, 0, OFPTT_ALL, OFPFC_ADD, OFP_FLOW_PERMANENT, OFP_FLOW_PERMANENT,
               OFP_DEFAULT_PRIORITY, OFP_NO_BUFFER, OFPP_ANY, OFPG_ANY, 0)

  class FlowMod {
    var fmMsg: FlowModMsg

    /** The default constructor: the message InitFlowMod sets. */
    constructor ()
      ensures fmMsg == DEFAULT_FLOW_MOD
    {
      new;
      InitFlowMod();
    }

    /** The constructor that takes every header field. */
    constructor WithFields(cookie: uint64, cookieMask: uint64, tableId: uint8, command: int,
                           idleTimeout: uint16, hardTimeout: uint16, priority: uint16,
                           bufferId: uint32, outPort: uint32, outGroup: uint32, flags: uint16)
      ensures fmMsg == NewFlowMod(cookie, cookieMask, tableId, command, idleTimeout, hardTimeout,
                                  priority, bufferId, outPort, outGroup, flags)
    {
      fmMsg := NewFlowMod(cookie, cookieMask, tableId, command, idleTimeout, hardTimeout,
                          priority, bufferId, outPort, outGroup, flags);
    }

    /** Resets the message to the default one, dropping any match and instructions. */
    method InitFlowMod()
      modifies this
      ensures fmMsg == DEFAULT_FLOW_MOD
      ensures fmMsg.flowMatch == None && fmMsg.instructionsNum == 0 && fmMsg.instructions == []
    {
      fmMsg := DEFAULT_FLOW_MOD;
    }

    /** Attaches the match `m`; every other field is left as it was. */
    method AddMatch(m: Match)
      modifies this
      ensures fmMsg == old(fmMsg).(flowMatch := Some(m))
    {
      fmMsg := fmMsg.(flowMatch := Some(m));
    }

    /** Sets the instruction count; every other field is left as it was. */
    method SetInstructionsNum(n: int)
      modifies this
      ensures fmMsg == old(fmMsg).(instructionsNum := n)
    {
      fmMsg := fmMsg.(instructionsNum := n);
    }

    /**
     * Attaches the instruction list `inst`: the message takes its slots
     * and its count. For an owned list the message then carries exactly
     * the list's instructions.
     */
    method AddInstructions(inst: Instruction)
      modifies this
      ensures fmMsg == old(fmMsg).(instructionsNum := inst.counter.instNum, instructions := inst.insts[..])
      ensures inst.Owned() ==>
        fmMsg.instructions[..fmMsg.instructionsNum] == inst.Contents() &&
        forall i :: 0 <= i < fmMsg.instructionsNum ==> fmMsg.instructions[i].Some?
    {
      SetInstructionsNum(inst.counter.instNum);
      fmMsg := fmMsg.(instructions := inst.insts[..]);
    }
  }
}

=== FILE: handshake.dfy ===
/**
 * The handshake a new switch connection goes through before it is
 * registered (connection setup, section 6.3.1 of the OpenFlow Switch
 * Specification 1.3): send a features request, send the switch
 * configuration, wait for the features reply, consult the authorisation
 * hook, then register the connection under the reply's datapath id.
 *
 * One run of the state machine is the pure function `Step` from the session
 * and what the transport, codec, clock and hook report to an outcome;
 * `HandshakeFsm` applies outcomes to its fields and to the registry.
 */
module Handshake {
  import opened OpenFlow
  import opened MsgEvent
  import opened Nox

  datatype HState = SEND_FEATURES_REQ | SEND_CONFIG | RECV_FEATURES_REPLY | CHECK_SWITCH_AUTH | REGISTER_SWITCH

  /** Position of a state along the handshake. */
  function Rank(h: HState): nat {
    match h
    case SEND_FEATURES_REQ => 0
    case SEND_CONFIG => 1
    case RECV_FEATURES_REPLY => 2
    case CHECK_SWITCH_AUTH => 3
    case REGISTER_SWITCH => 4
  }

  /** The handshake's own state: where it is, the approval, the saved reply and the deadline. */
  datatype Session = Session(state: HState, approved: bool, featuresReply: Option<Msg>, deadline: int)

  /** A saved reply is a features reply, and one is saved from the authorisation step on. */
  predicate WellFormed(s: Session) {
    (s.featuresReply.Some? ==> s.featuresReply.value.msgType == OFPT_FEATURES_REPLY) &&
    (Rank(s.state) >= 3 ==> s.featuresReply.Some?)
  }

  /**
   * What one run observes: the clock, the status of the send this state
   * makes, the result of the receive this state makes, and whether an
   * authorisation hook is installed.
   */
  datatype Io = Io(now: int, sendError: int, received: Received, hasAuth: bool)

  datatype Outcome =
    | Yield(next: Session, echo: Option<Decoded>)  // runs again at once; `echo` was answered
    | Block(next: Session)                          // waits for the transport or the deadline
    | AwaitAuth(next: Session)                      // waits for the authorisation callback
    | Exit(code: int)                               // gives up with an error code
    | Admit(dpid: DpId, featuresReply: Msg)         // registers the switch and exits with 0

  /** A send state: would-block waits, an error exits with it, success moves on. */
  function SendStep(s: Session, err: int, next: HState): Outcome {
    if err == EAGAIN then Block(s)
    else if err != 0 then Exit(err)
    else Yield(s.(state := next), None)
  }

  /**
   * The receive state: only a features reply moves on (and is saved); an
   * echo request is answered; an error message exits with EINVAL; anything
   * else, including an undecodable buffer, is dropped.
   */
  function RecvStep(s: Session, r: Received): Outcome {
    if r.error == EAGAIN then Block(s)
    else if r.error != 0 then Exit(r.error)
    else match r.decoded
      case None => Yield(s, None)
      case Some(d) =>
        if d.msg.msgType == OFPT_FEATURES_REPLY then
          Yield(s.(featuresReply := Some(d.msg), state := CHECK_SWITCH_AUTH), None)
        else if d.msg.msgType == OFPT_ECHO_REQUEST then Yield(s, Some(d))
        else if d.msg.msgType == OFPT_ERROR then Exit(EINVAL)
        else Yield(s, None)
  }

  /** The registration state: an unapproved switch exits with EPERM, datapath id 0 with EINVAL. */
  function RegisterStep(s: Session): Outcome
    requires s.featuresReply.Some?
  {
    var dpid := s.featuresReply.value.datapathId;
    if !s.approved then Exit(EPERM)
    else if dpid == 0 then Exit(EINVAL)
    else Admit(dpid, s.featuresReply.value)
  }

  /**
   * One run. The deadline is checked first; without a hook the switch is
   * approved and registration runs at once, within the same run and so
   * against the same clock reading (the source re-enters its run method,
   * which reads the clock a second time a moment later).
   */
  function Step(s: Session, io: Io): (o: Outcome)
    requires WellFormed(s)
    ensures io.now > s.deadline ==> o == Exit(ETIMEDOUT)
    ensures o.Exit? ==> o.code != 0
    ensures o.Yield? || o.Block? || o.AwaitAuth? ==>
              WellFormed(o.next) && o.next.deadline == s.deadline &&
              Rank(s.state) <= Rank(o.next.state) <= Rank(s.state) + 1
    ensures o.Block? || o.AwaitAuth? ==> o.next == s
    ensures o.AwaitAuth? <==> io.now <= s.deadline && s.state == CHECK_SWITCH_AUTH && io.hasAuth
    ensures o.Admit? ==>
              o.dpid != 0 && s.featuresReply == Some(o.featuresReply) &&
              o.featuresReply.datapathId == o.dpid &&
              o.featuresReply.msgType == OFPT_FEATURES_REPLY &&
              Rank(s.state) >= 3 && (s.approved || !io.hasAuth)
  {
    if io.now > s.deadline then Exit(ETIMEDOUT)
    else match s.state
      case SEND_FEATURES_REQ => SendStep(s, io.sendError, SEND_CONFIG)
      case SEND_CONFIG => SendStep(s, io.sendError, RECV_FEATURES_REPLY)
      case RECV_FEATURES_REPLY => RecvStep(s, io.received)
      case CHECK_SWITCH_AUTH =>
        if io.hasAuth then AwaitAuth(s)
        else RegisterStep(s.(approved := true, state := REGISTER_SWITCH))
      case REGISTER_SWITCH => RegisterStep(s)
  }

  /** The session after the authorisation callback: the verdict is stored and registration is next. */
  function AuthDecided(s: Session, isApproved: bool): (t: Session)
    ensures WellFormed(s) && s.state == CHECK_SWITCH_AUTH ==> WellFormed(t) && Rank(t.state) == 4
  {
    s.(approved := isApproved, state := REGISTER_SWITCH)
  }

  /**
   * Runs the machine over successive observations: it resumes after a
   * yield or a wake-up and stops at anything else, or when nothing more is
   * observed (`Block` of the current session).
   */
  function Drive(s: Session, ios: seq<Io>): Outcome
    requires WellFormed(s)
    decreases |ios|
  {
    if ios == [] then Block(s)
    else
      var o := Step(s, ios[0]);
      if o.Yield? || o.Block? then Drive(o.next, ios[1..]) else o
  }

  /** An observation in which nothing arrives yet. */
  function Waiting(now: int): Io {
    Io(now, 0, Received(EAGAIN, None), false)
  }

  /** An observation in which the switch's features reply arrives. */
  function Replied(now: int, reply: Msg, xid: uint32): Io {
    Io(now, 0, Received(0, Some(Decoded(xid, reply))), false)
  }

  /** Any number of empty receives before the deadline leave the waiting session where it was. */
  lemma {:induction false} DriveWaits(s: Session, n: nat, now: int, rest: seq<Io>)
    requires WellFormed(s) && s.state == RECV_FEATURES_REPLY && now <= s.deadline
    ensures Drive(s, seq(n, _ => Waiting(now)) + rest) == Drive(s, rest)
    decreases n
  {
    var ws := seq(n, _ => Waiting(now));
    if n == 0 {
      assert ws + rest == rest;
    } else {
      assert (ws + rest)[0] == Waiting(now);
      assert Step(s, Waiting(now)) == Block(s);
      assert (ws + rest)[1..] == seq(n - 1, _ => Waiting(now)) + rest;
      DriveWaits(s, n - 1, now, rest);
    }
  }

  /**
   * The handshake of a fresh session whose two sends succeed, whose
   * features reply with a non-zero datapath id arrives after any number of
   * empty receives, and with no authorisation hook installed, all before
   * the deadline, admits the switch under that datapath id.
   */
  lemma HandshakeAdmits(deadline: int, now: int, n: nat, reply: Msg, xid: uint32)
    requires now <= deadline
    requires reply.msgType == OFPT_FEATURES_REPLY && reply.datapathId != 0
    ensures var s := Session(SEND_FEATURES_REQ, false, None, deadline);
            var ios := [Io(now, 0, Received(0, None), false), Io(now, 0, Received(0, None), false)] +
                       seq(n, _ => Waiting(now)) + [Replied(now, reply, xid), Waiting(now)];
            Drive(s, ios) == Admit(reply.datapathId, reply)
  {
    var s := Session(SEND_FEATURES_REQ, false, None, deadline);
    var send := Io(now, 0, Received(0, None), false);
    var tail := [Replied(now, reply, xid), Waiting(now)];
    var ws := seq(n, _ => Waiting(now));
    var ios := [send, send] + ws + tail;
    var s2 := s.(state := RECV_FEATURES_REPLY);
    assert ios[1..][1..] == ws + tail;
    assert Drive(s, ios) == Drive(s2, ws + tail);
    DriveWaits(s2, n, now, tail);
    var s3 := s2.(featuresReply := Some(reply), state := CHECK_SWITCH_AUTH);
    assert tail[1..] == [Waiting(now)];
    assert Drive(s2, tail) == Drive(s3, [Waiting(now)]);
  }

  /** A send that would block waits in the same state; any other send error ends the handshake with it. */
  lemma SendErrorExitsWithIt(s: Session, io: Io)
    requires WellFormed(s) && s.state in {SEND_FEATURES_REQ, SEND_CONFIG} && io.now <= s.deadline
    ensures io.sendError == EAGAIN ==> Step(s, io) == Block(s)
    ensures io.sendError != EAGAIN && io.sendError != 0 ==> Step(s, io) == Exit(io.sendError)
    ensures io.sendError == 0 ==>
              Step(s, io) == Yield(s.(state := if s.state == SEND_FEATURES_REQ then SEND_CONFIG else RECV_FEATURES_REPLY), None)
  {
  }

  /** A receive that would block waits in the same state; any other receive error ends the handshake with it. */
  lemma RecvErrorExitsWithIt(s: Session, io: Io)
    requires WellFormed(s) && s.state == RECV_FEATURES_REPLY && io.now <= s.deadline
    ensures io.received.error == EAGAIN ==> Step(s, io) == Block(s)
    ensures io.received.error != EAGAIN && io.received.error != 0 ==> Step(s, io) == Exit(io.received.error)
  {
  }

  /** An error message received while waiting for the features reply ends the handshake with EINVAL. */
  lemma ErrorMsgExitsEinval(s: Session, io: Io)
    requires WellFormed(s) && s.state == RECV_FEATURES_REPLY && io.now <= s.deadline
    requires io.received.error == 0 && io.received.decoded.Some?
    requires io.received.decoded.value.msg.msgType == OFPT_ERROR
    ensures Step(s, io) == Exit(EINVAL)
  {
  }

  /** An echo request received while waiting is answered, and the session stays where it was. */
  lemma EchoAnswered(s: Session, io: Io)
    requires WellFormed(s) && s.state == RECV_FEATURES_REPLY && io.now <= s.deadline
    requires io.received.error == 0 && io.received.decoded.Some?
    requires io.received.decoded.value.msg.msgType == OFPT_ECHO_REQUEST
    ensures Step(s, io) == Yield(s, io.received.decoded)
  {
  }

  /**
   * Only a features reply leaves the receive state, and it is saved. Any
   * other successful receive except an error message (an echo request, a
   * packet-in, any other type, or a buffer that does not decode) yields
   * with the session unchanged.
   */
  lemma OnlyFeaturesReplyAdvances(s: Session, io: Io)
    requires WellFormed(s) && s.state == RECV_FEATURES_REPLY && io.now <= s.deadline
    ensures var o := Step(s, io);
            (o.Yield? && o.next.state != RECV_FEATURES_REPLY) <==>
              io.received.error == 0 && io.received.decoded.Some? &&
              io.received.decoded.value.msg.msgType == OFPT_FEATURES_REPLY
    ensures var o := Step(s, io);
            o.Yield? && o.next.state != RECV_FEATURES_REPLY ==>
              o.next == s.(featuresReply := Some(io.received.decoded.value.msg), state := CHECK_SWITCH_AUTH)
    ensures var o := Step(s, io);
            o.Yield? && o.next.state == RECV_FEATURES_REPLY ==> o.next == s
    ensures io.received.error == 0 &&
            (io.received.decoded.None? ||
             io.received.decoded.value.msg.msgType !in {OFPT_FEATURES_REPLY, OFPT_ERROR}) ==>
              Step(s, io).Yield? && Step(s, io).next == s
  {
  }

  /**
   * An approved switch whose features reply carries datapath id 0 ends the
   * handshake with EINVAL, whether it was approved by the hook or, with no
   * hook, automatically.
   */
  lemma DpidZeroExitsEinval(s: Session, io: Io)
    requires WellFormed(s) && io.now <= s.deadline
    requires (s.state == REGISTER_SWITCH && s.approved) || (s.state == CHECK_SWITCH_AUTH && !io.hasAuth)
    requires s.featuresReply.Some? && s.featuresReply.value.datapathId == 0
    ensures Step(s, io) == Exit(EINVAL)
  {
  }

  /** A switch the hook rejected is never admitted. */
  lemma RejectedNeverAdmitted(s: Session, io: Io)
    requires WellFormed(s) && s.state == REGISTER_SWITCH && !s.approved
    ensures Step(s, io) == if io.now > s.deadline then Exit(ETIMEDOUT) else Exit(EPERM)
  {
  }

  /** The join event posted for an admitted switch: named as such, xid 0, carrying the reply. */
  function JoinEvent(dpid: DpId, reply: Msg): Event {
    OfpMsgEvent(DATAPATH_JOIN_EVENT, dpid, 0, reply)
  }

  class HandshakeFsm {
    var state: HState
    var switchApproved: bool
    var featuresReply: Option<Msg>
    /** The time to give up, in microseconds. */
    var timeout: int
    /** Whether a disconnect semaphore is still held (it is handed to the connection on success). */
    var hasDisconnected: bool
    /** Times the disconnect semaphore was signalled. */
    var disconnectedUps: nat
    /** Whether the creator asked for the exit code, and the code reported. */
    const hasErrorp: bool
    var reportedError: Option<int>
    var exited: bool
    /** Echo requests answered so far. */
    var echoed: seq<Decoded>
    /** The addresses of the underlying connection. */
    const localIp: uint32
    const remoteIp: uint32

    function Sess(): Session
      reads this
    {
      Session(state, switchApproved, featuresReply, timeout)
    }

    /** A new handshake starts by sending the features request, with the deadline `timeoutSecs` ahead. */
    constructor (now: int, timeoutSecs: int, hasDisconnected: bool, hasErrorp: bool, localIp: uint32, remoteIp: uint32)
      ensures Sess() == Session(SEND_FEATURES_REQ, false, None, now + timeoutSecs * 1000000)
      ensures WellFormed(Sess()) && !exited && reportedError == None && echoed == []
      ensures this.hasDisconnected == hasDisconnected && disconnectedUps == 0
      ensures this.hasErrorp == hasErrorp && this.localIp == localIp && this.remoteIp == remoteIp
    {
      state := SEND_FEATURES_REQ;
      switchApproved := false;
      featuresReply := None;
      timeout := now + timeoutSecs * 1000000;
      this.hasDisconnected := hasDisconnected;
      disconnectedUps := 0;
      this.hasErrorp := hasErrorp;
      reportedError := None;
      exited := false;
      echoed := [];
      this.localIp := localIp;
      this.remoteIp := remoteIp;
    }

    /** Ends the handshake: reports the code if asked and signals the semaphore if still held. */
    method DoExit(code: int)
      modifies this`reportedError, this`disconnectedUps, this`exited
      ensures exited
      ensures reportedError == if hasErrorp then Some(code) else old(reportedError)
      ensures disconnectedUps == old(disconnectedUps) + (if hasDisconnected then 1 else 0)
    {
      if hasErrorp {
        reportedError := Some(code);
      }
      if hasDisconnected {
        disconnectedUps := disconnectedUps + 1;
      }
      exited := true;
    }

    /**
     * The end of an approved handshake: the connection is registered with
     * `nox` under `dpid`, the join event is posted and the handshake exits
     * with code 0.
     */
    method Register(nox: Nox, dpid: DpId, reply: Msg)
      requires nox.Valid()
      modifies this, nox`conns, nox`connMap, nox`pollables, nox`posted
      ensures nox.Valid() && exited && switchApproved && state == REGISTER_SWITCH && !hasDisconnected
      ensures featuresReply == old(featuresReply) && timeout == old(timeout) && echoed == old(echoed)
      ensures disconnectedUps == old(disconnectedUps)
      ensures reportedError == (if hasErrorp then Some(0) else old(reportedError))
      ensures nox.conns == Displaced(old(nox.connMap), old(nox.conns), dpid) +
                           [ConnRec(dpid, false, 0, false, localIp, remoteIp, old(hasDisconnected))]
      ensures nox.connMap == old(nox.connMap)[dpid := |old(nox.conns)|]
      ensures nox.pollables == DisplacedPolls(old(nox.connMap), old(nox.pollables), dpid) + {|old(nox.conns)|}
      ensures nox.posted == old(nox.posted) +
                (if dpid in old(nox.connMap) then [DatapathLeave(dpid)] else []) + [JoinEvent(dpid, reply)]
    {
      switchApproved := true;
      state := REGISTER_SWITCH;
      nox.RegisterAndPost(dpid, localIp, remoteIp, hasDisconnected, JoinEvent(dpid, reply));
      hasDisconnected := false;
      DoExit(0);
    }

    /**
     * One run against the registry. An admitted switch is registered under
     * its datapath id (displacing, and so posting the leave of, any earlier
     * connection of that datapath) before its join event is posted, and the
     * handshake exits with 0 without signalling the semaphore, which now
     * belongs to the connection. Every other exit signals it.
     */
    method Run(nox: Nox, io: Io)
      requires WellFormed(Sess()) && !exited && nox.Valid()
      modifies this, nox`conns, nox`connMap, nox`pollables, nox`posted
      ensures nox.Valid()
      ensures var o := Step(old(Sess()), io);
              o.Yield? || o.Block? || o.AwaitAuth? ==>
                Sess() == o.next && !exited && unchanged(nox) &&
                echoed == old(echoed) + (if o.Yield? && o.echo.Some? then [o.echo.value] else []) &&
                reportedError == old(reportedError) && disconnectedUps == old(disconnectedUps) &&
                hasDisconnected == old(hasDisconnected)
      ensures var o := Step(old(Sess()), io);
              o.Exit? ==>
                exited && unchanged(nox) && Sess() == old(Sess()) && echoed == old(echoed) &&
                hasDisconnected == old(hasDisconnected) &&
                reportedError == (if hasErrorp then Some(o.code) else old(reportedError)) &&
                disconnectedUps == old(disconnectedUps) + (if old(hasDisconnected) then 1 else 0)
      ensures var o := Step(old(Sess()), io);
              o.Admit? ==>
                exited && !hasDisconnected && disconnectedUps == old(disconnectedUps) &&
                reportedError == (if hasErrorp then Some(0) else old(reportedError)) &&
                Sess() == old(Sess()).(approved := true, state := REGISTER_SWITCH) && echoed == old(echoed) &&
                nox.conns == Displaced(old(nox.connMap), old(nox.conns), o.dpid) +
                             [ConnRec(o.dpid, false, 0, false, localIp, remoteIp, old(hasDisconnected))] &&
                nox.connMap == old(nox.connMap)[o.dpid := |old(nox.conns)|] &&
                nox.pollables == DisplacedPolls(old(nox.connMap), old(nox.pollables), o.dpid) + {|old(nox.conns)|} &&
                nox.posted == old(nox.posted) +
                  (if o.dpid in old(nox.connMap) then [DatapathLeave(o.dpid)] else []) + [JoinEvent(o.dpid, o.featuresReply)]
    {
      var o := Step(Sess(), io);
      match o {
        case Yield(next, echo) =>
          state, switchApproved, featuresReply := next.state, next.approved, next.featuresReply;
          if echo.Some? {
            echoed := echoed + [echo.value];
          }
        case Block(next) =>
        case AwaitAuth(next) =>
        case Exit(code) =>
          DoExit(code);
        case Admit(dpid, reply) =>
          Register(nox, dpid, reply);
      }
    }

    /** The authorisation hook's answer: records the verdict and moves to registration. */
    method SwitchAuthCb(isApproved: bool)
      requires WellFormed(Sess()) && state == CHECK_SWITCH_AUTH
      modifies this`switchApproved, this`state
      ensures Sess() == AuthDecided(old(Sess()), isApproved) && WellFormed(Sess())
    {
      switchApproved := isApproved;
      state := REGISTER_SWITCH;
    }
  }
}

=== FILE: instructions.dfy ===
/**
 * The instruction-list builder of the OpenFlow library: an `Instruction`
 * object holds a growable array of OpenFlow 1.3 instructions, and each
 * `Create…` call appends one.
 *
 * As with actions, the count `inst_num` is a static member shared by every
 * list; `InstCounter` makes it explicit. The as-written constructor takes
 * the shared count and resets it, `Private` gives the list its own count.
 * An apply- or write-actions instruction records the action list's slots
 * and count at the moment it is created.
 */
module InstructionList {
  import opened OpenFlow
  import opened ActionList

  /** The body of one instruction, by kind. */
  datatype InstrBody =
    | ActionsBody(actions: seq<Option<Action>>, actionsNum: int)
    | GotoTable(tableId: uint8)
    | WriteMetadata(metadata: uint64, mask: uint64)
    | ClearActions
    | Meter(meterId: uint32)

  /** An instruction: its OFPIT_* type and its body. */
  datatype Instr = Instr(instType: int, body: InstrBody)

  /** The metadata mask of the one-argument write-metadata: all 64 bits set. */
  const FULL_METADATA_MASK: uint64 := UINT64_LIMIT - 1

  /** The count of instructions; in the source one count serves every list. */
  class InstCounter {
    var instNum: int

    constructor ()
      ensures instNum == 0
    {
      instNum := 0;
    }
  }

  class Instruction {
    var insts: array<Option<Instr>>
    const counter: InstCounter

    /** The count is not negative and the array has at least one slot. */
    ghost predicate Valid()
      reads this, counter
    {
      counter.instNum >= 0 && insts.Length >= 1
    }

    /**
     * Only this list has moved its count: the array has exactly as many
     * slots as instructions (one while empty) and the filled slots are
     * exactly the counted ones.
     */
    ghost predicate Owned()
      reads this, counter, insts
    {
      Valid()
      && insts.Length == (if counter.instNum == 0 then 1 else counter.instNum)
      && forall i :: 0 <= i < insts.Length ==> (insts[i].Some? <==> i < counter.instNum)
    }

    /** The instructions of an owned list, in the order they were created. */
    ghost function Contents(): seq<Option<Instr>>
      reads this, counter, insts
      requires Owned()
    {
      insts[..counter.instNum]
    }

    /**
     * The state after one append of `ins` to a list whose array held
     * `before` and whose count was `n`: the count moved on by one, the
     * array was resized to the new count, its last slot holds `ins` and
     * the slots before it kept their values.
     */
    ghost predicate Appended(before: seq<Option<Instr>>, n: int, ins: Instr)
      reads this, counter, insts
    {
      Valid() && n >= 0 && counter.instNum == n + 1 && insts.Length == n + 1
      && forall i :: 0 <= i < insts.Length ==>
           insts[i] == (if i == n then Some(ins) else if i < |before| then before[i] else None)
    }

    /** As written: a new list takes the shared count and resets it to 0. */
    constructor (shared: InstCounter)
      modifies shared
      ensures counter == shared && shared.instNum == 0
      ensures fresh(insts) && insts.Length == 1
      ensures Owned() && Contents() == []
    {
      counter := shared;
      insts := new Option<Instr>[1](_ => None);
      new;
      shared.instNum := 0;
    }

    /** A list with a count of its own. */
    constructor Private()
      ensures fresh(counter) && fresh(insts) && insts.Length == 1
      ensures Owned() && Contents() == []
    {
      counter := new InstCounter();
      insts := new Option<Instr>[1](_ => None);
    }

    /**
     * The step every constructor of an instruction shares: move the count
     * on, resize the array to the new count and store `ins` in its last
     * slot.
     */
    method Append(ins: Instr)
      requires Valid()
      modifies this, counter
      ensures Appended(old(insts[..]), old(counter.instNum), ins) && fresh(insts)
      ensures old(Owned()) ==> Owned() && Contents() == old(Contents()) + [Some(ins)]
    {
      counter.instNum := counter.instNum + 1;
      var n := counter.instNum;
      insts := Realloc(insts, n);
      insts[n - 1] := Some(ins);
      if old(Owned()) {
        assert insts[..n] == old(insts[..n - 1]) + [Some(ins)];
      }
    }

    /**
     * Appends an apply-actions instruction holding the slots and the count
     * that `actions` has now.
     */
    method CreateApply(actions: Actions)
      requires Valid()
      modifies this, counter
      ensures Appended(old(insts[..]), old(counter.instNum),
                       Instr(OFPIT_APPLY_ACTIONS, ActionsBody(actions.acts[..], actions.counter.actNum)))
      ensures fresh(insts)
      ensures old(Owned()) ==>
        Owned() && Contents() == old(Contents()) + [Some(Instr(OFPIT_APPLY_ACTIONS, ActionsBody(actions.acts[..], actions.counter.actNum)))]
    {
      var body := AddActions(actions);
      Append(Instr(OFPIT_APPLY_ACTIONS, body));
    }

    /** Appends a goto-table instruction. */
    method CreateGoToTable(tableId: uint8)
      requires Valid()
      modifies this, counter
      ensures Appended(old(insts[..]), old(counter.instNum), Instr(OFPIT_GOTO_TABLE, GotoTable(tableId)))
      ensures fresh(insts)
      ensures old(Owned()) ==> Owned() && Contents() == old(Contents()) + [Some(Instr(OFPIT_GOTO_TABLE, GotoTable(tableId)))]
    {
      Append(Instr(OFPIT_GOTO_TABLE, GotoTable(tableId)));
    }

    /**
     * Appends a write-actions instruction holding the slots and the count
     * that `actions` has now.
     */
    method CreateWrite(actions: Actions)
      requires Valid()
      modifies this, counter
      ensures Appended(old(insts[..]), old(counter.instNum),
                       Instr(OFPIT_WRITE_ACTIONS, ActionsBody(actions.acts[..], actions.counter.actNum)))
      ensures fresh(insts)
      ensures old(Owned()) ==>
        Owned() && Contents() == old(Contents()) + [Some(Instr(OFPIT_WRITE_ACTIONS, ActionsBody(actions.acts[..], actions.counter.actNum)))]
    {
      var body := AddActions(actions);
      Append(Instr(OFPIT_WRITE_ACTIONS, body));
    }

    /** Appends a write-metadata instruction whose mask has every bit set. */
    method CreateWriteMetadata(metadata: uint64)
      requires Valid()
      modifies this, counter
      ensures Appended(old(insts[..]), old(counter.instNum),
                       Instr(OFPIT_WRITE_METADATA, WriteMetadata(metadata, FULL_METADATA_MASK)))
      ensures fresh(insts)
      ensures old(Owned()) ==>
        Owned() && Contents() == old(Contents()) + [Some(Instr(OFPIT_WRITE_METADATA, WriteMetadata(metadata, FULL_METADATA_MASK)))]
    {
      Append(Instr(OFPIT_WRITE_METADATA, WriteMetadata(metadata, FULL_METADATA_MASK)));
    }

    /** Appends a write-metadata instruction with the given mask. */
    method CreateWriteMetadataMasked(metadata: uint64, mask: uint64)
      requires Valid()
      modifies this, counter
      ensures Appended(old(insts[..]), old(counter.instNum), Instr(OFPIT_WRITE_METADATA, WriteMetadata(metadata, mask)))
      ensures fresh(insts)
      ensures old(Owned()) ==>
        Owned() && Contents() == old(Contents()) + [Some(Instr(OFPIT_WRITE_METADATA, WriteMetadata(metadata, mask)))]
    {
      Append(Instr(OFPIT_WRITE_METADATA, WriteMetadata(metadata, mask)));
    }

    /** Appends a clear-actions instruction. */
    method CreateClearActions()
      requires Valid()
      modifies this, counter
      ensures Appended(old(insts[..]), old(counter.instNum), Instr(OFPIT_CLEAR_ACTIONS, ClearActions))
      ensures fresh(insts)
      ensures old(Owned()) ==> Owned() && Contents() == old(Contents()) + [Some(Instr(OFPIT_CLEAR_ACTIONS, ClearActions))]
    {
      Append(Instr(OFPIT_CLEAR_ACTIONS, ClearActions));
    }

    /** Appends a meter instruction. */
    method CreateMeterInstruction(meterId: uint32)
      requires Valid()
      modifies this, counter
      ensures Appended(old(insts[..]), old(counter.instNum), Instr(OFPIT_METER, Meter(meterId)))
      ensures fresh(insts)
      ensures old(Owned()) ==> Owned() && Contents() == old(Contents()) + [Some(Instr(OFPIT_METER, Meter(meterId)))]
    {
      Append(Instr(OFPIT_METER, Meter(meterId)));
    }

    /** The actions body an apply- or write-actions instruction takes from `actions`. */
    method AddActions(actions: Actions) returns (body: InstrBody)
      ensures body == ActionsBody(actions.acts[..], actions.counter.actNum)
      ensures body.actionsNum == actions.counter.actNum
    {
      body := ActionsBody(actions.acts[..], actions.counter.actNum);
    }

    /**
     * The destructor, corrected to an owned list: it releases the
     * instructions in slots 0 up to the count, in order, and every one of
     * them is present.
     */
    method Destroy() returns (freed: seq<Instr>)
      requires Owned()
      ensures |freed| == counter.instNum
      ensures forall i :: 0 <= i < |freed| ==> Some(freed[i]) == Contents()[i]
    {
      freed := [];
      var i := 0;
      while i < counter.instNum
        invariant 0 <= i <= counter.instNum
        invariant |freed| == i
        invariant forall k :: 0 <= k < i ==> Some(freed[k]) == insts[k]
      {
        freed := freed + [insts[i].value];
        i := i + 1;
      }
    }

    /**
     * The destructor as written: it walks slots 0 up to the shared count,
     * whatever the size of this list's array. Reports whether every slot
     * it reads lies inside the array.
     */
    method DestroyAsWritten() returns (inBounds: bool)
      requires Valid()
      ensures inBounds <==> counter.instNum <= insts.Length
    {
      inBounds := true;
      var i := 0;
      while i < counter.instNum
        invariant 0 <= i <= counter.instNum
        invariant inBounds <==> i <= insts.Length
      {
        if i >= insts.Length {
          inBounds := false;
        }
        i := i + 1;
      }
    }
  }

  /**
   * Two lists on the shared count: a list with one instruction is
   * followed by a second list that gets two, so the count is 2 while the
   * first list's array has one slot, and the first list's destructor reads
   * past its end.
   */
  method SharedCountOverruns() returns (count: int, slots: nat, inBounds: bool)
    ensures count == 2 && slots == 1 && !inBounds
  {
    var shared := new InstCounter();
    var a := new Instruction(shared);
    a.CreateClearActions();
    var b := new Instruction(shared);
    b.CreateGoToTable(1);
    b.CreateMeterInstruction(7);
    count := shared.instNum;
    slots := a.insts.Length;
    inBounds := a.DestroyAsWritten();
  }

  /**
   * With counts of their own, the same calls leave the first list's
   * destructor inside its array and releasing its one instruction.
   */
  method PrivateCountStaysInside() returns (freed: seq<Instr>, inBounds: bool)
    ensures freed == [Instr(OFPIT_CLEAR_ACTIONS, ClearActions)] && inBounds
  {
    var a := new Instruction.Private();
    a.CreateClearActions();
    var b := new Instruction.Private();
    b.CreateGoToTable(1);
    b.CreateMeterInstruction(7);
    inBounds := a.DestroyAsWritten();
    freed := a.Destroy();
  }
}

=== FILE: lldp.dfy ===
/**
 * Discovery's value types and its LLDP frame codec: the switch port and
 * link keys with their equality and ordering, and the 36-byte frame that
 * announces a port (an Ethernet header with ethertype 0x88cc, then the
 * Chassis ID, Port ID, TTL and End TLVs of section 8.5 of IEEE 802.1AB).
 *
 * The port id and TTL are copied in host byte order, not network order as
 * IEEE 802.1AB requires; host order is taken to be little-endian.
 */
module Lldp {
  import opened OpenFlow

  const LLDP_TTL: uint16 := 120
  const LLDP_TYPE: uint16 := 0x88cc
  const LLDP_FRAME_LEN: nat := 36
  /** The destination address every frame is sent to. */
  const LLDP_DST: seq<uint8> := [0x01, 0x13, 0x10, 0x00, 0x00, 0x01]

  /** A switch port: datapath and port number. */
  datatype Port = Port(dpid: DpId, port: uint32)

  /** A unidirectional link from a source port to a destination port. */
  datatype Link = Link(sport: Port, dport: Port)

  // Port comparison operators.

  predicate PortEq(a: Port, b: Port) {
    a.dpid == b.dpid && a.port == b.port
  }

  predicate PortNe(a: Port, b: Port) {
    a.dpid != b.dpid || a.port != b.port
  }

  /** Lexicographic on (dpid, port). */
  predicate PortLess(a: Port, b: Port) {
    if a.dpid == b.dpid then a.port < b.port else a.dpid < b.dpid
  }

  /** Port equality is identity, inequality is its negation, and the order is a strict total order agreeing with it. */
  lemma PortOrder(a: Port, b: Port, c: Port)
    ensures PortEq(a, b) <==> a == b
    ensures PortNe(a, b) <==> !PortEq(a, b)
    ensures !PortLess(a, a)
    ensures PortLess(a, b) && PortLess(b, c) ==> PortLess(a, c)
    ensures PortLess(a, b) ==> !PortLess(b, a)
    ensures PortEq(a, b) <==> !PortLess(a, b) && !PortLess(b, a)
  {
  }

  // Link comparison operators.

  predicate LinkEq(a: Link, b: Link) {
    PortEq(a.sport, b.sport) && PortEq(a.dport, b.dport)
  }

  predicate LinkNe(a: Link, b: Link) {
    PortNe(a.sport, b.sport) || PortNe(a.dport, b.dport)
  }

  /** Lexicographic on (sport, dport) under the port order. */
  predicate LinkLess(a: Link, b: Link) {
    if PortEq(a.sport, b.sport) then PortLess(a.dport, b.dport) else PortLess(a.sport, b.sport)
  }

  /** The same facts for links, built on those for ports. */
  lemma LinkOrder(a: Link, b: Link, c: Link)
    ensures LinkEq(a, b) <==> a == b
    ensures LinkNe(a, b) <==> !LinkEq(a, b)
    ensures !LinkLess(a, a)
    ensures LinkLess(a, b) && LinkLess(b, c) ==> LinkLess(a, c)
    ensures LinkLess(a, b) ==> !LinkLess(b, a)
    ensures LinkEq(a, b) <==> !LinkLess(a, b) && !LinkLess(b, a)
  {
    PortOrder(a.sport, b.sport, c.sport);
    PortOrder(a.dport, b.dport, c.dport);
    PortOrder(a.sport, a.sport, a.sport);
    PortOrder(a.dport, a.dport, a.dport);
    PortOrder(b.sport, a.sport, c.sport);
    PortOrder(b.dport, a.dport, c.dport);
    PortOrder(a.sport, c.sport, b.sport);
    PortOrder(a.dport, c.dport, b.dport);
  }

  // Byte encodings.

  function Pow256(n: nat): (p: nat)
    ensures p > 0
  {
    if n == 0 then 1 else 256 * Pow256(n - 1)
  }

  /** The low `n` bytes of `x`, most significant first. */
  function BigEndian(x: nat, n: nat): (bs: seq<uint8>)
    ensures |bs| == n
  {
    if n == 0 then [] else BigEndian(x / 256, n - 1) + [x % 256]
  }

  function ReadBigEndian(bs: seq<uint8>): nat
    decreases |bs|
  {
    if bs == [] then 0 else 256 * ReadBigEndian(bs[..|bs| - 1]) + bs[|bs| - 1]
  }

  /** The low `n` bytes of `x`, least significant first. */
  function LittleEndian(x: nat, n: nat): (bs: seq<uint8>)
    ensures |bs| == n
  {
    if n == 0 then [] else [x % 256] + LittleEndian(x / 256, n - 1)
  }

  function ReadLittleEndian(bs: seq<uint8>): nat
    decreases |bs|
  {
    if bs == [] then 0 else bs[0] + 256 * ReadLittleEndian(bs[1..])
  }

  /** Splitting off the low byte: x mod 256^(n+1) is its low byte plus 256 times (x / 256) mod 256^n. */
  lemma ModPowStep(x: nat, n: nat)
    ensures x % Pow256(n + 1) == x % 256 + 256 * ((x / 256) % Pow256(n))
  {
    var p := Pow256(n);
    var q := x / 256;
    var r := x % 256;
    var k := q / p;
    var m := q % p;
    assert q == p * k + m;
    assert 256 * q == 256 * (p * k) + 256 * m;
    assert 256 * (p * k) == (256 * p) * k;
    assert x == (256 * p) * k + (256 * m + r);
    DivModUnique(x, 256 * p, k, 256 * m + r);
  }

  lemma MulStep(d: nat, a: int, b: int)
    requires a < b
    ensures d * a + d <= d * b
  {
    var k: nat := b - a - 1;
    assert b == a + 1 + k;
    assert d * b == d * a + d + d * k;
    assert d * k >= 0;
  }

  /** Euclidean division is determined by its defining equation. */
  lemma DivModUnique(x: int, d: int, q: int, r: int)
    requires d > 0 && 0 <= r < d && x == d * q + r
    ensures x / d == q && x % d == r
  {
    var q0 := x / d;
    var r0 := x % d;
    assert x == d * q0 + r0;
    if q0 < q {
      MulStep(d, q0, q);
      assert false;
    } else if q < q0 {
      MulStep(d, q, q0);
      assert false;
    }
  }

  /** Reading the big-endian encoding back gives the value modulo 256^n. */
  lemma {:induction false} BigEndianRoundTrip(x: nat, n: nat)
    ensures ReadBigEndian(BigEndian(x, n)) == x % Pow256(n)
    decreases n
  {
    if n > 0 {
      var bs := BigEndian(x, n);
      var init := BigEndian(x / 256, n - 1);
      assert bs[..n - 1] == init;
      assert bs[n - 1] == x % 256;
      var rest := ReadBigEndian(init);
      assert ReadBigEndian(bs) == 256 * rest + x % 256;
      BigEndianRoundTrip(x / 256, n - 1);
      assert rest == (x / 256) % Pow256(n - 1);
      ModPowStep(x, n - 1);
    }
  }

  /** Reading the little-endian encoding back gives the value modulo 256^n. */
  lemma {:induction false} LittleEndianRoundTrip(x: nat, n: nat)
    ensures ReadLittleEndian(LittleEndian(x, n)) == x % Pow256(n)
    decreases n
  {
    if n > 0 {
      var bs := LittleEndian(x, n);
      var tail := LittleEndian(x / 256, n - 1);
      assert bs[1..] == tail;
      assert bs[0] == x % 256;
      var rest := ReadLittleEndian(tail);
      assert ReadLittleEndian(bs) == x % 256 + 256 * rest;
      LittleEndianRoundTrip(x / 256, n - 1);
      assert rest == (x / 256) % Pow256(n - 1);
      ModPowStep(x, n - 1);
    }
  }

  /** Dropping the top `k` bytes of a big-endian encoding keeps the low bytes. */
  lemma {:induction false} BigEndianSuffix(x: nat, n: nat, k: nat)
    ensures BigEndian(x, n + k)[k..] == BigEndian(x, n)
    decreases n
  {
    if n > 0 {
      BigEndianSuffix(x / 256, n - 1, k);
      var front := BigEndian(x / 256, n - 1 + k);
      assert BigEndian(x, n + k) == front + [x % 256];
      assert (front + [x % 256])[k..] == front[k..] + [x % 256];
    }
  }

  /** Integers below 256^n fit their n-byte encodings. */
  lemma PowValues()
    ensures Pow256(2) == UINT16_LIMIT && Pow256(4) == UINT32_LIMIT
    ensures Pow256(6) == UINT48_LIMIT && Pow256(8) == UINT64_LIMIT
  {
    assert Pow256(2) == 0x1_0000;
    assert Pow256(4) == 0x1_0000_0000;
    assert Pow256(6) == 0x1_0000_0000_0000;
  }

  /**
   * The frame announcing `p`: the source address is the datapath id's
   * network bytes 2..7 with the first one cleared, the chassis id is those
   * six bytes, the port id and TTL are in host order.
   */
  function CreateLldp(p: Port, ttl: uint16): (f: seq<uint8>)
    ensures |f| == LLDP_FRAME_LEN
  {
    var net := BigEndian(p.dpid, 8);
    LLDP_DST + [0x00] + net[3..8] + BigEndian(LLDP_TYPE, 2)
    + [0x02, 0x07, 0x04] + net[2..8]
    + [0x04, 0x05, 0x02] + LittleEndian(p.port, 4)
    + [0x06, 0x02] + LittleEndian(ttl, 2)
    + [0x00, 0x00]
  }

  /**
   * Reads a frame back: fails when it is shorter than 36 bytes or when the
   * ethertype, the chassis TLV header or subtype, or the port TLV header or
   * subtype is wrong. The TTL and End TLVs are not inspected; the chassis
   * id is read as a 48-bit datapath id.
   */
  function ParseLldp(buf: seq<uint8>): (r: Option<Port>)
    ensures r.Some? ==> |buf| >= LLDP_FRAME_LEN && r.value.dpid < UINT48_LIMIT
  {
    if |buf| < LLDP_FRAME_LEN then None
    else if buf[12..14] != BigEndian(LLDP_TYPE, 2) then None
    else if buf[14..16] != [0x02, 0x07] then None
    else if buf[16] != 0x04 then None
    else if buf[23..25] != [0x04, 0x05] then None
    else if buf[25] != 0x02 then None
    else
      PowValues();
      LittleEndianBound(buf[26..30]);
      ReadBigEndianBound(buf[17..23]);
      Some(Port(ReadBigEndian(buf[17..23]), ReadLittleEndian(buf[26..30])))
  }

  lemma {:induction false} LittleEndianBound(bs: seq<uint8>)
    ensures ReadLittleEndian(bs) < Pow256(|bs|)
    decreases |bs|
  {
    if bs != [] {
      LittleEndianBound(bs[1..]);
    }
  }

  lemma {:induction false} ReadBigEndianBound(bs: seq<uint8>)
    ensures ReadBigEndian(bs) < Pow256(|bs|)
    decreases |bs|
  {
    if bs != [] {
      ReadBigEndianBound(bs[..|bs| - 1]);
    }
  }

  /** The frame is 36 bytes with its fixed fields at their offsets. */
  lemma CreateLldpLayout(p: Port, ttl: uint16)
    ensures var f := CreateLldp(p, ttl);
            |f| == 36 && f[..6] == LLDP_DST && f[6] == 0x00 &&
            f[12..14] == [0x88, 0xcc] &&
            f[14..17] == [0x02, 0x07, 0x04] &&
            f[23..26] == [0x04, 0x05, 0x02] &&
            f[30..32] == [0x06, 0x02] &&
            f[34..36] == [0x00, 0x00]
  {
    var f := CreateLldp(p, ttl);
    assert BigEndian(LLDP_TYPE, 2) == [0x88, 0xcc];
  }

  /**
   * Parsing a created frame succeeds and yields the port, except that a
   * datapath id wider than 48 bits loses its top 16 bits.
   */
  lemma ParseCreate(p: Port, ttl: uint16)
    ensures ParseLldp(CreateLldp(p, ttl)) == Some(Port(p.dpid % UINT48_LIMIT, p.port))
  {
    var f := CreateLldp(p, ttl);
    CreateLldpLayout(p, ttl);
    ParseAccepts(f);
    CreateLldpFields(p, ttl);
  }

  /** The chassis id of a frame reads back as the datapath id's low 48 bits, the port id as the port. */
  lemma CreateLldpFields(p: Port, ttl: uint16)
    ensures |CreateLldp(p, ttl)| == 36
    ensures ReadBigEndian(CreateLldp(p, ttl)[17..23]) == p.dpid % UINT48_LIMIT
    ensures ReadLittleEndian(CreateLldp(p, ttl)[26..30]) == p.port
  {
    var f := CreateLldp(p, ttl);
    var net := BigEndian(p.dpid, 8);
    CreateLldpLayout(p, ttl);
    assert f[17..23] == net[2..8];
    assert f[26..30] == LittleEndian(p.port, 4);
    ChassisIdReads(p.dpid);
    LittleEndianRoundTrip(p.port, 4);
    PowValues();
  }

  /** Bytes 2..7 of a datapath id's network bytes read back as its low 48 bits. */
  lemma ChassisIdReads(dpid: uint64)
    ensures ReadBigEndian(BigEndian(dpid, 8)[2..8]) == dpid % UINT48_LIMIT
  {
    var net := BigEndian(dpid, 8);
    BigEndianSuffix(dpid, 6, 2);
    assert net[2..8] == net[2..] == BigEndian(dpid, 6);
    BigEndianRoundTrip(dpid, 6);
    PowValues();
  }

  /** For every datapath id that fits in 48 bits the round trip is exact. */
  lemma ParseCreateExact(p: Port, ttl: uint16)
    requires p.dpid < UINT48_LIMIT
    ensures ParseLldp(CreateLldp(p, ttl)) == Some(p)
  {
    assert Port(p.dpid % UINT48_LIMIT, p.port) == p;
    ParseCreate(p, ttl);
  }

  /** Frames of different ports (with 48-bit datapath ids) differ. */
  lemma CreateLldpInjective(p: Port, q: Port, ttl: uint16)
    requires p.dpid < UINT48_LIMIT && q.dpid < UINT48_LIMIT && p != q
    ensures CreateLldp(p, ttl) != CreateLldp(q, ttl)
  {
    ParseCreateExact(p, ttl);
    ParseCreateExact(q, ttl);
  }

  /**
   * A buffer is not a frame when it is shorter than a frame, has another
   * ethertype, or a wrong chassis or port TLV header or subtype.
   */
  lemma ParseRejects(buf: seq<uint8>)
    ensures |buf| < 36 ==> ParseLldp(buf) == None
    ensures |buf| >= 36 && (buf[12] != 0x88 || buf[13] != 0xcc) ==> ParseLldp(buf) == None
    ensures |buf| >= 36 && (buf[14] != 0x02 || buf[15] != 0x07 || buf[16] != 0x04) ==> ParseLldp(buf) == None
    ensures |buf| >= 36 && (buf[23] != 0x04 || buf[24] != 0x05 || buf[25] != 0x02) ==> ParseLldp(buf) == None
  {
    assert BigEndian(LLDP_TYPE, 2) == [0x88, 0xcc];
    if |buf| >= 36 {
      assert buf[14..16] == [buf[14], buf[15]] && buf[23..25] == [buf[23], buf[24]];
    }
  }

  /**
   * Every buffer that passes those checks is a frame: its port is the
   * 48-bit chassis id and the host-order port id, whatever the TTL and End
   * bytes hold.
   */
  lemma ParseAccepts(buf: seq<uint8>)
    requires |buf| >= 36 && buf[12..14] == [0x88, 0xcc]
    requires buf[14..17] == [0x02, 0x07, 0x04] && buf[23..26] == [0x04, 0x05, 0x02]
    ensures ParseLldp(buf).Some?
    ensures ParseLldp(buf).value.dpid == ReadBigEndian(buf[17..23])
    ensures ParseLldp(buf).value.port == ReadLittleEndian(buf[26..30])
  {
    assert BigEndian(LLDP_TYPE, 2) == [0x88, 0xcc];
    assert buf[14..16] == buf[14..17][..2] && buf[16] == buf[14..17][2];
    assert buf[23..25] == buf[23..26][..2] && buf[25] == buf[23..26][2];
  }
}

=== FILE: msg_event.dfy ===
/**
 * Naming of protocol-message events: every decoded message becomes an event
 * whose channel name is derived from its ofp_type code, or, for a multipart
 * reply, from its multipart subtype. Codes without a name map to "".
 */
module MsgEvent {
  import opened OpenFlow

  const DATAPATH_JOIN_EVENT: string := "Datapath_join_event"
  const DATAPATH_LEAVE_EVENT: string := "Datapath_leave_event"
  const SHUTDOWN_EVENT: string := "Shutdown_event"
  const BOOTSTRAP_COMPLETE_EVENT: string := "Bootstrap_complete_event"

  /**
   * The events the core produces. A datapath join is an Ofp_msg_event named
   * "Datapath_join_event" carrying the features reply.
   */
  datatype Event =
    | OfpMsgEvent(name: string, dpid: DpId, xid: uint32, msg: Msg)
    | DatapathLeave(leftDpid: DpId)
    | Shutdown
    | BootstrapComplete

  /** What a handler tells the dispatcher: let later handlers run, or stop. */
  datatype Disposition = CONTINUE | STOP

  /** The message types that have a channel of their own. */
  const NAMED_TYPES: set<int> := {
    OFPT_HELLO, OFPT_ERROR, OFPT_ECHO_REQUEST, OFPT_ECHO_REPLY, OFPT_EXPERIMENTER,
    OFPT_FEATURES_REPLY, OFPT_GET_CONFIG_REPLY, OFPT_FLOW_MOD, OFPT_FLOW_REMOVED,
    OFPT_PORT_STATUS, OFPT_PACKET_IN, OFPT_BARRIER_REPLY, OFPT_QUEUE_GET_CONFIG_REPLY,
    OFPT_ROLE_REPLY, OFPT_GET_ASYNC_REPLY }

  /** The multipart subtypes that have a channel of their own. */
  const NAMED_STATS: set<int> := {
    OFPMP_DESC, OFPMP_FLOW, OFPMP_AGGREGATE, OFPMP_TABLE, OFPMP_PORT_STATS,
    OFPMP_QUEUE, OFPMP_GROUP, OFPMP_GROUP_DESC, OFPMP_GROUP_FEATURES, OFPMP_METER,
    OFPMP_METER_CONFIG, OFPMP_METER_FEATURES, OFPMP_TABLE_FEATURES, OFPMP_PORT_DESC,
    OFPMP_EXPERIMENTER }

  /** Ofp_msg_event::get_name: the channel of a message type. */
  function GetName(t: int): (name: string)
    ensures name != "" <==> t in NAMED_TYPES
  {
    if t == OFPT_HELLO then "Hello_event"
    else if t == OFPT_ERROR then "Error_event"
    else if t == OFPT_ECHO_REQUEST then "Echo_request_event"
    else if t == OFPT_ECHO_REPLY then "Echo_reply_event"
    else if t == OFPT_EXPERIMENTER then "Experimenter_event"
    else if t == OFPT_FEATURES_REPLY then "Features_reply_event"
    else if t == OFPT_GET_CONFIG_REPLY then "Get_config_reply_event"
    else if t == OFPT_FLOW_MOD then "Flow_mod_event"
    else if t == OFPT_FLOW_REMOVED then "Flow_removed_event"
    else if t == OFPT_PORT_STATUS then "Port_status_event"
    else if t == OFPT_PACKET_IN then "Packet_in_event"
    else if t == OFPT_BARRIER_REPLY then "Barrier_reply_event"
    else if t == OFPT_QUEUE_GET_CONFIG_REPLY then "Queue_get_config_reply_event"
    else if t == OFPT_ROLE_REPLY then "Role_reply_event"
    else if t == OFPT_GET_ASYNC_REPLY then "Async_reply_event"
    else ""
  }

  /** Ofp_msg_event::get_stats_name: the channel of a multipart reply subtype. */
  function GetStatsName(m: int): (name: string)
    ensures name != "" <==> m in NAMED_STATS
  {
    if m == OFPMP_DESC then "Desc_stats_in_event"
    else if m == OFPMP_FLOW then "Flow_stats_in_event"
    else if m == OFPMP_AGGREGATE then "Aggregate_stats_in_event"
    else if m == OFPMP_TABLE then "Table_stats_in_event"
    else if m == OFPMP_PORT_STATS then "Port_stats_in_event"
    else if m == OFPMP_QUEUE then "Queue_stats_in_event"
    else if m == OFPMP_GROUP then "Group_stats_in_event"
    else if m == OFPMP_GROUP_DESC then "Group_desc_stats_in_event"
    else if m == OFPMP_GROUP_FEATURES then "Group_features_in_event"
    else if m == OFPMP_METER then "Meter_stats_in_event"
    else if m == OFPMP_METER_CONFIG then "Meter_configuration_in_event"
    else if m == OFPMP_METER_FEATURES then "Meter_features_in_event"
    else if m == OFPMP_TABLE_FEATURES then "Table_features_in_event"
    else if m == OFPMP_PORT_DESC then "Port_desc_in_event"
    else if m == OFPMP_EXPERIMENTER then "Experimenter_stats_in_event"
    else ""
  }

  /** Where a channel name comes from: a message type or a multipart subtype. */
  datatype Channel = MsgChannel(msgType: int) | StatsChannel(statsType: int)

  /**
   * Reference inverse of the two naming functions: reads a channel name back
   * to the code it was derived from.
   */
  function ChannelOf(name: string): Option<Channel> {
    if |name| == 11 then
      if name == "Hello_event" then Some(MsgChannel(OFPT_HELLO))
      else if name == "Error_event" then Some(MsgChannel(OFPT_ERROR))
      else None
    else if |name| == 14 then
      if name == "Flow_mod_event" then Some(MsgChannel(OFPT_FLOW_MOD))
      else None
    else if |name| == 15 then
      if name == "Packet_in_event" then Some(MsgChannel(OFPT_PACKET_IN))
      else None
    else if |name| == 16 then
      if name == "Echo_reply_event" then Some(MsgChannel(OFPT_ECHO_REPLY))
      else if name == "Role_reply_event" then Some(MsgChannel(OFPT_ROLE_REPLY))
      else None
    else if |name| == 17 then
      if name == "Port_status_event" then Some(MsgChannel(OFPT_PORT_STATUS))
      else if name == "Async_reply_event" then Some(MsgChannel(OFPT_GET_ASYNC_REPLY))
      else None
    else if |name| == 18 then
      if name == "Echo_request_event" then Some(MsgChannel(OFPT_ECHO_REQUEST))
      else if name == "Experimenter_event" then Some(MsgChannel(OFPT_EXPERIMENTER))
      else if name == "Flow_removed_event" then Some(MsgChannel(OFPT_FLOW_REMOVED))
      else if name == "Port_desc_in_event" then Some(StatsChannel(OFPMP_PORT_DESC))
      else None
    else if |name| == 19 then
      if name == "Barrier_reply_event" then Some(MsgChannel(OFPT_BARRIER_REPLY))
      else if name == "Desc_stats_in_event" then Some(StatsChannel(OFPMP_DESC))
      else if name == "Flow_stats_in_event" then Some(StatsChannel(OFPMP_FLOW))
      else if name == "Port_stats_in_event" then Some(StatsChannel(OFPMP_PORT_STATS))
      else None
    else if |name| == 20 then
      if name == "Features_reply_event" then Some(MsgChannel(OFPT_FEATURES_REPLY))
      else if name == "Table_stats_in_event" then Some(StatsChannel(OFPMP_TABLE))
      else if name == "Queue_stats_in_event" then Some(StatsChannel(OFPMP_QUEUE))
      else if name == "Group_stats_in_event" then Some(StatsChannel(OFPMP_GROUP))
      else if name == "Meter_stats_in_event" then Some(StatsChannel(OFPMP_METER))
      else None
    else if |name| == 22 then
      if name == "Get_config_reply_event" then Some(MsgChannel(OFPT_GET_CONFIG_REPLY))
      else None
    else if |name| == 23 then
      if name == "Group_features_in_event" then Some(StatsChannel(OFPMP_GROUP_FEATURES))
      else if name == "Meter_features_in_event" then Some(StatsChannel(OFPMP_METER_FEATURES))
      else if name == "Table_features_in_event" then Some(StatsChannel(OFPMP_TABLE_FEATURES))
      else None
    else if |name| == 24 then
      if name == "Aggregate_stats_in_event" then Some(StatsChannel(OFPMP_AGGREGATE))
      else None
    else if |name| == 25 then
      if name == "Group_desc_stats_in_event" then Some(StatsChannel(OFPMP_GROUP_DESC))
      else None
    else if |name| == 27 then
      if name == "Experimenter_stats_in_event" then Some(StatsChannel(OFPMP_EXPERIMENTER))
      else None
    else if |name| == 28 then
      if name == "Queue_get_config_reply_event" then Some(MsgChannel(OFPT_QUEUE_GET_CONFIG_REPLY))
      else if name == "Meter_configuration_in_event" then Some(StatsChannel(OFPMP_METER_CONFIG))
      else None
    else None
  }

  /** Every non-empty message-type name reads back to its type. */
  lemma GetNameInverse(t: int)
    requires t in NAMED_TYPES
    ensures ChannelOf(GetName(t)) == Some(MsgChannel(t))
  {
    if t in {OFPT_HELLO, OFPT_ERROR, OFPT_ECHO_REQUEST, OFPT_ECHO_REPLY, OFPT_EXPERIMENTER, OFPT_FEATURES_REPLY, OFPT_GET_CONFIG_REPLY, OFPT_FLOW_MOD} {
      GetNameInverseLow(t);
    } else {
      GetNameInverseHigh(t);
    }
  }

  lemma GetNameInverseLow(t: int)
    requires t in {OFPT_HELLO, OFPT_ERROR, OFPT_ECHO_REQUEST, OFPT_ECHO_REPLY, OFPT_EXPERIMENTER, OFPT_FEATURES_REPLY, OFPT_GET_CONFIG_REPLY, OFPT_FLOW_MOD}
    ensures ChannelOf(GetName(t)) == Some(MsgChannel(t))
  {
    if t == OFPT_HELLO {
    } else if t == OFPT_ERROR {
    } else if t == OFPT_ECHO_REQUEST {
    } else if t == OFPT_ECHO_REPLY {
    } else if t == OFPT_EXPERIMENTER {
    } else if t == OFPT_FEATURES_REPLY {
    } else if t == OFPT_GET_CONFIG_REPLY {
    } else if t == OFPT_FLOW_MOD {
    }
  }

  lemma GetNameInverseHigh(t: int)
    requires t in {OFPT_FLOW_REMOVED, OFPT_PORT_STATUS, OFPT_PACKET_IN, OFPT_BARRIER_REPLY, OFPT_QUEUE_GET_CONFIG_REPLY, OFPT_ROLE_REPLY, OFPT_GET_ASYNC_REPLY}
    ensures ChannelOf(GetName(t)) == Some(MsgChannel(t))
  {
    if t == OFPT_FLOW_REMOVED {
    } else if t == OFPT_PORT_STATUS {
    } else if t == OFPT_PACKET_IN {
    } else if t == OFPT_BARRIER_REPLY {
    } else if t == OFPT_QUEUE_GET_CONFIG_REPLY {
    } else if t == OFPT_ROLE_REPLY {
    } else if t == OFPT_GET_ASYNC_REPLY {
    }
  }

  /** Every non-empty multipart name reads back to its subtype. */
  lemma GetStatsNameInverse(m: int)
    requires m in NAMED_STATS
    ensures ChannelOf(GetStatsName(m)) == Some(StatsChannel(m))
  {
    if m in {OFPMP_DESC, OFPMP_FLOW, OFPMP_AGGREGATE, OFPMP_TABLE} {
      GetStatsNameInverseLow(m);
    } else if m in {OFPMP_PORT_STATS, OFPMP_QUEUE, OFPMP_GROUP, OFPMP_GROUP_DESC} {
      GetStatsNameInverseLowMid(m);
    } else if m in {OFPMP_GROUP_FEATURES, OFPMP_METER, OFPMP_METER_CONFIG, OFPMP_METER_FEATURES} {
      GetStatsNameInverseMid(m);
    } else {
      GetStatsNameInverseHigh(m);
    }
  }

  lemma GetStatsNameInverseLow(m: int)
    requires m in {OFPMP_DESC, OFPMP_FLOW, OFPMP_AGGREGATE, OFPMP_TABLE}
    ensures ChannelOf(GetStatsName(m)) == Some(StatsChannel(m))
  {
    if m == OFPMP_DESC {
    } else if m == OFPMP_FLOW {
    } else if m == OFPMP_AGGREGATE {
    } else if m == OFPMP_TABLE {
    }
  }

  lemma GetStatsNameInverseLowMid(m: int)
    requires m in {OFPMP_PORT_STATS, OFPMP_QUEUE, OFPMP_GROUP, OFPMP_GROUP_DESC}
    ensures ChannelOf(GetStatsName(m)) == Some(StatsChannel(m))
  {
    if m == OFPMP_PORT_STATS {
    } else if m == OFPMP_QUEUE {
    } else if m == OFPMP_GROUP {
    } else if m == OFPMP_GROUP_DESC {
    }
  }

  lemma GetStatsNameInverseMid(m: int)
    requires m in {OFPMP_GROUP_FEATURES, OFPMP_METER, OFPMP_METER_CONFIG, OFPMP_METER_FEATURES}
    ensures ChannelOf(GetStatsName(m)) == Some(StatsChannel(m))
  {
    if m == OFPMP_GROUP_FEATURES {
    } else if m == OFPMP_METER {
    } else if m == OFPMP_METER_CONFIG {
    } else if m == OFPMP_METER_FEATURES {
    }
  }

  lemma GetStatsNameInverseHigh(m: int)
    requires m in {OFPMP_TABLE_FEATURES, OFPMP_PORT_DESC, OFPMP_EXPERIMENTER}
    ensures ChannelOf(GetStatsName(m)) == Some(StatsChannel(m))
  {
    if m == OFPMP_TABLE_FEATURES {
    } else if m == OFPMP_PORT_DESC {
    } else if m == OFPMP_EXPERIMENTER {
    }
  }

  /** All non-empty names produced by the two functions are pairwise distinct. */
  lemma NamesDistinct(t1: int, t2: int, m1: int, m2: int)
    ensures GetName(t1) != "" && GetName(t1) == GetName(t2) ==> t1 == t2
    ensures GetStatsName(m1) != "" && GetStatsName(m1) == GetStatsName(m2) ==> m1 == m2
    ensures GetName(t1) != "" ==> GetName(t1) != GetStatsName(m1)
  {
    if GetName(t1) != "" {
      GetNameInverse(t1);
      if GetName(t1) == GetName(t2) { GetNameInverse(t2); }
      if GetStatsName(m1) != "" { GetStatsNameInverse(m1); }
    }
    if GetStatsName(m1) != "" && GetStatsName(m1) == GetStatsName(m2) {
      GetStatsNameInverse(m1);
      GetStatsNameInverse(m2);
    }
  }

  /** The controller-to-switch requests and the multipart reply itself have no channel. */
  lemma RequestsHaveNoName(t: int)
    requires t in {OFPT_FEATURES_REQUEST, OFPT_GET_CONFIG_REQUEST, OFPT_SET_CONFIG,
                   OFPT_PACKET_OUT, OFPT_GROUP_MOD, OFPT_PORT_MOD, OFPT_TABLE_MOD,
                   OFPT_MULTIPART_REQUEST, OFPT_MULTIPART_REPLY, OFPT_BARRIER_REQUEST,
                   OFPT_QUEUE_GET_CONFIG_REQUEST, OFPT_ROLE_REQUEST,
                   OFPT_GET_ASYNC_REQUEST, OFPT_SET_ASYNC, OFPT_METER_MOD}
    ensures GetName(t) == ""
  {
  }

  /** The channel a message is published on. */
  function EventName(msg: Msg): string {
    if msg.msgType == OFPT_MULTIPART_REPLY then GetStatsName(msg.multipartType)
    else GetName(msg.msgType)
  }

  /**
   * Ofp_msg_event::create_event: a new event carrying exactly its arguments,
   * on the channel of the multipart subtype for a multipart reply and of
   * the message type otherwise; the channel is "" exactly for unnamed codes.
   */
  function CreateEvent(dpid: DpId, xid: uint32, msg: Msg): (e: Event)
    ensures e.OfpMsgEvent? && e.dpid == dpid && e.xid == xid && e.msg == msg
    ensures e.name == "" <==>
              (if msg.msgType == OFPT_MULTIPART_REPLY then msg.multipartType !in NAMED_STATS
               else msg.msgType !in NAMED_TYPES)
  {
    OfpMsgEvent(EventName(msg), dpid, xid, msg)
  }

  /** The channel of a created event reads back to the code that named it. */
  lemma CreateEventChannel(dpid: DpId, xid: uint32, msg: Msg)
    ensures msg.msgType == OFPT_MULTIPART_REPLY && msg.multipartType in NAMED_STATS ==>
              ChannelOf(CreateEvent(dpid, xid, msg).name) == Some(StatsChannel(msg.multipartType))
    ensures msg.msgType != OFPT_MULTIPART_REPLY && msg.msgType in NAMED_TYPES ==>
              ChannelOf(CreateEvent(dpid, xid, msg).name) == Some(MsgChannel(msg.msgType))
  {
    if msg.msgType == OFPT_MULTIPART_REPLY && msg.multipartType in NAMED_STATS {
      GetStatsNameInverse(msg.multipartType);
    }
    if msg.msgType != OFPT_MULTIPART_REPLY && msg.msgType in NAMED_TYPES {
      GetNameInverse(msg.msgType);
    }
  }
}

=== FILE: nox.dfy ===
/**
 * The controller core's connection registry and event pump: the map from
 * datapath id to live connection, each connection's deferred destruction,
 * the outcome table of one receive, the lookups by datapath id, the
 * transaction-id counter and the switch-authorisation hook.
 *
 * Connections live in an arena indexed by a connection id; a destroyed
 * connection stays in the arena marked `freed`. The transport's result codes
 * and the codec's decode and pack results are parameters.
 */
module Nox {
  import opened OpenFlow
  import opened MsgEvent

  type ConnId = nat

  /**
   * One connection: the datapath it serves, its close/poll bookkeeping, the
   * addresses the transport reports and whether a disconnect semaphore was
   * handed over with it.
   */
  datatype ConnRec = ConnRec(
    dpid: DpId,
    closing: bool,
    pollCnt: nat,
    freed: bool,
    localIp: uint32,
    remoteIp: uint32,
    hasDisconnected: bool)

  /** What one non-blocking receive produced: its status and, for status 0, the decode result. */
  datatype Received = Received(error: int, decoded: Option<Decoded>)
  datatype Decoded = Decoded(xid: uint32, msg: Msg)

  /** What packing a message produced: a non-zero error, or the wire bytes. */
  datatype Packed = PackError(code: int) | Packed(bytes: seq<uint8>)

  /** The value the transaction-id counter hands out next: 0 is skipped. */
  function XidIssued(x: uint32): (r: uint32)
    ensures r != 0
    ensures x != 0 ==> r == x
  {
    if x == 0 then 1 else x
  }

  /** The counter after handing out one id: one past it, wrapping at 2^32. */
  function XidAfter(x: uint32): uint32 {
    (XidIssued(x) + 1) % UINT32_LIMIT
  }

  /**
   * Successive ids are successive values, and the id after 0xffffffff is 1:
   * the counter passes through 0 but never hands it out.
   */
  lemma XidSuccession(x: uint32)
    ensures XidIssued(XidAfter(x)) == if XidIssued(x) == UINT32_LIMIT - 1 then 1 else XidIssued(x) + 1
  {
  }

  /**
   * The registry invariant on the map `m`, the arena `cs` and the polled
   * set `ps`: every map entry names a live connection of that datapath;
   * every live connection is the entry of its datapath and is polled; a
   * connection is destroyed exactly when it is closing and no poll is
   * running on it.
   */
  ghost predicate Registry(m: map<DpId, ConnId>, cs: seq<ConnRec>, ps: set<ConnId>) {
    (forall d :: d in m ==> m[d] < |cs| && cs[m[d]].dpid == d && !cs[m[d]].closing) &&
    (forall i :: 0 <= i < |cs| && !cs[i].closing ==> cs[i].dpid in m && m[cs[i].dpid] == i) &&
    (forall i :: 0 <= i < |cs| ==> (cs[i].freed <==> cs[i].closing && cs[i].pollCnt == 0)) &&
    (forall i :: i in ps <==> 0 <= i < |cs| && !cs[i].closing)
  }

  /** Changing only the poll count of one connection, with its destroyed flag to match, keeps the invariant. */
  lemma CountUpdated(m: map<DpId, ConnId>, cs: seq<ConnRec>, ps: set<ConnId>, id: nat, c: ConnRec)
    requires Registry(m, cs, ps) && id < |cs|
    requires c.dpid == cs[id].dpid && c.closing == cs[id].closing
    requires c.freed <==> c.closing && c.pollCnt == 0
    ensures Registry(m, cs[id := c], ps)
  {
  }

  /**
   * Whether one receive ends with its connection closed: a handler asked
   * for it after a message was dispatched, or the receive failed with
   * anything but would-block.
   */
  predicate ClosesOn(r: Received, closeInHandler: bool) {
    (r.error == 0 && r.decoded.Some? && closeInHandler) || (r.error != 0 && r.error != EAGAIN)
  }

  /** A connection once it starts closing: destroyed at once when no poll is running on it. */
  function Closing(c: ConnRec): (d: ConnRec)
    ensures d.closing && d.dpid == c.dpid && (d.freed <==> c.pollCnt == 0)
    ensures d.pollCnt == c.pollCnt && d.localIp == c.localIp && d.remoteIp == c.remoteIp
  {
    c.(closing := true, freed := c.pollCnt == 0)
  }

  /**
   * The arena after a registration under `dpid` displaced the connection
   * the map `m` names for it, if any: that one is closing, the rest are
   * as they were.
   */
  function Displaced(m: map<DpId, ConnId>, cs: seq<ConnRec>, dpid: DpId): (r: seq<ConnRec>)
    requires dpid in m ==> m[dpid] < |cs|
    ensures |r| == |cs|
    ensures forall i :: 0 <= i < |cs| && (dpid !in m || i != m[dpid]) ==> r[i] == cs[i]
    ensures dpid in m ==> r[m[dpid]] == Closing(cs[m[dpid]])
  {
    if dpid in m then cs[m[dpid] := Closing(cs[m[dpid]])] else cs
  }

  /** The polled set after the same displacement: the displaced connection is no longer polled. */
  function DisplacedPolls(m: map<DpId, ConnId>, ps: set<ConnId>, dpid: DpId): (r: set<ConnId>)
    ensures r <= ps
    ensures forall i :: i in ps ==> (i in r <==> dpid !in m || i != m[dpid])
  {
    if dpid in m then ps - {m[dpid]} else ps
  }

  class Nox {
    /** The datapath id -> connection map. */
    var connMap: map<DpId, ConnId>
    /** Every connection ever created, by id. */
    var conns: seq<ConnRec>
    /** The connections the main loop polls. */
    var pollables: set<ConnId>
    /** Events posted for later dispatch, in order. */
    var posted: seq<Event>
    /** Events dispatched immediately, in order. */
    var dispatched: seq<Event>
    /**
     * Messages handed to a transport: the datapath and the packed bytes.
     * A message is recorded here whatever status the transport returns
     * (0, EAGAIN or an error); the status itself is the method's result.
     */
    var sent: seq<(DpId, seq<uint8>)>
    /** The transaction-id counter. */
    var xid: uint32
    /** The registered switch-authorisation hook, if any. */
    var switchAuth: Option<nat>

    /**
     * Every map entry names a live connection of that datapath; every live
     * connection is the entry of its datapath and is polled; a connection
     * is destroyed exactly when it is closing and no poll is running on it.
     */
    ghost predicate Valid()
      reads this`connMap, this`conns, this`pollables
    {
      Registry(connMap, conns, pollables)
    }

    constructor ()
      ensures Valid()
      ensures connMap == map[] && conns == [] && pollables == {}
      ensures posted == [] && dispatched == [] && sent == [] && xid == 0 && switchAuth == None
    {
      connMap := map[];
      conns := [];
      pollables := {};
      posted := [];
      dispatched := [];
      sent := [];
      xid := 0;
      switchAuth := None;
    }

    /** Queues an event for later dispatch. */
    method PostEvent(e: Event)
      modifies this`posted
      ensures posted == old(posted) + [e]
    {
      posted := posted + [e];
    }

    /**
     * Closes a connection. The first call marks it closing, posts one
     * leave event for its datapath, drops its map entry and stops polling
     * it, and destroys it unless a poll is running on it; any later call
     * changes nothing.
     */
    method Close(id: ConnId)
      requires Valid() && id < |conns| && !conns[id].freed
      modifies this`conns, this`connMap, this`pollables, this`posted
      ensures Valid()
      ensures |conns| == |old(conns)|
      ensures old(conns[id].closing) ==>
                conns == old(conns) && connMap == old(connMap) &&
                pollables == old(pollables) && posted == old(posted)
      ensures !old(conns[id].closing) ==>
                var c := old(conns[id]);
                conns == old(conns)[id := Closing(c)] &&
                connMap == old(connMap) - {c.dpid} &&
                pollables == old(pollables) - {id} &&
                posted == old(posted) + [DatapathLeave(c.dpid)]
    {
      if !conns[id].closing {
        var c := conns[id];
        conns := conns[id := c.(closing := true)];
        PostEvent(DatapathLeave(c.dpid));
        connMap := connMap - {c.dpid};
        pollables := pollables - {id};
        if c.pollCnt == 0 {
          conns := conns[id := conns[id].(freed := true)];
        }
      }
    }

    /**
     * One receive on a connection under poll. A decoded message is turned
     * into an event and dispatched (whose handlers may close this very
     * connection, `closeInHandler`), answering true; an undecodable buffer
     * or a would-block answers false and closes nothing; end of stream or
     * any other error closes the connection and answers true. Of what the
     * handlers do, only whether they close this connection is an input;
     * their own posts, sends and closes of other connections are not part
     * of this contract.
     */
    method DoPoll(id: ConnId, r: Received, closeInHandler: bool) returns (progress: bool)
      requires Valid() && id in pollables && conns[id].pollCnt > 0
      modifies this`conns, this`connMap, this`pollables, this`posted, this`dispatched
      ensures Valid()
      ensures progress <==> (r.error == 0 && r.decoded.Some?) || (r.error != 0 && r.error != EAGAIN)
      ensures var c := old(conns[id]);
              if ClosesOn(r, closeInHandler) then
                conns == old(conns)[id := c.(closing := true)] && connMap == old(connMap) - {c.dpid} &&
                pollables == old(pollables) - {id} && posted == old(posted) + [DatapathLeave(c.dpid)]
              else
                conns == old(conns) && connMap == old(connMap) && pollables == old(pollables) && posted == old(posted)
      ensures dispatched == old(dispatched) +
                (if r.error == 0 && r.decoded.Some?
                 then [CreateEvent(old(conns[id].dpid), r.decoded.value.xid, r.decoded.value.msg)]
                 else [])
    {
      if r.error == 0 {
        if r.decoded.None? {
          return false;
        }
        var e := CreateEvent(conns[id].dpid, r.decoded.value.xid, r.decoded.value.msg);
        dispatched := dispatched + [e];
        if closeInHandler {
          Close(id);
        }
        return true;
      } else if r.error == EAGAIN {
        return false;
      } else {
        Close(id);
        return true;
      }
    }

    /**
     * Polls a connection: the poll count is raised around the receive, so a
     * close during it defers destruction to the end of the poll, and the
     * count returns to its entry value.
     */
    method Poll(id: ConnId, r: Received, closeInHandler: bool) returns (progress: bool)
      requires Valid() && id in pollables
      modifies this`conns, this`connMap, this`pollables, this`posted, this`dispatched
      ensures Valid()
      ensures progress <==> (r.error == 0 && r.decoded.Some?) || (r.error != 0 && r.error != EAGAIN)
      ensures var c := old(conns[id]);
              if ClosesOn(r, closeInHandler) then
                conns == old(conns)[id := Closing(c)] && connMap == old(connMap) - {c.dpid} &&
                pollables == old(pollables) - {id} && posted == old(posted) + [DatapathLeave(c.dpid)]
              else
                conns == old(conns) && connMap == old(connMap) && pollables == old(pollables) && posted == old(posted)
      ensures dispatched == old(dispatched) +
                (if r.error == 0 && r.decoded.Some?
                 then [CreateEvent(old(conns[id].dpid), r.decoded.value.xid, r.decoded.value.msg)]
                 else [])
    {
      StartPoll(id);
      progress := DoPoll(id, r, closeInHandler);
      EndPoll(id);
    }

    /** A poll starts on connection `id`: its poll count goes up by one. */
    method StartPoll(id: ConnId)
      requires Valid() && id in pollables
      modifies this`conns
      ensures Valid() && id in pollables
      ensures conns == old(conns)[id := old(conns[id]).(pollCnt := old(conns[id]).pollCnt + 1)]
    {
      CountUpdated(connMap, conns, pollables, id, conns[id].(pollCnt := conns[id].pollCnt + 1));
      conns := conns[id := conns[id].(pollCnt := conns[id].pollCnt + 1)];
    }

    /**
     * A poll on connection `id` ends: its poll count goes down by one, and
     * a connection closed meanwhile is destroyed when the count reaches 0.
     */
    method EndPoll(id: ConnId)
      requires Valid() && id < |conns| && conns[id].pollCnt > 0
      modifies this`conns
      ensures Valid()
      ensures var c := old(conns[id]);
              conns == old(conns)[id := c.(pollCnt := c.pollCnt - 1, freed := c.closing && c.pollCnt == 1)]
    {
      var p := conns[id].pollCnt - 1;
      var c := conns[id].(pollCnt := p, freed := conns[id].closing && p == 0);
      CountUpdated(connMap, conns, pollables, id, c);
      conns := conns[id := c];
    }

    /** The connection serving a datapath, if any. */
    function DpidToConn(dpid: DpId): (c: Option<ConnId>)
      reads this
      requires Valid()
      ensures c.Some? <==> dpid in connMap
      ensures c.Some? ==> c.value < |conns| && conns[c.value].dpid == dpid && !conns[c.value].closing
    {
      if dpid in connMap then Some(connMap[dpid]) else None
    }

    /**
     * Registers a connection that completed its handshake under `dpid`. A
     * connection already registered for that datapath is closed first
     * (posting its leave event); either way the map then names the new one.
     */
    method RegisterConn(dpid: DpId, localIp: uint32, remoteIp: uint32, hasDisconnected: bool)
      returns (id: ConnId)
      requires Valid()
      modifies this`conns, this`connMap, this`pollables, this`posted
      ensures Valid()
      ensures id == |old(conns)|
      ensures conns == Displaced(old(connMap), old(conns), dpid) +
                       [ConnRec(dpid, false, 0, false, localIp, remoteIp, hasDisconnected)]
      ensures connMap == old(connMap)[dpid := id]
      ensures pollables == DisplacedPolls(old(connMap), old(pollables), dpid) + {id}
      ensures posted == old(posted) + (if dpid in old(connMap) then [DatapathLeave(dpid)] else [])
    {
      // The source creates the connection before it finds the old entry;
      // closing the old one first is equivalent and keeps the invariant.
      if dpid in connMap {
        Close(connMap[dpid]);
      }
      id := AddConn(ConnRec(dpid, false, 0, false, localIp, remoteIp, hasDisconnected));
    }

    /** Appends the live connection `rec` of a datapath not in the map, and maps and polls it. */
    method AddConn(rec: ConnRec) returns (id: ConnId)
      requires Valid() && rec.dpid !in connMap && !rec.closing && !rec.freed && rec.pollCnt == 0
      modifies this`conns, this`connMap, this`pollables
      ensures Valid()
      ensures id == |old(conns)| && conns == old(conns) + [rec]
      ensures connMap == old(connMap)[rec.dpid := id] && pollables == old(pollables) + {id}
    {
      id := |conns|;
      conns := conns + [rec];
      pollables := pollables + {id};
      connMap := connMap[rec.dpid := id];
    }

    /**
     * What an approved handshake does to the registry: registers its
     * connection under `dpid` and then posts `join`.
     */
    method RegisterAndPost(dpid: DpId, localIp: uint32, remoteIp: uint32, hasDisconnected: bool, join: Event)
      requires Valid()
      modifies this`conns, this`connMap, this`pollables, this`posted
      ensures Valid()
      ensures conns == Displaced(old(connMap), old(conns), dpid) +
                       [ConnRec(dpid, false, 0, false, localIp, remoteIp, hasDisconnected)]
      ensures connMap == old(connMap)[dpid := |old(conns)|]
      ensures pollables == DisplacedPolls(old(connMap), old(pollables), dpid) + {|old(conns)|}
      ensures posted == old(posted) + (if dpid in old(connMap) then [DatapathLeave(dpid)] else []) + [join]
    {
      var _ := RegisterConn(dpid, localIp, remoteIp, hasDisconnected);
      PostEvent(join);
    }

    /**
     * Hands a packed message to the datapath's transport. An unknown
     * datapath yields ESRCH and changes nothing; otherwise the message is
     * recorded as handed over and the transport's status is returned,
     * whether it accepted the bytes or not.
     */
    method SendOpenflowCommand(dpid: DpId, bytes: seq<uint8>, transport: int) returns (err: int)
      requires Valid()
      modifies this`sent
      ensures dpid !in connMap ==> err == ESRCH && sent == old(sent)
      ensures dpid in connMap ==> err == transport && sent == old(sent) + [(dpid, bytes)]
    {
      var c := DpidToConn(dpid);
      if c.None? {
        return ESRCH;
      }
      sent := sent + [(dpid, bytes)];
      err := transport;
    }

    /** Packs a message and sends it; a pack error is returned before any lookup. */
    method SendOpenflowMsg(dpid: DpId, pack: Packed, transport: int) returns (err: int)
      requires Valid()
      requires pack.PackError? ==> pack.code != 0
      modifies this`sent
      ensures pack.PackError? ==> err == pack.code && sent == old(sent)
      ensures pack.Packed? && dpid !in connMap ==> err == ESRCH && sent == old(sent)
      ensures pack.Packed? && dpid in connMap ==> err == transport && sent == old(sent) + [(dpid, pack.bytes)]
    {
      if pack.PackError? {
        return pack.code;
      }
      err := SendOpenflowCommand(dpid, pack.bytes, transport);
    }

    /** Closes the datapath's connection: 0 on success, ESRCH (changing nothing) when unknown. */
    method CloseOpenflowConnection(dpid: DpId) returns (err: int)
      requires Valid()
      modifies this`conns, this`connMap, this`pollables, this`posted
      ensures Valid() && |conns| == |old(conns)|
      ensures dpid !in old(connMap) ==>
                err == ESRCH && conns == old(conns) && connMap == old(connMap) &&
                pollables == old(pollables) && posted == old(posted)
      ensures dpid in old(connMap) ==>
                var id := old(connMap[dpid]);
                err == 0 && dpid !in connMap && connMap == old(connMap) - {dpid} &&
                conns == old(conns)[id := Closing(old(conns[id]))] &&
                pollables == old(pollables) - {id} &&
                posted == old(posted) + [DatapathLeave(dpid)]
    {
      var c := DpidToConn(dpid);
      if c.None? {
        return ESRCH;
      }
      Close(c.value);
      err := 0;
    }

    /** The controller-side address of the datapath's connection, 0 when unknown. */
    function GetSwitchControllerIp(dpid: DpId): (ip: uint32)
      reads this
      requires Valid()
      ensures dpid !in connMap ==> ip == 0
      ensures dpid in connMap ==> ip == conns[connMap[dpid]].localIp
    {
      var c := DpidToConn(dpid);
      if c.None? then 0 else conns[c.value].localIp
    }

    /** The switch-side address of the datapath's connection, 0 when unknown. */
    function GetSwitchIp(dpid: DpId): (ip: uint32)
      reads this
      requires Valid()
      ensures dpid !in connMap ==> ip == 0
      ensures dpid in connMap ==> ip == conns[connMap[dpid]].remoteIp
    {
      var c := DpidToConn(dpid);
      if c.None? then 0 else conns[c.value].remoteIp
    }

    /** Hands out a transaction id: never 0, successive values, wrapping from 0xffffffff to 1. */
    method AllocateOpenflowXid() returns (r: uint32)
      modifies this`xid
      ensures r == XidIssued(old(xid)) && xid == XidAfter(old(xid))
    {
      if xid == 0 {
        xid := 1;
      }
      r := xid;
      xid := (xid + 1) % UINT32_LIMIT;
    }

    /** Installs the switch-authorisation hook; a second installation is ignored. */
    method RegisterSwitchAuth(auth: nat)
      modifies this`switchAuth
      ensures switchAuth == if old(switchAuth).Some? then old(switchAuth) else Some(auth)
    {
      if switchAuth.Some? {
        return;
      }
      switchAuth := Some(auth);
    }
  }

  /** Closing twice posts one leave event: the second close changes nothing. */
  method CloseTwice(n: Nox, id: ConnId)
    requires n.Valid() && id < |n.conns| && !n.conns[id].closing && n.conns[id].pollCnt > 0
    modifies n
    ensures n.Valid()
    ensures n.posted == old(n.posted) + [DatapathLeave(old(n.conns[id].dpid))]
  {
    n.Close(id);
    n.Close(id);
  }
}

=== FILE: openflow.dfy ===
/**
 * Wire-level vocabulary shared by the controller core: the OpenFlow 1.3
 * message, multipart, action and instruction type codes (OpenFlow Switch
 * Specification 1.3, Appendix A), the reserved port and group numbers, the
 * errno values the core returns, and the decoded message the external codec
 * hands to the core.
 */
module OpenFlow {

  datatype Option<T> = None | Some(value: T)

  // Integer widths of the source.
  const UINT16_LIMIT: nat := 0x1_0000
  const UINT32_LIMIT: nat := 0x1_0000_0000
  const UINT48_LIMIT: nat := 0x1_0000_0000_0000
  const UINT64_LIMIT: nat := 0x1_0000_0000_0000_0000

  type uint8 = x: nat | x < 0x100
  type uint16 = x: nat | x < UINT16_LIMIT
  type uint32 = x: nat | x < UINT32_LIMIT
  type uint64 = x: nat | x < UINT64_LIMIT

  /** A datapath id: the 64-bit switch identity; 0 is reserved. */
  type DpId = uint64

  // errno values (Linux numbering), plus stdio's EOF as the transport uses it.
  const EPERM: int := 1
  const ESRCH: int := 3
  const EAGAIN: int := 11
  const EINVAL: int := 22
  const ETIMEDOUT: int := 110
  const EOF: int := -1

  // enum ofp_type (section A.1)
  const OFPT_HELLO: int := 0
  const OFPT_ERROR: int := 1
  const OFPT_ECHO_REQUEST: int := 2
  const OFPT_ECHO_REPLY: int := 3
  const OFPT_EXPERIMENTER: int := 4
  const OFPT_FEATURES_REQUEST: int := 5
  const OFPT_FEATURES_REPLY: int := 6
  const OFPT_GET_CONFIG_REQUEST: int := 7
  const OFPT_GET_CONFIG_REPLY: int := 8
  const OFPT_SET_CONFIG: int := 9
  const OFPT_PACKET_IN: int := 10
  const OFPT_FLOW_REMOVED: int := 11
  const OFPT_PORT_STATUS: int := 12
  const OFPT_PACKET_OUT: int := 13
  const OFPT_FLOW_MOD: int := 14
  const OFPT_GROUP_MOD: int := 15
  const OFPT_PORT_MOD: int := 16
  const OFPT_TABLE_MOD: int := 17
  const OFPT_MULTIPART_REQUEST: int := 18
  const OFPT_MULTIPART_REPLY: int := 19
  const OFPT_BARRIER_REQUEST: int := 20
  const OFPT_BARRIER_REPLY: int := 21
  const OFPT_QUEUE_GET_CONFIG_REQUEST: int := 22
  const OFPT_QUEUE_GET_CONFIG_REPLY: int := 23
  const OFPT_ROLE_REQUEST: int := 24
  const OFPT_ROLE_REPLY: int := 25
  const OFPT_GET_ASYNC_REQUEST: int := 26
  const OFPT_GET_ASYNC_REPLY: int := 27
  const OFPT_SET_ASYNC: int := 28
  const OFPT_METER_MOD: int := 29

  // enum ofp_multipart_types (section A.3.5)
  const OFPMP_DESC: int := 0
  const OFPMP_FLOW: int := 1
  const OFPMP_AGGREGATE: int := 2
  const OFPMP_TABLE: int := 3
  const OFPMP_PORT_STATS: int := 4
  const OFPMP_QUEUE: int := 5
  const OFPMP_GROUP: int := 6
  const OFPMP_GROUP_DESC: int := 7
  const OFPMP_GROUP_FEATURES: int := 8
  const OFPMP_METER: int := 9
  const OFPMP_METER_CONFIG: int := 10
  const OFPMP_METER_FEATURES: int := 11
  const OFPMP_TABLE_FEATURES: int := 12
  const OFPMP_PORT_DESC: int := 13
  const OFPMP_EXPERIMENTER: int := 0xffff

  // enum ofp_action_type (section A.2.5)
  const OFPAT_OUTPUT: int := 0
  const OFPAT_COPY_TTL_OUT: int := 11
  const OFPAT_COPY_TTL_IN: int := 12
  const OFPAT_SET_MPLS_TTL: int := 15
  const OFPAT_DEC_MPLS_TTL: int := 16
  const OFPAT_PUSH_VLAN: int := 17
  const OFPAT_POP_VLAN: int := 18
  const OFPAT_PUSH_MPLS: int := 19
  const OFPAT_POP_MPLS: int := 20
  const OFPAT_SET_QUEUE: int := 21
  const OFPAT_GROUP: int := 22
  const OFPAT_SET_NW_TTL: int := 23
  const OFPAT_DEC_NW_TTL: int := 24
  const OFPAT_SET_FIELD: int := 25
  const OFPAT_PUSH_PBB: int := 26

  // enum ofp_instruction_type (section A.2.4)
  const OFPIT_GOTO_TABLE: int := 1
  const OFPIT_WRITE_METADATA: int := 2
  const OFPIT_WRITE_ACTIONS: int := 3
  const OFPIT_APPLY_ACTIONS: int := 4
  const OFPIT_CLEAR_ACTIONS: int := 5
  const OFPIT_METER: int := 6

  // Reserved ports, groups and flow-mod constants (sections A.2.1, A.3.4.1)
  const OFPP_MAX: uint32 := 0xffff_ff00
  const OFPP_FLOOD: uint32 := 0xffff_fffb
  const OFPP_CONTROLLER: uint32 := 0xffff_fffd
  const OFPP_ANY: uint32 := 0xffff_ffff
  const OFPG_ANY: uint32 := 0xffff_ffff
  const OFPFC_ADD: int := 0
  const OFP_FLOW_PERMANENT: uint16 := 0
  const OFP_DEFAULT_PRIORITY: uint16 := 0x8000
  const OFP_NO_BUFFER: uint32 := 0xffff_ffff

  // enum ofp_port_reason (section A.4.3)
  const OFPPR_ADD: int := 0
  const OFPPR_DELETE: int := 1
  const OFPPR_MODIFY: int := 2

  /**
   * A message as the external codec decodes it: its ofp_type code, the
   * multipart subtype (read only for a multipart reply), the datapath id
   * (read only for a features reply) and an opaque rest.
   */
  datatype Msg = Msg(msgType: int, multipartType: int, datapathId: DpId, rest: seq<uint8>)

  /**
   * C's realloc on an array of element addresses: a fresh array of `n` slots that
   * keeps the slots the two sizes share; slots beyond the old size are
   * unset.
   */
  method Realloc<T>(a: array<Option<T>>, n: nat) returns (b: array<Option<T>>)
    ensures fresh(b) && b.Length == n
    ensures forall i :: 0 <= i < n ==> b[i] == (if i < a.Length then a[i] else None)
  {
    b := new Option<T>[n];
    var i := 0;
    while i < n
      invariant 0 <= i <= n
      invariant forall j :: 0 <= j < i ==> b[j] == (if j < a.Length then a[j] else None)
    {
      b[i] := if i < a.Length then a[i] else None;
      i := i + 1;
    }
  }
}

=== FILE: switch.dfy ===
/**
 * The learning switch application. For every packet-in it learns on which
 * port of the datapath the packet's source MAC address lives, looks up the
 * port of the destination MAC address, installs a flow for the pair when
 * the destination is known (unless flows are switched off with the
 * "noflow" argument), and otherwise, or when the packet is not buffered at
 * the switch, sends the packet out itself, flooding when the destination
 * is unknown. A joining datapath gets a table-miss flow that sends every
 * packet to the controller.
 *
 * The source table stores ports as C `int`s, converted from the unsigned
 * 32-bit port numbers; -1 means "not learned" and, as an output port,
 * "flood". The conversions are written out as `ToInt32` and `ToUint32`.
 */
module LearningSwitch {
  import opened OpenFlow
  import opened MsgEvent
  import opened ActionList
  import opened InstructionList
  import opened FlowMods

  /** The ethertype of LLDP frames, which the switch drops. */
  const ETH_TYPE_LLDP: uint16 := 0x88cc
  /** The configuration argument that switches flow setup off. */
  const NOFLOW: string := "noflow"
  /** The buffer id of a packet the datapath did not buffer. */
  const UINT32_MAX: uint32 := 0xffff_ffff
  /** The idle timeout, in seconds, of the flows set up for learned pairs. */
  const FLOW_IDLE_TIMEOUT: uint16 := 1
  /** The port of a source not yet learned, and the output port meaning "flood". */
  const NO_PORT: int := -1
  const INT32_MIN: int := -0x8000_0000
  const INT32_LIMIT: int := 0x8000_0000

  /** An Ethernet address. */
  type Mac = m: seq<uint8> | |m| == 6 witness [0, 0, 0, 0, 0, 0]

  /** A group address: the low bit of the first octet is set. */
  predicate IsMulticast(m: Mac) {
    m[0] % 2 == 1
  }

  /** The C conversion of a 32-bit unsigned port number to a 32-bit `int`. */
  function ToInt32(p: uint32): (r: int)
    ensures INT32_MIN <= r < INT32_LIMIT
    ensures (r - p) % UINT32_LIMIT == 0
  {
    if p < INT32_LIMIT then p else p - UINT32_LIMIT
  }

  /** The C conversion of an `int` to a 32-bit unsigned port number. */
  function ToUint32(x: int): (r: uint32)
    ensures (r - x) % UINT32_LIMIT == 0
  {
    x % UINT32_LIMIT
  }

  /** A port number survives being stored as an `int` and read back. */
  lemma PortRoundTrip(p: uint32)
    ensures ToUint32(ToInt32(p)) == p
  {
  }

  /**
   * An `int` in the 32-bit range is the stored form of exactly one port
   * number: the one it converts back to.
   */
  lemma Int32Unique(x: int, p: uint32)
    requires INT32_MIN <= x < INT32_LIMIT
    ensures ToUint32(x) == p <==> x == ToInt32(p)
  {
    if ToUint32(x) == p {
      if x >= 0 {
        assert x == p;
      } else {
        assert x + UINT32_LIMIT == p;
      }
    }
  }

  /**
   * The only port number whose stored form reads as "not learned" is
   * OFPP_ANY: a source seen on that port is treated as unknown.
   */
  lemma NoPortOnlyForAny(p: uint32)
    ensures ToInt32(p) == NO_PORT <==> p == OFPP_ANY
  {
  }

  /** The fields of a packet-in the switch uses. */
  datatype PacketIn = PacketIn(
    inPort: uint32,
    ethType: uint16,
    ethSrc: Mac,
    ethDst: Mac,
    bufferId: uint32,
    totalLen: uint16,
    data: seq<uint8>)

  /** What the switch sends to a datapath. */
  datatype Sent =
    | SentFlowMod(dpid: DpId, flowMod: FlowModMsg, xid: uint32)
    | SentBuffered(dpid: DpId, bufferId: uint32, inPort: uint32, outPort: uint32)
    | SentData(dpid: DpId, data: seq<uint8>, inPort: uint32, outPort: uint32)

  /** The learned ports, keyed by datapath and source MAC address. */
  type SourceTable = map<(DpId, Mac), int>

  /** Every stored port is the `int` form of some port number. */
  ghost predicate StoredPorts(t: SourceTable) {
    forall k :: k in t ==> INT32_MIN <= t[k] < INT32_LIMIT
  }

  /** The table after seeing `src` on port `inPort` of `dpid`; group addresses are not learned. */
  function Learn(t: SourceTable, dpid: DpId, src: Mac, inPort: uint32): SourceTable {
    if IsMulticast(src) then t else t[(dpid, src) := ToInt32(inPort)]
  }

  /** The stored port of `dst` on `dpid`, or NO_PORT for a group or unknown address. */
  function Lookup(t: SourceTable, dpid: DpId, dst: Mac): int {
    if !IsMulticast(dst) && (dpid, dst) in t then t[(dpid, dst)] else NO_PORT
  }

  /** The port a packet-out uses: flood when the destination is unknown. */
  function FloodOr(outPort: int): uint32 {
    if outPort == NO_PORT then OFPP_FLOOD else ToUint32(outPort)
  }

  /** The match of a learned-pair flow: the packet's in-port, source and destination. */
  function PairMatch(pin: PacketIn): Match {
    [MatchField("in_port", Num(pin.inPort)), MatchField("eth_src", Octets(pin.ethSrc)),
     MatchField("eth_dst", Octets(pin.ethDst))]
  }

  /** An apply-actions instruction holding one output action to `port`. */
  function ApplyOutput(port: uint32): Instr {
    Instr(OFPIT_APPLY_ACTIONS, ActionsBody([Some(Action(OFPAT_OUTPUT, Output(port, 0)))], 1))
  }

  /**
   * The flow set up for a learned pair: add, idle timeout 1 s, permanent
   * otherwise, default priority, releasing the packet's buffer, matching
   * the pair and outputting to the learned port.
   */
  function PairFlow(pin: PacketIn, outPort: int, flags: uint16): FlowModMsg {
    NewFlowMod(0, 0, 0, OFPFC_ADD, FLOW_IDLE_TIMEOUT, OFP_FLOW_PERMANENT, OFP_DEFAULT_PRIORITY,
               pin.bufferId, OFPP_ANY, OFPG_ANY, flags)
      .(flowMatch := Some(PairMatch(pin)), instructionsNum := 1,
        instructions := [Some(ApplyOutput(ToUint32(outPort)))])
  }

  /**
   * The table-miss flow installed on a joining datapath: add, permanent,
   * priority 0, buffer id 0, empty match, output to the controller.
   */
  function TableMissFlow(flags: uint16): FlowModMsg {
    NewFlowMod(0, 0, 0, OFPFC_ADD, OFP_FLOW_PERMANENT, OFP_FLOW_PERMANENT, 0, 0, OFPP_ANY, OFPG_ANY, flags)
      .(flowMatch := Some([]), instructionsNum := 1, instructions := [Some(ApplyOutput(OFPP_CONTROLLER))])
  }

  /**
   * The messages a non-LLDP packet-in on `dpid` causes, given the output
   * port looked up for it: a flow when flows are on and the port is known;
   * then a packet-out when flows are off, the port is unknown or the packet
   * was not buffered, except for an unbuffered packet that arrived
   * truncated, which is dropped.
   */
  function Reaction(setupFlows: bool, flags: uint16, dpid: DpId, pin: PacketIn, outPort: int): seq<Sent> {
    (if setupFlows && outPort != NO_PORT then [SentFlowMod(dpid, PairFlow(pin, outPort, flags), 0)] else [])
    + (if !setupFlows || outPort == NO_PORT || pin.bufferId == UINT32_MAX then
         if pin.bufferId == UINT32_MAX then
           if pin.totalLen != |pin.data| then []
           else [SentData(dpid, pin.data, pin.inPort, FloodOr(outPort))]
         else [SentBuffered(dpid, pin.bufferId, pin.inPort, FloodOr(outPort))]
       else [])
  }

  /** After learning, the learned address looks up to the port it was seen on. */
  lemma LearnThenLookup(t: SourceTable, dpid: DpId, m: Mac, p: uint32)
    requires !IsMulticast(m)
    ensures Lookup(Learn(t, dpid, m, p), dpid, m) == ToInt32(p)
  {
  }

  /** Learning changes the entry of the packet's own source and no other. */
  lemma LearnOnlyTouchesSource(t: SourceTable, dpid: DpId, src: Mac, p: uint32, k: (DpId, Mac))
    requires k != (dpid, src)
    ensures k in Learn(t, dpid, src, p) <==> k in t
    ensures k in t ==> Learn(t, dpid, src, p)[k] == t[k]
  {
  }

  /** Learning keeps every stored port in the `int` range. */
  lemma LearnKeepsStoredPorts(t: SourceTable, dpid: DpId, src: Mac, p: uint32)
    requires StoredPorts(t)
    ensures StoredPorts(Learn(t, dpid, src, p))
  {
  }

  /**
   * A packet for an address learned on port `p` goes out on `p`, except
   * when `p` is OFPP_ANY, whose stored form reads as unknown and floods.
   */
  lemma ForwardToLearned(t: SourceTable, dpid: DpId, m: Mac, p: uint32)
    requires !IsMulticast(m)
    ensures FloodOr(Lookup(Learn(t, dpid, m, p), dpid, m)) == (if p == OFPP_ANY then OFPP_FLOOD else p)
  {
    PortRoundTrip(p);
    NoPortOnlyForAny(p);
  }

  /** A flow is sent exactly when flows are on and the output port is known, and it comes first. */
  lemma ReactionFlow(setupFlows: bool, flags: uint16, dpid: DpId, pin: PacketIn, outPort: int)
    ensures var r := Reaction(setupFlows, flags, dpid, pin, outPort);
      (exists i :: 0 <= i < |r| && r[i].SentFlowMod?) <==> setupFlows && outPort != NO_PORT
    ensures var r := Reaction(setupFlows, flags, dpid, pin, outPort);
      setupFlows && outPort != NO_PORT ==> r[0] == SentFlowMod(dpid, PairFlow(pin, outPort, flags), 0)
  {
    var r := Reaction(setupFlows, flags, dpid, pin, outPort);
    if !(setupFlows && outPort != NO_PORT) {
      assert forall i :: 0 <= i < |r| ==> !r[i].SentFlowMod?;
    } else {
      assert r[0].SentFlowMod?;
    }
  }

  /**
   * A packet buffered at the datapath is released by exactly one message:
   * the flow, when one is set up, or else a packet-out naming the buffer.
   */
  lemma BufferReleasedOnce(setupFlows: bool, flags: uint16, dpid: DpId, pin: PacketIn, outPort: int)
    requires pin.bufferId != UINT32_MAX
    ensures var r := Reaction(setupFlows, flags, dpid, pin, outPort);
      |r| == 1 &&
      (if setupFlows && outPort != NO_PORT
       then r[0].SentFlowMod? && r[0].flowMod.bufferId == pin.bufferId
       else r[0] == SentBuffered(dpid, pin.bufferId, pin.inPort, FloodOr(outPort)))
  {
  }

  /**
   * A packet the datapath did not buffer is sent back out with its data
   * exactly when all of it arrived; a flow set up for it does not carry it.
   */
  lemma UnbufferedSentWhenWhole(setupFlows: bool, flags: uint16, dpid: DpId, pin: PacketIn, outPort: int)
    requires pin.bufferId == UINT32_MAX
    ensures var r := Reaction(setupFlows, flags, dpid, pin, outPort);
      SentData(dpid, pin.data, pin.inPort, FloodOr(outPort)) in r <==> pin.totalLen == |pin.data|
    ensures var r := Reaction(setupFlows, flags, dpid, pin, outPort);
      forall i :: 0 <= i < |r| ==> !r[i].SentBuffered?
  {
  }

  class Switch {
    var sources: SourceTable
    var setupFlows: bool
    var sent: seq<Sent>
    /** The flags every flow_mod carries (the library's default flow_mod flags). */
    const flowModFlags: uint16

    ghost predicate Valid()
      reads this
    {
      StoredPorts(sources)
    }

    constructor (flags: uint16)
      ensures Valid() && sources == map[] && sent == [] && setupFlows && flowModFlags == flags
    {
      sources := map[];
      setupFlows := true;
      sent := [];
      flowModFlags := flags;
    }

    /** Flows are set up unless some argument is "noflow"; other arguments are ignored. */
    method Configure(args: seq<string>)
      modifies this`setupFlows
      ensures setupFlows <==> NOFLOW !in args
    {
      setupFlows := true;
      var i := 0;
      while i < |args|
        invariant 0 <= i <= |args|
        invariant setupFlows <==> NOFLOW !in args[..i]
      {
        assert args[..i + 1] == args[..i] + [args[i]];
        if args[i] == NOFLOW {
          setupFlows := false;
        }
        i := i + 1;
      }
      assert args[..i] == args;
    }

    /** Stores `inPort` for `key`, inserting the key as not learned first if it is new. */
    method LearnSource(key: (DpId, Mac), inPort: uint32)
      requires Valid()
      modifies this`sources
      ensures Valid() && sources == old(sources)[key := ToInt32(inPort)]
    {
      if key !in sources {
        sources := sources[key := NO_PORT];
      }
      Int32Unique(sources[key], inPort);
      if ToUint32(sources[key]) != inPort {
        sources := sources[key := ToInt32(inPort)];
      } else {
        assert sources == old(sources)[key := ToInt32(inPort)];
      }
    }

    /** Builds the flow for a learned pair through the action, instruction and flow_mod builders. */
    method BuildPairFlow(pin: PacketIn, outPort: int) returns (m: FlowModMsg)
      ensures m == PairFlow(pin, outPort, flowModFlags)
    {
      var acts := new Actions.Private();
      acts.CreateOutputPort(ToUint32(outPort));
      assert acts.acts[..] == [Some(Action(OFPAT_OUTPUT, Output(ToUint32(outPort), 0)))];
      var inst := new Instruction.Private();
      inst.CreateApply(acts);
      assert inst.insts[..] == [Some(ApplyOutput(ToUint32(outPort)))];
      var mod := new FlowMod.WithFields(0, 0, 0, OFPFC_ADD, FLOW_IDLE_TIMEOUT, OFP_FLOW_PERMANENT,
                                        OFP_DEFAULT_PRIORITY, pin.bufferId, OFPP_ANY, OFPG_ANY, flowModFlags);
      mod.AddMatch(PairMatch(pin));
      mod.AddInstructions(inst);
      m := mod.fmMsg;
    }

    /**
     * A packet-in on datapath `e.dpid`: LLDP frames are dropped; otherwise
     * the source is learned and the messages of `Reaction` are sent, for
     * the port looked up in the updated table.
     */
    method Handle(e: Event, pin: PacketIn) returns (d: Disposition)
      requires e.OfpMsgEvent? && Valid()
      modifies this`sources, this`sent
      ensures Valid() && d == CONTINUE
      ensures pin.ethType == ETH_TYPE_LLDP ==> sources == old(sources) && sent == old(sent)
      ensures pin.ethType != ETH_TYPE_LLDP ==>
        sources == Learn(old(sources), e.dpid, pin.ethSrc, pin.inPort) &&
        sent == old(sent) + Reaction(setupFlows, flowModFlags, e.dpid, pin, Lookup(sources, e.dpid, pin.ethDst))
    {
      d := CONTINUE;
      if pin.ethType == ETH_TYPE_LLDP {
        return;
      }
      if !IsMulticast(pin.ethSrc) {
        LearnSource((e.dpid, pin.ethSrc), pin.inPort);
      }
      var outPort := NO_PORT;
      if !IsMulticast(pin.ethDst) && (e.dpid, pin.ethDst) in sources {
        outPort := sources[(e.dpid, pin.ethDst)];
      }
      if setupFlows && outPort != NO_PORT {
        var m := BuildPairFlow(pin, outPort);
        sent := sent + [SentFlowMod(e.dpid, m, 0)];
      }
      if !setupFlows || outPort == NO_PORT || pin.bufferId == UINT32_MAX {
        if pin.bufferId == UINT32_MAX {
          if pin.totalLen != |pin.data| {
            return;
          }
          sent := sent + [SentData(e.dpid, pin.data, pin.inPort, FloodOr(outPort))];
        } else {
          sent := sent + [SentBuffered(e.dpid, pin.bufferId, pin.inPort, FloodOr(outPort))];
        }
      }
    }

    /** A joining datapath gets the table-miss flow, sent with transaction id 0. */
    method HandleDpJoin(e: Event) returns (d: Disposition)
      requires e.OfpMsgEvent?
      modifies this`sent
      ensures d == CONTINUE && sent == old(sent) + [SentFlowMod(e.dpid, TableMissFlow(flowModFlags), 0)]
    {
      var acts := new Actions.Private();
      acts.CreateOutputPort(OFPP_CONTROLLER);
      assert acts.acts[..] == [Some(Action(OFPAT_OUTPUT, Output(OFPP_CONTROLLER, 0)))];
      var inst := new Instruction.Private();
      inst.CreateApply(acts);
      assert inst.insts[..] == [Some(ApplyOutput(OFPP_CONTROLLER))];
      var mod := new FlowMod.WithFields(0, 0, 0, OFPFC_ADD, OFP_FLOW_PERMANENT, OFP_FLOW_PERMANENT, 0, 0,
                                        OFPP_ANY, OFPG_ANY, flowModFlags);
      mod.AddMatch([]);
      mod.AddInstructions(inst);
      sent := sent + [SentFlowMod(e.dpid, mod.fmMsg, 0)];
      d := CONTINUE;
    }
  }
}
